=== FILE: README.md ===
# Household manager — a Dafny model of its rules

This project models the rules of a shared-house ("república") manager, a
Flask/SQLAlchemy web application. The rules cover the weekly chore rotation,
the chore catalogue, users and roles, the rent split, variable expenses
paid in installments, the petty cash ("caixinha"), the monthly closing and
its reopening, and the two finance dashboards.

The database is an immutable `Store` with one sequence per table, in id
order. New rows get `NextId`, one more than the largest id in the table.
Each HTTP handler becomes a pure function from the store and the request
fields to a `Step`: the new store plus a `Reply`. The reply is `Done`, a
flashed `Refused(reason)`, `Forbidden` (HTTP 403) or `NotFound` (HTTP 404).
Every refusal leaves the store unchanged. This is how the model states the
source's rollbacks and its early redirects.

Money is integer cents. The exact identities of the rent split and of the
closing's equal shares are stated over `real`. "Now" (instant, month, year)
is a parameter. A form field is `Blank`, `Malformed` or `Given(n)`.

Modules, one per source file of the core:

- `Common`, `Text`: sums and filters over tables, and string helpers.
  - String helpers: strip, ASCII lower-casing, substring, and SQL `LIKE`.
- `Models`: the records, role predicates, id lookup, and the closing cascade.
- `Escala`: the weekly chore rotation.
- `Tarefas`: the chore catalogue.
- `Admin`: user administration.
- `Aluguel`: rent and fixed expenses.
- `Caixinha`: the petty-cash summary.
- `Lancamentos`: variable expenses.
- `Fechamento`: monthly closing.
- `Dashboard`: the dashboards and the withdrawal.

## Model

| member | source | states |
|---|---|---|
| Models.IsGerenciador | app/models.py:43-47 | every 'admin' is a manager and a plain 'usuario' never is |
| Models.Moradores | app/financas/routes_fechamento.py:58-59 | the residents are exactly the users whose cargo is not 'admin', and no one else |
| Models.NextId | app/models.py:14 | a new row's id is positive and differs from every id already in the table |
| Models.IndexOfId | app/financas/routes_fechamento.py:150 | `query.get(id)` finds the first row with that id, or reports that no row has it |
| Models.DeleteClosing | app/models.py:97 | deleting a closing removes it and exactly those balance rows that point at it; other tables are untouched |
| Escala.CycleNumber | app/escala.py:25-26 | the cycle is the five-week block that holds week `(ano-2024)*52+semana` |
| Escala.SameRosterByParity | app/escala.py:50-53 | two weeks use the same roster exactly when their five-week blocks have the same parity |
| Escala.Rotation | app/escala.py:55 | the offset `(semana*-2) % n` lies in `[0, n)` and undoes two steps per week |
| Escala.RotateLeft | app/escala.py:56 | `base[r:]+base[:r]` has the same length and elements, with `x[i] == base[(i+r) % n]` |
| Escala.Adjust | app/escala.py:58-59 | the roster stretched to `n` entries has entry `i` equal to `final[i % len(final)]` |
| Escala.Roster | app/escala.py:50-56 | the week's roster has ten names, the same multiset as its base roster |
| Escala.GeneratedRows | app/escala.py:47-61 | one row per recurring chore, in catalogue order, with consecutive fresh ids; row `i` is for that week, pending, recurring, and assigned roster entry `i % 10` |
| Escala.VerEscala | app/escala.py:44-65 | a week that has rows is left as it is; otherwise exactly the generated rows are appended to the weekly table and no other table changes |
| Escala.VerEscalaIdempotent | app/escala.py:44-46 | viewing a week a second time adds nothing |
| Escala.RosterAlternates | app/escala.py:50-53 | five weeks later the other roster is used, ten weeks later the same one, and within a block the roster stays |
| Escala.RostersSameNames | app/escala.py:11-18 | the inverted roster holds the same ten names as the original one |
| Escala.RosterDistinct | app/escala.py:11-18 | the ten names of the roster are pairwise distinct |
| Escala.RosterHasAllNames | app/escala.py:50-56 | every week's roster holds each of the ten names exactly once |
| Escala.OneChoreEach | app/escala.py:58-61 | with ten recurring chores, each of the ten residents gets exactly one generated chore that week |
| Escala.WeekNamesAreRoster | app/escala.py:58-61 | the generated rows' assignees are the week's roster, in order |
| Escala.AdicionarAvulsa | app/escala.py:72-91 | an extra chore is added iff a manager gives a non-blank description and an assignee; it is pending and 'avulsa' |
| Escala.AdicionarAvulsaKeepsRotation | app/escala.py:44-91 | an extra chore keeps the number of recurring rows, and once a week has one, viewing that week generates nothing |
| Escala.EditTarefaSemanal | app/escala.py:96-107 | a non-manager gets 403 and an unknown id 404; a manager's edit of an existing row always succeeds, giving that row the stripped text and the new assignee; every row keeps its kind, status, id and week |
| Escala.EditTarefaSemanalKeepsRotation | app/escala.py:96-107 | an edit changes neither which weeks have rows nor the number of recurring rows, and repeating it changes nothing more |
| Escala.DeletarTarefaSemanal | app/escala.py:114-127 | a non-manager gets 403 and an unknown id 404; a recurring row is refused, an 'avulsa' row is removed exactly at its index, and every recurring row survives |
| Escala.Fazer | app/escala.py:132-139 | the row becomes 'feita' iff the actor is its assignee or a manager; otherwise nothing changes |
| Escala.FazerIdempotent | app/escala.py:132-139 | marking a row done a second time changes nothing and gives the same answer |
| Tarefas.CriarTarefa | app/tarefas.py:19-40 | a chore is created iff a manager gives a non-blank description not already in the catalogue; it is not recurring |
| Tarefas.CriarTarefaKeepsCatalogue | app/tarefas.py:26-33 | creation keeps descriptions distinct and leaves the recurring chores as they were |
| Tarefas.EditTarefa | app/tarefas.py:45-61 | an edit changes only that chore's description, never `recorrente`, and refuses a blank one |
| Tarefas.EditTarefaKeepsRotationSize | app/tarefas.py:50-57 | renaming never changes how many chores are in the weekly rotation |
| Tarefas.DeletarTarefa | app/tarefas.py:66-78 | a recurring chore is refused and any other chore is removed |
| Tarefas.DeletarTarefaKeepsRotation | app/tarefas.py:71-77 | whatever is deleted, the rotation's chore list is unchanged |
| Admin.NormalizeUsername | app/admin.py:55 | the stored username has no white space at either end and no capital letter, and is empty exactly when the input is all white space |
| Admin.NormalizeIdempotent | app/admin.py:55 | normalising a normalised username changes nothing |
| Text.StripSeparator | app/admin.py:55 | stripping removes the ASCII separators `str.isspace()` accepts, such as a leading 0x1C |
| Admin.CriarUsuario | app/admin.py:49-93 | a user is created iff all fields are given, the username is free, the room type is valid and only an admin grants 'admin' |
| Admin.CriarUsuarioInvariants | app/admin.py:64-70 | creation keeps usernames unique, and a non-admin manager never creates an admin |
| Admin.EditUsuario | app/admin.py:96-148 | a non-admin manager cannot edit an admin; the username must be free; the password changes only when one is given |
| Admin.EditUsuarioInvariants | app/admin.py:115-122 | editing keeps usernames unique, and a non-admin manager never makes an admin |
| Admin.EditCanDemoteLastAdmin | app/admin.py:120-135 | an admin can give the 'usuario' cargo to the only admin, itself, leaving no admin |
| Admin.DeletarUsuario | app/admin.py:151-172 | deletion is admin-only and refuses oneself and the only admin; a user with a monthly balance cannot be deleted (the NOT NULL `user_id` of app/models.py:104 makes the delete fail and roll back); otherwise the user is removed and their entries, rent rows and petty-cash movements lose their user, as the relationships of app/models.py:25-34 without cascade do |
| Admin.DeletarUsuarioKeepsAnAdmin | app/admin.py:153-161 | a store with an admin still has one after any deletion |
| Admin.DeletarUsuarioKeepsReferences | app/admin.py:163-169 | after any deletion every row still points at an existing user, and neither the entries' total nor the petty-cash balance changes |
| Admin.AdicionarSaldoCaixinhaManual | app/admin.py:188-224 | a manual deposit is accepted iff an admin gives a description and a positive value; it is stored positive, prefixed, with the admin's id |
| Aluguel.SplitRent | app/financas/routes_aluguel.py:28-33 | with no residents there is no split; otherwise individual = shared + d and `n1*individual + (N-n1)*shared == total` |
| Aluguel.RoundedRates | app/financas/routes_aluguel.py:35-36 | the stored rates are the exact rates rounded to cents, each within half a cent |
| Aluguel.ChargedByRoomType | app/financas/routes_aluguel.py:43 | the residents are charged the individual rate once per individual room and the shared rate otherwise |
| Aluguel.RoundedRentsCoverTotal | app/financas/routes_aluguel.py:32-36 | after rounding, the residents' rents add up to the total within half a cent per resident |
| Aluguel.UpsertRent | app/financas/routes_aluguel.py:44-60 | the resident's first rent row is updated, or one is appended when there is none, active and at the given value |
| Aluguel.UpsertRentFrame | app/financas/routes_aluguel.py:44-60 | storing one resident's rent leaves every other resident's rent row as it was |
| Aluguel.RecalcRowsCharges | app/financas/routes_aluguel.py:42-60 | after the update every listed resident's first rent row is active and charges that resident's rate |
| Aluguel.RecalcularAlugueis | app/financas/routes_aluguel.py:13-64 | with no residents nothing is written; otherwise only fixed expenses change and the rates are the rounded split |
| Aluguel.MoradoresCharged | app/financas/routes_aluguel.py:19-60 | every non-admin user ends with an active rent row at the rate of their room type |
| Aluguel.EnsureMaster | app/financas/routes_aluguel.py:74-79 | a missing master rent row is created at zero and inactive; an existing one is kept |
| Aluguel.GerenciarAluguel | app/financas/routes_aluguel.py:70-109 | managers only; a master row always exists afterwards; a POST stores the total and difference on it and recomputes the rents |
| Aluguel.MasterSurvivesRecalc | app/financas/routes_aluguel.py:42-60 | recomputing rents leaves the master row where and as it was |
| Aluguel.AdicionarDespesaFixa | app/financas/routes_aluguel.py:139-164 | a fixed expense is added iff a manager gives a description and a non-negative value whose name is not taken, ignoring case |
| Aluguel.AdicionarKeepsNamesUnique | app/financas/routes_aluguel.py:150-154 | adding keeps descriptions unique up to letter case |
| Aluguel.EditarDespesaFixa | app/financas/routes_aluguel.py:168-210 | an edit is refused when the old or new description mentions rent, the value is negative, or the name is taken |
| Aluguel.EditarKeepsRent | app/financas/routes_aluguel.py:181-189 | the fixed-expense editor never changes a row about rent, never makes a row about rent, and keeps the residents' rent total |
| Aluguel.AlternarStatus | app/financas/routes_aluguel.py:214-225 | a toggle flips `ativa` of that one row and changes nothing else |
| Aluguel.AlternarTwice | app/financas/routes_aluguel.py:218 | toggling twice restores the store |
| Aluguel.DeletarDespesaFixaPermanente | app/financas/routes_aluguel.py:229-244 | admin-only; master 'Aluguel'/'Caixinha' rows are refused; otherwise exactly that row is removed |
| Aluguel.DeletarKeepsMasters | app/financas/routes_aluguel.py:230-236 | every master row survives a permanent delete |
| Caixinha.SortNewestFirst | app/financas/__init__.py:38 | movements sorted newest first are a permutation of the table |
| Caixinha.UltimasMovimentacoes | app/financas/__init__.py:38 | at most ten movements, newest first, from the table, and none left out is newer than one shown |
| Caixinha.DadosCaixinha | app/financas/__init__.py:22-44 | the balance is the sum of all movements plus the zero offset; the contribution sums active household 'Caixinha' rows; the projection adds the two; the list is the table's ten newest movements |
| Caixinha.SaldoAppend | app/financas/__init__.py:24-31 | appending a movement moves the balance by exactly its value |
| Caixinha.ContribuicaoIgnoresOthers | app/financas/__init__.py:32-36 | changing a row that is not an active household 'Caixinha' row leaves the contribution unchanged |
| Lancamentos.ResolvePayer | app/financas/routes_lancamentos.py:64-82 | a non-manager always pays; a manager picks the house or an existing non-admin user, and anything else is refused |
| Lancamentos.AddMonths | app/financas/routes_lancamentos.py:94 | installment `i` is referenced `i` months after today, wrapping into later years |
| Lancamentos.SplitAsWritten | app/financas/routes_lancamentos.py:85-98 | the handler's own split: the first n-1 installments equal the rounded base, and all n sum to the total |
| Lancamentos.SplitAsWrittenGoesNegative | app/financas/routes_lancamentos.py:86-98 | R$0.06 in ten installments leaves a last installment of -R$0.03 |
| Lancamentos.SplitInstallments | app/financas/routes_lancamentos.py:85-98 | n installments summing to the total, equal except for the last, which is at most n-1 cents more and never negative |
| Lancamentos.NumParcelas | app/financas/routes_lancamentos.py:52-58 | the installment count is the typed count when it is at least 1, and 1 for a blank field or a count below 1 |
| Lancamentos.ParcelaDescricao | app/financas/routes_lancamentos.py:100-102 | a split purchase's entry is the description followed by " (k/n)" in decimal; otherwise the bare description |
| Lancamentos.Parcela | app/financas/routes_lancamentos.py:100-117 | an installment carries its month, payer and value; the group fields are set iff n > 1 |
| Lancamentos.BuildEntries | app/financas/routes_lancamentos.py:92-117 | exactly n entries with fresh ids, one per month, whose values are the handler's split (or the corrected one when asked) |
| Lancamentos.AdicionarGasto | app/financas/routes_lancamentos.py:43-117 | a missing field, a malformed or non-positive value, or a refused payer changes nothing; otherwise the installments of the handler's own split are appended |
| Lancamentos.AdicionarGastoTotal | app/financas/routes_lancamentos.py:85-117 | an accepted expense raises the total of all entries by exactly the value; every installment but the last is the rounded share and the last takes the rest |
| Lancamentos.AdicionarGastoStoresNegative | app/financas/routes_lancamentos.py:85-117 | the handler accepts R$0.06 in ten installments and stores a last entry of -R$0.03 |
| Lancamentos.AdicionarGastoCorrigido | app/financas/routes_lancamentos.py:43-117 | the same guards, with the installments of the corrected split appended |
| Lancamentos.AdicionarGastoCorrigidoTotal | app/financas/routes_lancamentos.py:85-117 | with the corrected split, an accepted expense raises the total by exactly the value and no installment is negative |
| Lancamentos.EditarLancamento | app/financas/routes_lancamentos.py:155-228 | an edit is refused to non-managers on others' entries and on closed months; it needs a positive value and a valid payer |
| Lancamentos.EditarKeepsClosedMonths | app/financas/routes_lancamentos.py:161-170 | an edit never changes an entry of a closed month |
| Lancamentos.DeletarLancamento | app/financas/routes_lancamentos.py:233-264 | deletion has the same permission and closed-month guards and removes exactly that entry |
| Lancamentos.DeletarKeepsOthers | app/financas/routes_lancamentos.py:247-257 | deleting one installment keeps every other entry, its siblings included |
| Fechamento.BucketsPartition | app/financas/routes_fechamento.py:32-48 | every active fixed expense is in at most one of rent, petty cash and other, and the bucket sums add up |
| Fechamento.AluguelDe | app/financas/routes_fechamento.py:91-96 | a resident's rent is their first active 'Aluguel' row, if any |
| Fechamento.Cota | app/financas/routes_fechamento.py:63-64 | n equal shares make up the household total exactly |
| Fechamento.Balanco | app/financas/routes_fechamento.py:103-122 | owed = own rent + share, final = credited - owed, status 'pendente' |
| Fechamento.Balancos | app/financas/routes_fechamento.py:88-124 | one balance per resident, in table order, with consecutive ids; each is pending, bound to the closing, holds the resident's credited entries of the month and their first active rent, the equal share of the household costs, and owes rent plus share |
| Fechamento.Fechar | app/financas/routes_fechamento.py:67-124 | a closing appends one 'fechado' row of the month with a fresh id and the month's totals, then one balance per resident after the old ones; the petty-cash balance grows by the petty-cash total when it is positive; no other table changes |
| Fechamento.FecharMes | app/financas/routes_fechamento.py:18-142 | managers only; refused with no effect if the month is closed, there are no residents, or a resident has no active rent row |
| Fechamento.FecharTwiceRefused | app/financas/routes_fechamento.py:26-28 | closing a month a second time is refused |
| Fechamento.FecharMesBalances | app/financas/routes_fechamento.py:88-124 | the old balances stay in front and one balance per resident follows, in order: bound to the new closing, pending, with the resident's credited entries, their own rent, the equal share and the balance identity |
| Fechamento.FecharMesDeposit | app/financas/routes_fechamento.py:79-86 | a house deposit worth the petty-cash total is made iff that total is positive, and the balance grows by it |
| Fechamento.SomaBalancos | app/models.py:106-117 | balances built with the identity sum to total credited minus total owed |
| Fechamento.SharedBalancesConserve | app/financas/routes_fechamento.py:63-122 | balances that keep the identity and each owe an equal share of a total: the shares make the total, and the final balances sum to credited minus rent minus the total |
| Fechamento.FecharMesConserves | app/financas/routes_fechamento.py:51-122 | the shares add up to exactly the household costs; the final balances sum to credited minus rent minus those costs |
| Fechamento.DepositoMaisRecente | app/financas/routes_fechamento.py:154-159 | the found deposit matches the closing and no later movement does |
| Fechamento.ReabrirMes | app/financas/routes_fechamento.py:148-174 | managers only; removes the closing, its balances and the newest matching deposit when the closing had one |
| Fechamento.ReabrirRemovesAtMostOneDeposit | app/financas/routes_fechamento.py:153-163 | reopening removes at most one petty-cash movement, and only a matching house deposit |
| Fechamento.ReabrirUndoesFechar | app/financas/routes_fechamento.py:146-168 | reopening the closing just made restores the store exactly |
| Fechamento.QuitarSaldo | app/financas/routes_fechamento.py:199-215 | 'pendente' becomes 'quitado' and any other status 'pendente'; nothing else changes |
| Fechamento.QuitarTwice | app/financas/routes_fechamento.py:205-210 | settling twice restores a balance that was pending or settled |
| Dashboard.Retirar | app/financas/routes_dashboard.py:123-152 | a withdrawal needs a description and a positive value no larger than the balance; it appends one movement of -v with the actor's id |
| Dashboard.RetirarNeverOverdraws | app/financas/routes_dashboard.py:139-149 | an accepted withdrawal lowers the balance by exactly its value and never below zero |
| Dashboard.DepositThenWithdraw | app/admin.py:188-224 | a manual deposit raises the balance by its value, and the same admin can then withdraw that value, which restores the balance |
| Dashboard.GastosPorUsuario | app/financas/routes_dashboard.py:73-87 | one line per non-admin user with their username and room type, and 0 for one who paid no entry of the month |
| Dashboard.PerUserIsCredited | app/financas/routes_dashboard.py:73-87 | with unique ids and usernames, each line is what that resident is credited with that month |
| Dashboard.DeletedRentChargesNobody | app/financas/routes_fechamento.py:32-48 | after a user is deleted their rent row is ownerless and named 'Aluguel', keeps its value and status, falls in no bucket of the closing or the dashboard, and is protected from the permanent delete |
| Dashboard.HouseEntryCountsForNobody | app/financas/routes_dashboard.py:73-87 | an entry paid by the house changes no resident's line |
| Dashboard.FechamentoDoMes | app/financas/routes_dashboard.py:61-63 | the month's closing is found iff the month is closed |
| Dashboard.DashboardTesoureiro | app/financas/routes_dashboard.py:56-117 | managers only; a closed month shows its report; otherwise total = other fixed + variable + rent, and to pay = total + contribution |
| Dashboard.RowReadAlike | app/financas/routes_dashboard.py:90-100 | a plainly named fixed expense falls in the same bucket on the dashboard as in the closing |
| Dashboard.DisplayMatchesClosing | app/financas/routes_dashboard.py:90-104 | when every fixed expense is plainly named, the dashboard's totals equal the closing's |
| Dashboard.DashboardUsuario | app/financas/routes_dashboard.py:32-51 | a closed month shows its report; otherwise the page shows the resident's own entries of the month and their sum |
| Dashboard.UserTotalIsCredited | app/financas/routes_dashboard.py:40-45 | the resident's total is what they are credited with for the month |

## Left out

- The calendar is not modelled: ISO weeks, `date.today`, `datetime.utcnow` and week navigation (app/escala.py:32-42). Year, week, month and the instant are parameters, and generation is modelled for any (year, week).
- Passwords are stored as given in `credential`. Hashing them is a foreign call.
- `uuid.uuid4` is modelled as an opaque group id passed in by the caller.
- Flask routing, templates, flash messages, redirects and login sessions are left out. So are SQLAlchemy sessions, commits and exception rollbacks, except where a rollback is a rule (the closing's missing-rent abort, and the failed deletion of a user who has monthly balances).
- The `dashboard()` dispatcher (app/financas/routes_dashboard.py:18-30) only redirects by role, so it is not modelled.
- Fields missing from the form (`None` rather than blank) are not modelled. Blank and unparsable fields are, except in the rent form (see Aluguel.GerenciarAluguel below).
- The reports are not modelled: the chart, history and report routes (app/financas/routes_fechamento.py:179-259, app/escala.py:141-148), and the lists of users and chores.
- Concurrency is not modelled, including two closings of the same month at once.
- Ordering is not modelled beyond table order, except the petty-cash list's date order. This covers the per-user table's `ORDER BY username` and the entry lists' date order.
- Column defaults of app/models.py appear only where a handler relies on them: a pending recurring chore row, a pending balance, and the status a closing writes.
- app/routes.py, app/__init__.py, app/commands.py and app/static/sw.js are not part of this model.
- Common.RoundHalfUp: rounds half-up on exact values; Python's `round` on binary floats (banker's rounding) is not modelled.
- Aluguel.RoundedRates: bounds hold for the half-up rounding above, not for float rounding.
- Lancamentos.SplitAsWritten: uses the same half-up rounding, so it may differ from the float computation by one cent on exact halves.
- Aluguel.GerenciarAluguel: the rent form is read with `type=float`, so a blank or unparsable field becomes `None` rather than an error, and the model takes both values as integers in cents. Two outcomes are therefore not modelled. A `None` total goes into the master row's NOT NULL `valor` (app/models.py:125), so the commit fails with a server error and nothing is stored. A `None` difference is committed to the master row; with at least one resident, the recalculation then fails on `diferenca * n1` (app/financas/routes_aluguel.py:32) with a server error, and the master row keeps the NULL difference.
- Aluguel.RecalcularAlugueis: receives the two values as integers in cents; the `None` values above never reach it in the model.
- Text.LikeContains: SQL `LIKE` folds ASCII letters only, like SQLite's default; other collations are not modelled.
- Admin.NormalizeUsername: lower-cases only the letters A to Z and strips only the ASCII white space of `str.isspace()` (space, tab, the line breaks, vertical tab, form feed and the separators 0x1C to 0x1F). Python's `str.lower` and `str.strip` are Unicode-aware: "JOÃO" is stored as "joão" by the program and as "joÃo" by the model, and non-ASCII white space such as U+00A0 or U+0085 at either end is removed by the program and kept by the model. The same holds for the chore descriptions, which use the same `Text.Strip`.
- Admin.DeletarUsuario: the failed delete is modelled as one refusal, `HasBalances`, for the only dependency that makes it fail; other database errors are not modelled.

Behaviour of the program worth noting:

- The closing's variable total counts every entry of the month, including ones a resident paid.
- The petty-cash contribution matches 'Caixinha' with a case-insensitive `LIKE`, whereas the closing's petty-cash bucket requires the exact name.
- The treasurer's dashboard buckets use case-sensitive substring tests. `Dashboard.DisplayMatchesClosing` states when the dashboard and the closing agree.
- Reopening checks neither the closing's status nor its month.
- Adding an expense to a closed month is not refused. Only edit and delete check for a closed month.
- Deleting a user who has no monthly balance turns their entries into household expenses. Their rent row becomes an ownerless 'Aluguel' row, which is how the master rent row is marked: the closing and the treasurer's page charge it to no one, and it cannot be deleted for good (`Dashboard.DeletedRentChargesNobody`).
- The installments are stored as the handler rounds them, so a small total split many ways can store a negative last installment (see Findings). `Lancamentos.AdicionarGastoCorrigido` is the handler with the corrected split.

## Findings

| source | as written | input that shows it | evidently intended | confidence | as-written member | corrected member |
|---|---|---|---|---|---|---|
| app/financas/routes_lancamentos.py:86-98 | each installment is the total over n rounded to cents, and the last one absorbs the difference | R$0.06 in 10 installments: nine of R$0.01 and a last one of -R$0.03 | non-negative installments that sum to the total | not executed | Lancamentos.AdicionarGastoStoresNegative | Lancamentos.AdicionarGastoCorrigidoTotal |

=== FILE: admin.dfy ===
/**
 User administration and the manual petty-cash deposit. Managers create and
 edit users; only an admin may hand out the 'admin' cargo, edit an admin,
 delete users or deposit into the petty cash by hand.
 */
module Admin {
  import opened Common
  import opened Models
  import Text
  import Caixinha
  import Lancamentos

  /** The two room types the rent split knows. */
  const TIPOS_QUARTO: seq<string> := [INDIVIDUAL, COMPARTILHADO]

  /** The prefix a manual deposit's description gets. */
  const PREFIXO_AJUSTE := "Ajuste manual ADM: "

  predicate ValidRoomType(t: string)
  {
    t in TIPOS_QUARTO
  }

  /** `username.strip().lower()`: no white space at either end, no capital
      letter, and empty exactly when the name is only white space. */
  function NormalizeUsername(username: string): (u: string)
    ensures |u| <= |username|
    ensures Text.Lower(u) == u
    ensures |u| > 0 ==> !Text.IsSpace(u[0]) && !Text.IsSpace(u[|u| - 1])
    ensures |u| == 0 <==> forall i :: 0 <= i < |username| ==> Text.IsSpace(username[i])
  {
    var st := Text.Strip(username);
    LowerIdempotent(st);
    LowerKeepsSpace(st);
    Text.Lower(st)
  }

  /** Lowering moves no character into or out of the white space. */
  lemma LowerKeepsSpace(x: string)
    ensures forall i :: 0 <= i < |x| ==> (Text.IsSpace(Text.Lower(x)[i]) <==> Text.IsSpace(x[i]))
  {
    forall i | 0 <= i < |x|
      ensures Text.IsSpace(Text.Lower(x)[i]) <==> Text.IsSpace(x[i])
    {
      assert Text.Lower(x)[i] == Text.LowerChar(x[i]);
    }
  }

  /** Normalising a normalised username changes nothing, so a name stored
      once is found again by the same normalisation. */
  lemma NormalizeIdempotent(username: string)
    ensures NormalizeUsername(NormalizeUsername(username)) == NormalizeUsername(username)
  {
    var u := NormalizeUsername(username);
    if |u| > 0 {
      Text.NoSpaceAtEnds(u);
    }
    assert Text.Strip(u) == u;
  }

  lemma LowerIdempotent(x: string)
    ensures Text.Lower(Text.Lower(x)) == Text.Lower(x)
  {
    var l := Text.Lower(x);
    assert forall i :: 0 <= i < |l| ==> Text.LowerChar(l[i]) == l[i];
  }

  predicate UsernameTaken(users: seq<User>, u: string)
  {
    exists i :: 0 <= i < |users| && users[i].username == u
  }

  /** Some user other than the one with id `id` has this username. */
  predicate UsernameTakenByOther(users: seq<User>, u: string, id: nat)
  {
    exists i :: 0 <= i < |users| && users[i].username == u && users[i].id != id
  }

  predicate UniqueUsernames(users: seq<User>)
  {
    forall i, j :: 0 <= i < j < |users| ==> users[i].username != users[j].username
  }

  /** Creating a user (managers only): the normalised username, the password,
      the cargo and the room type are required; the username must be free,
      the 'admin' cargo needs an admin, and the room type must be known. */
  function CriarUsuario(s: Store, actor: User, username: string, password: string,
                        cargo: string, tipoQuarto: string): (r: Step)
    ensures r.store == s.(users := r.store.users)
    ensures r.reply != Done ==> r.store == s
    ensures !IsGerenciador(actor) ==> r.reply == Forbidden
    ensures r.reply == Done <==>
              && IsGerenciador(actor)
              && NormalizeUsername(username) != [] && password != [] && cargo != [] && tipoQuarto != []
              && !UsernameTaken(s.users, NormalizeUsername(username))
              && (cargo == ADMIN ==> IsAdmin(actor))
              && ValidRoomType(tipoQuarto)
    ensures r.reply == Refused(AdminOnly) ==> cargo == ADMIN && !IsAdmin(actor)
    ensures r.reply == Done ==>
              && |r.store.users| == |s.users| + 1
              && r.store.users[..|s.users|] == s.users
              && var u := r.store.users[|s.users|];
                 && u.username == NormalizeUsername(username) && Text.Lower(u.username) == u.username
                 && u.credential == password && u.cargo == cargo && u.tipoQuarto == tipoQuarto
                 && forall i :: 0 <= i < |s.users| ==> s.users[i].id < u.id
  {
    var u := NormalizeUsername(username);
    if !IsGerenciador(actor) then Step(s, Forbidden)
    else if u == [] || password == [] || cargo == [] || tipoQuarto == [] then Step(s, Refused(MissingField))
    else if UsernameTaken(s.users, u) then Step(s, Refused(Duplicate))
    else if cargo == ADMIN && !IsAdmin(actor) then Step(s, Refused(AdminOnly))
    else if !ValidRoomType(tipoQuarto) then Step(s, Refused(InvalidRoomType))
    else
      Step(s.(users := WithNewUser(s.users, u, password, cargo, tipoQuarto)), Done)
  }

  /** The users with a new one appended under a fresh id, above every existing id. */
  function WithNewUser(users: seq<User>, u: string, password: string, cargo: string,
                       tipoQuarto: string): (r: seq<User>)
    ensures r == users + [User(NextId(UserIds(users)), u, password, cargo, tipoQuarto)]
    ensures |r| == |users| + 1 && r[..|users|] == users
    ensures forall i :: 0 <= i < |users| ==> users[i].id < r[|users|].id
  {
    var ids := UserIds(users);
    assert forall i :: 0 <= i < |users| ==> users[i].id == ids[i];
    users + [User(NextId(ids), u, password, cargo, tipoQuarto)]
  }

  /** Creation keeps usernames unique, and a manager who is not an admin
      never changes how many admins there are. */
  lemma CriarUsuarioInvariants(s: Store, actor: User, username: string, password: string,
                               cargo: string, tipoQuarto: string)
    ensures var r := CriarUsuario(s, actor, username, password, cargo, tipoQuarto);
            && (UniqueUsernames(s.users) ==> UniqueUsernames(r.store.users))
            && (!IsAdmin(actor) ==> CountAdmins(r.store.users) == CountAdmins(s.users))
  {
    var r := CriarUsuario(s, actor, username, password, cargo, tipoQuarto);
    if r.reply == Done {
      var u := r.store.users[|s.users|];
      assert r.store.users == s.users + [u];
      CountConcat(s.users, [u], IsAdmin);
      assert Count([u], IsAdmin) == (if IsAdmin(u) then 1 else 0) by {
        assert [u][..0] == [];
      }
    }
  }

  /** Editing a user (managers only). An admin can be edited only by an admin;
      username, cargo and room type are required; the username must not
      belong to another user; the password changes only when one is given. */
  function EditUsuario(s: Store, actor: User, id: nat, username: string, password: string,
                       cargo: string, tipoQuarto: string): (r: Step)
    ensures r.store == s.(users := r.store.users)
    ensures r.reply != Done ==> r.store == s
    ensures !IsGerenciador(actor) ==> r.reply == Forbidden
    ensures IsGerenciador(actor) ==>
              match IndexOfId(UserIds(s.users), id)
              case None => r.reply == NotFound
              case Some(k) =>
                && (IsAdmin(s.users[k]) && !IsAdmin(actor) ==> r.reply == Refused(CannotEditAdmin))
                && (r.reply == Done <==>
                      && (IsAdmin(s.users[k]) ==> IsAdmin(actor))
                      && NormalizeUsername(username) != [] && cargo != [] && tipoQuarto != []
                      && !UsernameTakenByOther(s.users, NormalizeUsername(username), id)
                      && (cargo == ADMIN ==> IsAdmin(actor))
                      && ValidRoomType(tipoQuarto))
                && (r.reply == Done ==>
                      && |r.store.users| == |s.users|
                      && (forall i :: 0 <= i < |s.users| && i != k ==> r.store.users[i] == s.users[i])
                      && var (a, b) := (s.users[k], r.store.users[k]);
                         && b.id == a.id && b.username == NormalizeUsername(username)
                         && b.cargo == cargo && b.tipoQuarto == tipoQuarto
                         && b.credential == (if password == [] then a.credential else password))
  {
    if !IsGerenciador(actor) then Step(s, Forbidden)
    else match IndexOfId(UserIds(s.users), id)
      case None => Step(s, NotFound)
      case Some(k) =>
        var alvo := s.users[k];
        var u := NormalizeUsername(username);
        if IsAdmin(alvo) && !IsAdmin(actor) then Step(s, Refused(CannotEditAdmin))
        else if u == [] || cargo == [] || tipoQuarto == [] then Step(s, Refused(MissingField))
        else if UsernameTakenByOther(s.users, u, id) then Step(s, Refused(Duplicate))
        else if cargo == ADMIN && !IsAdmin(actor) then Step(s, Refused(AdminOnly))
        else if !ValidRoomType(tipoQuarto) then Step(s, Refused(InvalidRoomType))
        else
          var cred := if password == [] then alvo.credential else password;
          Step(s.(users := s.users[k := User(alvo.id, u, cred, cargo, tipoQuarto)]), Done)
  }

  /** Editing keeps usernames unique when ids are, and a manager who is not
      an admin never changes how many admins there are. */
  lemma EditUsuarioInvariants(s: Store, actor: User, id: nat, username: string, password: string,
                              cargo: string, tipoQuarto: string)
    requires DistinctIds(UserIds(s.users))
    ensures var r := EditUsuario(s, actor, id, username, password, cargo, tipoQuarto);
            && (UniqueUsernames(s.users) ==> UniqueUsernames(r.store.users))
            && (!IsAdmin(actor) ==> CountAdmins(r.store.users) == CountAdmins(s.users))
  {
    var r := EditUsuario(s, actor, id, username, password, cargo, tipoQuarto);
    if r.reply == Done {
      var k := IndexOfId(UserIds(s.users), id).value;
      var ids := UserIds(s.users);
      assert r.store.users == s.users[k := r.store.users[k]];
      CountUpdate(s.users, k, r.store.users[k], IsAdmin);
      if UniqueUsernames(s.users) {
        forall i, j | 0 <= i < j < |r.store.users|
          ensures r.store.users[i].username != r.store.users[j].username
        {
          if i == k || j == k {
            var o := if i == k then j else i;
            assert ids[o] != ids[k];
            assert s.users[o].id != id;
          }
        }
      }
    }
  }

  /** An admin can hand the 'usuario' cargo to the only admin, itself
      included, which leaves the store without any admin: the edit handler
      has no counterpart of the delete handler's last-admin guard. */
  lemma EditCanDemoteLastAdmin()
    ensures var adm := User(1, "adm", "x", ADMIN, INDIVIDUAL);
            var s := Store([adm], [], [], [], [], [], [], []);
            var r := EditUsuario(s, adm, 1, "adm", "", USUARIO, INDIVIDUAL);
            r.reply == Done && CountAdmins(s.users) == 1 && CountAdmins(r.store.users) == 0
  {
    var adm := User(1, "adm", "x", ADMIN, INDIVIDUAL);
    var s := Store([adm], [], [], [], [], [], [], []);
    assert UserIds(s.users) == [1];
    assert IndexOfId([1], 1) == Some(0);
    assert !UsernameTakenByOther(s.users, "adm", 1);
    assert NormalizeUsername("adm") == "adm" by { NormalizedAdm(); }
    var r := EditUsuario(s, adm, 1, "adm", "", USUARIO, INDIVIDUAL);
    assert r.reply == Done;
    var demoted := User(1, "adm", "x", USUARIO, INDIVIDUAL);
    assert r.store.users == [demoted];
    assert [adm][..0] == [] && [demoted][..0] == [];
    assert IsAdmin(adm) && !IsAdmin(demoted);
    assert Count([adm], IsAdmin) == Count([adm][..0], IsAdmin) + 1;
    assert Count([demoted], IsAdmin) == Count([demoted][..0], IsAdmin);
  }

  lemma NormalizedAdm()
    ensures NormalizeUsername("adm") == "adm"
  {
    var x := "adm";
    assert !Text.IsSpace(x[0]) && !Text.IsSpace(x[|x| - 1]);
    Text.NoSpaceAtEnds(x);
    assert Text.Lower(x) == x;
  }

  /** Some monthly balance belongs to the user. */
  predicate HasSaldos(saldos: seq<SaldoMensal>, uid: nat)
  {
    exists i :: 0 <= i < |saldos| && saldos[i].userId == uid
  }

  /** The entries once the user's are credited to the household. */
  function SoltarLancamentos(ls: seq<Lancamento>, uid: nat): (r: seq<Lancamento>)
    ensures |r| == |ls|
    ensures forall i :: 0 <= i < |ls| ==>
              r[i] == (if ls[i].userId == Some(uid) then ls[i].(userId := None) else ls[i])
  {
    seq(|ls|, i requires 0 <= i < |ls| => if ls[i].userId == Some(uid) then ls[i].(userId := None) else ls[i])
  }

  /** The fixed expenses once the user's rent row belongs to nobody. */
  function SoltarFixas(fs: seq<DespesaFixa>, uid: nat): (r: seq<DespesaFixa>)
    ensures |r| == |fs|
    ensures forall i :: 0 <= i < |fs| ==>
              r[i] == (if fs[i].moradorId == Some(uid) then fs[i].(moradorId := None) else fs[i])
  {
    seq(|fs|, i requires 0 <= i < |fs| => if fs[i].moradorId == Some(uid) then fs[i].(moradorId := None) else fs[i])
  }

  /** The petty-cash movements once the user's lose their author. */
  function SoltarMovimentos(ms: seq<CaixinhaMovimentacao>, uid: nat): (r: seq<CaixinhaMovimentacao>)
    ensures |r| == |ms|
    ensures forall i :: 0 <= i < |ms| ==>
              r[i] == (if ms[i].userId == Some(uid) then ms[i].(userId := None) else ms[i])
  {
    seq(|ms|, i requires 0 <= i < |ms| => if ms[i].userId == Some(uid) then ms[i].(userId := None) else ms[i])
  }

  /** Deleting a user (admins only): nobody deletes themself, and the only
      admin is never deleted. The user's relationships have no cascade, so
      the delete sets their entries', rent rows' and movements' user to
      NULL; a monthly balance cannot lose its NOT NULL user, so deleting a
      user who has one fails and is rolled back. */
  function DeletarUsuario(s: Store, actor: User, id: nat): (r: Step)
    ensures r.reply != Done ==> r.store == s
    ensures !IsAdmin(actor) ==> r.reply == Forbidden
    ensures IsAdmin(actor) ==>
              match IndexOfId(UserIds(s.users), id)
              case None => r.reply == NotFound
              case Some(k) =>
                && ((id != actor.id && (IsAdmin(s.users[k]) ==> CountAdmins(s.users) > 1) && HasSaldos(s.saldos, id))
                      ==> r.reply == Refused(HasBalances))
                && (r.reply == Done <==>
                      && id != actor.id && (IsAdmin(s.users[k]) ==> CountAdmins(s.users) > 1)
                      && !HasSaldos(s.saldos, id))
                && (r.reply == Done ==>
                      && r.store.users == RemoveAt(s.users, k)
                      && r.store == s.(users := r.store.users,
                                       lancamentos := SoltarLancamentos(s.lancamentos, id),
                                       fixas := SoltarFixas(s.fixas, id),
                                       caixinha := SoltarMovimentos(s.caixinha, id)))
  {
    if !IsAdmin(actor) then Step(s, Forbidden)
    else match IndexOfId(UserIds(s.users), id)
      case None => Step(s, NotFound)
      case Some(k) =>
        if s.users[k].id == actor.id then Step(s, Refused(SelfRemoval))
        else if IsAdmin(s.users[k]) && CountAdmins(s.users) <= 1 then Step(s, Refused(LastAdmin))
        else if HasSaldos(s.saldos, id) then Step(s, Refused(HasBalances))
        else
          Step(s.(users := RemoveAt(s.users, k),
                  lancamentos := SoltarLancamentos(s.lancamentos, id),
                  fixas := SoltarFixas(s.fixas, id),
                  caixinha := SoltarMovimentos(s.caixinha, id)), Done)
  }

  /** Deletion never leaves a store that had an admin without one. */
  lemma DeletarUsuarioKeepsAnAdmin(s: Store, actor: User, id: nat)
    requires CountAdmins(s.users) >= 1
    ensures CountAdmins(DeletarUsuario(s, actor, id).store.users) >= 1
  {
    var r := DeletarUsuario(s, actor, id);
    if r.reply == Done {
      var k := IndexOfId(UserIds(s.users), id).value;
      CountRemoveAt(s.users, k, IsAdmin);
    }
  }

  /** Every user a row points at exists: entries' payers, rent rows'
      residents, movements' authors and balances' owners. */
  predicate ReferencesValid(s: Store)
  {
    && (forall i :: 0 <= i < |s.lancamentos| && s.lancamentos[i].userId.Some? ==>
          s.lancamentos[i].userId.value in UserIds(s.users))
    && (forall i :: 0 <= i < |s.fixas| && s.fixas[i].moradorId.Some? ==>
          s.fixas[i].moradorId.value in UserIds(s.users))
    && (forall i :: 0 <= i < |s.caixinha| && s.caixinha[i].userId.Some? ==>
          s.caixinha[i].userId.value in UserIds(s.users))
    && (forall i :: 0 <= i < |s.saldos| ==> s.saldos[i].userId in UserIds(s.users))
  }

  /** An id other than the deleted user's is still present after removing
      the deleted user's row. */
  lemma OtherIdSurvives(users: seq<User>, k: nat, u: nat)
    requires k < |users| && u in UserIds(users) && u != users[k].id
    ensures u in UserIds(RemoveAt(users, k))
  {
    var j :| 0 <= j < |users| && UserIds(users)[j] == u;
    if j < k {
      assert UserIds(RemoveAt(users, k))[j] == u;
    } else {
      assert UserIds(RemoveAt(users, k))[j - 1] == u;
    }
  }

  /** A deletion leaves no row pointing at a missing user, and no money
      moves: the entries' total and the petty-cash balance are unchanged,
      the deleted user's entries now counting for the household. */
  lemma DeletarUsuarioKeepsReferences(s: Store, actor: User, id: nat)
    requires ReferencesValid(s)
    ensures var r := DeletarUsuario(s, actor, id);
            && ReferencesValid(r.store)
            && Lancamentos.TotalLancado(r.store.lancamentos) == Lancamentos.TotalLancado(s.lancamentos)
            && Caixinha.Saldo(r.store.caixinha) == Caixinha.Saldo(s.caixinha)
  {
    var r := DeletarUsuario(s, actor, id);
    if r.reply == Done {
      var k := IndexOfId(UserIds(s.users), id).value;
      assert s.users[k].id == id;
      var t := r.store;
      forall i | 0 <= i < |t.lancamentos| && t.lancamentos[i].userId.Some?
        ensures t.lancamentos[i].userId.value in UserIds(t.users)
      {
        OtherIdSurvives(s.users, k, t.lancamentos[i].userId.value);
      }
      forall i | 0 <= i < |t.fixas| && t.fixas[i].moradorId.Some?
        ensures t.fixas[i].moradorId.value in UserIds(t.users)
      {
        OtherIdSurvives(s.users, k, t.fixas[i].moradorId.value);
      }
      forall i | 0 <= i < |t.caixinha| && t.caixinha[i].userId.Some?
        ensures t.caixinha[i].userId.value in UserIds(t.users)
      {
        OtherIdSurvives(s.users, k, t.caixinha[i].userId.value);
      }
      forall i | 0 <= i < |t.saldos|
        ensures t.saldos[i].userId in UserIds(t.users)
      {
        OtherIdSurvives(s.users, k, t.saldos[i].userId);
      }
      SumAllSameValues(t.lancamentos, s.lancamentos, Lancamentos.LancValor);
      SumAllSameValues(t.caixinha, s.caixinha, Caixinha.MovValor);
    }
  }

  /** A manual petty-cash deposit (admins only): description and value are
      required, the value must parse and be positive; it is stored as a
      positive movement, prefixed, and credited to the admin. */
  function AdicionarSaldoCaixinhaManual(s: Store, actor: User, now: Clock,
                                        descricao: string, valor: Input): (r: Step)
    ensures r.store == s.(caixinha := r.store.caixinha)
    ensures r.reply != Done ==> r.store == s
    ensures !IsAdmin(actor) ==> r.reply == Forbidden
    ensures r.reply == Done <==> IsAdmin(actor) && descricao != [] && valor.Given? && valor.n > 0
    ensures r.reply == Done ==>
              && |r.store.caixinha| == |s.caixinha| + 1
              && r.store.caixinha[..|s.caixinha|] == s.caixinha
              && Caixinha.SaldoAtual(r.store) == Caixinha.SaldoAtual(s) + valor.n
              && var m := r.store.caixinha[|s.caixinha|];
                 && m.descricao == PREFIXO_AJUSTE + descricao && m.valor == valor.n
                 && m.userId == Some(actor.id)
  {
    if !IsAdmin(actor) then Step(s, Forbidden)
    else if descricao == [] || valor.Blank? then Step(s, Refused(MissingField))
    else if valor.Malformed? then Step(s, Refused(InvalidValue))
    else if valor.n <= 0 then Step(s, Refused(NotPositive))
    else
      var m := CaixinhaMovimentacao(NextId(MovimentoIds(s.caixinha)), now.instant,
                                    PREFIXO_AJUSTE + descricao, valor.n, Some(actor.id));
      Caixinha.SaldoAppend(s.caixinha, m);
      Step(s.(caixinha := s.caixinha + [m]), Done)
  }
}

=== FILE: aluguel.dfy ===
/**
 Rent: the household rent is split so that residents in individual rooms
 pay a fixed difference more than those in shared rooms; each resident's
 rate is stored as their own active 'Aluguel' fixed expense, and the master
 'Aluguel' row (no resident) keeps the total and the difference. Also the
 guards of the fixed-expense handlers.
 */
module Aluguel {
  import opened Common
  import opened Models
  import Text

  /** The exact rates of the split, before rounding. */
  datatype Split = Split(individual: real, shared: real)

  /** The stored rates, in cents. */
  datatype Rates = Rates(individual: Cents, shared: Cents)

  predicate IsIndividual(u: User)
  {
    u.tipoQuarto == INDIVIDUAL
  }

  /** `shared = (total - d*n1) / n` and `individual = shared + d`; no split
      when there is nobody to share with. */
  function SplitRent(total: Cents, d: Cents, n1: nat, n: nat): (r: Option<Split>)
    ensures r.None? <==> n == 0
    ensures r.Some? ==>
              && r.value.individual - r.value.shared == d as real
              && n1 as real * r.value.individual + (n - n1) as real * r.value.shared == total as real
  {
    if n == 0 then None
    else
      var sh := (total - d * n1) as real / n as real;
      assert n as real * sh == (total - d * n1) as real;
      Some(Split(sh + d as real, sh))
  }

  /** The split rounded to cents, as it is stored. */
  function RoundedRates(total: Cents, d: Cents, n1: nat, n: nat): (r: Option<Rates>)
    ensures r.None? <==> n == 0
    ensures r.Some? ==>
              var e := SplitRent(total, d, n1, n).value;
              && -0.5 < r.value.individual as real - e.individual <= 0.5
              && -0.5 < r.value.shared as real - e.shared <= 0.5
  {
    match SplitRent(total, d, n1, n)
    case None => None
    case Some(e) => Some(Rates(RoundHalfUp(e.individual), RoundHalfUp(e.shared)))
  }

  /** What a resident is charged: the individual rate for an 'individual'
      room, the shared rate for any other room type. */
  function Rate(u: User, rates: Rates): Cents
  {
    if IsIndividual(u) then rates.individual else rates.shared
  }

  /** Total charged to a list of residents. */
  function Charged(ms: seq<User>, rates: Rates): int
  {
    SumWhere(ms, (u: User) => true, (u: User) => Rate(u, rates))
  }

  /** The residents together are charged the individual rate `n1` times and
      the shared rate for everyone else. */
  lemma {:induction false} ChargedByRoomType(ms: seq<User>, rates: Rates)
    ensures Charged(ms, rates)
            == Count(ms, IsIndividual) * rates.individual
               + (|ms| - Count(ms, IsIndividual)) * rates.shared
  {
    if |ms| > 0 {
      var n := |ms| - 1;
      ChargedByRoomType(ms[..n], rates);
      assert Count(ms[..n], IsIndividual) <= n by {
        CountBound(ms[..n], IsIndividual);
      }
    }
  }

  lemma {:induction false} CountBound<T>(rows: seq<T>, keep: T -> bool)
    ensures Count(rows, keep) <= |rows|
  {
    if |rows| > 0 {
      CountBound(rows[..|rows| - 1], keep);
    }
  }

  /** After rounding, the residents' rents add up to the total within half a
      cent per resident. */
  lemma RoundedRentsCoverTotal(ms: seq<User>, total: Cents, d: Cents)
    requires |ms| > 0
    ensures var rates := RoundedRates(total, d, Count(ms, IsIndividual), |ms|).value;
            var drift := (Charged(ms, rates) - total) as real;
            -(|ms| as real) / 2.0 <= drift <= (|ms| as real) / 2.0
  {
    var n1 := Count(ms, IsIndividual);
    CountBound(ms, IsIndividual);
    var rates := RoundedRates(total, d, n1, |ms|).value;
    ChargedReal(ms, rates);
    RatesDrift(total, d, n1, |ms|);
  }

  /** What `n1` individual rooms and `n - n1` shared rooms pay at the given rates. */
  function Weighted(n1: nat, n: nat, r: Rates): real
  {
    n1 as real * r.individual as real + (n - n1) as real * r.shared as real
  }

  lemma ChargedReal(ms: seq<User>, rates: Rates)
    ensures Charged(ms, rates) as real == Weighted(Count(ms, IsIndividual), |ms|, rates)
  {
    var n1 := Count(ms, IsIndividual);
    var cents := n1 * rates.individual + (|ms| - n1) * rates.shared;
    assert Charged(ms, rates) == cents by { ChargedByRoomType(ms, rates); }
    assert Weighted(n1, |ms|, rates) == cents as real by { WeightedInCents(n1, |ms|, rates); }
  }

  lemma WeightedInCents(n1: nat, n: nat, rates: Rates)
    ensures Weighted(n1, n, rates) == (n1 * rates.individual + (n - n1) * rates.shared) as real
  {
    CastSum(n1, n - n1, rates.individual, rates.shared);
  }

  /** The rounded rates charged to `n1` individual and `n - n1` shared rooms
      miss the total by at most half a cent per resident. */
  lemma RatesDrift(total: Cents, d: Cents, n1: nat, n: nat)
    requires 0 < n && n1 <= n
    ensures var w := Weighted(n1, n, RoundedRates(total, d, n1, n).value);
            -(n as real) / 2.0 <= w - total as real <= (n as real) / 2.0
  {
    var e := SplitRent(total, d, n1, n).value;
    var r := RoundedRates(total, d, n1, n).value;
    var a, m := n1 as real, (n - n1) as real;
    assert a * e.individual + m * e.shared == total as real;
    assert -0.5 < r.individual as real - e.individual <= 0.5;
    assert -0.5 < r.shared as real - e.shared <= 0.5;
    RoundingDrift(a, m, e.individual, e.shared, r.individual as real, r.shared as real, total as real);
  }

  lemma CastSum(a: int, b: int, x: int, y: int)
    ensures (a * x + b * y) as real == a as real * x as real + b as real * y as real
  {
  }

  /** Replacing the exact rates by values at most half a cent off moves the
      total by at most half a cent per resident. */
  lemma RoundingDrift(a: real, m: real, xi: real, xs: real, ri: real, rs: real, total: real)
    requires a >= 0.0 && m >= 0.0
    requires a * xi + m * xs == total
    requires -0.5 < ri - xi <= 0.5 && -0.5 < rs - xs <= 0.5
    ensures -(a + m) / 2.0 <= a * ri + m * rs - total <= (a + m) / 2.0
  {
    var ei, es := ri - xi, rs - xs;
    ScaledError(a, ei);
    ScaledError(m, es);
    assert ri == xi + ei && rs == xs + es;
    assert a * ri + m * rs - total == a * ei + m * es;
  }

  /** `k` rounding errors of at most half a cent add up to at most `k/2`. */
  lemma ScaledError(k: real, e: real)
    requires k >= 0.0 && -0.5 < e <= 0.5
    ensures -k / 2.0 <= k * e <= k / 2.0
  {
    assert (0.5 - e) * k >= 0.0;
    assert (e + 0.5) * k >= 0.0;
  }

  /** A resident's rent row: named 'Aluguel' and bound to that resident. */
  predicate IsRentRowOf(f: DespesaFixa, uid: nat)
  {
    f.descricao == CHAVE_ALUGUEL && f.moradorId == Some(uid)
  }

  /** The master rent row: named 'Aluguel' and bound to nobody. */
  predicate IsMasterRent(f: DespesaFixa)
  {
    f.descricao == CHAVE_ALUGUEL && f.moradorId.None?
  }

  /** `filter_by(descricao='Aluguel', morador_id=uid).first()`. */
  function FirstRentRow(fixas: seq<DespesaFixa>, uid: nat): (r: Option<nat>)
    ensures r.Some? ==> r.value < |fixas| && IsRentRowOf(fixas[r.value], uid)
                        && forall j :: 0 <= j < r.value ==> !IsRentRowOf(fixas[j], uid)
    ensures r.None? ==> forall j :: 0 <= j < |fixas| ==> !IsRentRowOf(fixas[j], uid)
  {
    if |fixas| == 0 then None
    else if IsRentRowOf(fixas[0], uid) then Some(0)
    else match FirstRentRow(fixas[1..], uid)
      case None => None
      case Some(k) => Some(k + 1)
  }

  /** The first rent row of `u` exists, is active and holds the rate of
      `u`'s room type. */
  predicate ChargedRent(fixas: seq<DespesaFixa>, u: User, rates: Rates)
  {
    match FirstRentRow(fixas, u.id)
    case None => false
    case Some(k) => fixas[k].ativa && fixas[k].valor == Rate(u, rates)
  }

  /** Storing one resident's rent: the first rent row of that resident is
      updated and activated, or a new active one is appended. Only that row
      changes, and no other resident's rent rows move. */
  function UpsertRent(fixas: seq<DespesaFixa>, uid: nat, valor: Cents): (r: seq<DespesaFixa>)
    ensures |fixas| <= |r| <= |fixas| + 1
    ensures match FirstRentRow(r, uid)
      case None => false
      case Some(k) =>
        && r[k].valor == valor && r[k].ativa
        && (k < |fixas| ==> r[k] == fixas[k].(valor := valor, ativa := true))
        && (forall i :: 0 <= i < |fixas| && i != k ==> r[i] == fixas[i])
    ensures FirstRentRow(fixas, uid).None? <==> |r| == |fixas| + 1
  {
    match FirstRentRow(fixas, uid)
    case Some(k) =>
      var r := fixas[k := fixas[k].(valor := valor, ativa := true)];
      FirstRentRowIsFirst(r, uid, k);
      r
    case None =>
      var r := fixas + [DespesaFixa(NextId(FixaIds(fixas)), CHAVE_ALUGUEL, valor, true, Some(uid), 0)];
      assert FirstRentRow(r, uid) == Some(|fixas|) by {
        assert forall j :: 0 <= j < |fixas| ==> r[j] == fixas[j];
        FirstRentRowIsFirst(r, uid, |fixas|);
      }
      r
  }

  /** The first rent row is characterised by being one and having none before it. */
  lemma {:induction false} FirstRentRowIsFirst(fixas: seq<DespesaFixa>, uid: nat, k: nat)
    requires k < |fixas| && IsRentRowOf(fixas[k], uid)
    requires forall j :: 0 <= j < k ==> !IsRentRowOf(fixas[j], uid)
    ensures FirstRentRow(fixas, uid) == Some(k)
  {
    if k > 0 {
      FirstRentRowIsFirst(fixas[1..], uid, k - 1);
    }
  }

  /** A rent row of any resident. */
  predicate IsRentRow(f: DespesaFixa)
  {
    f.descricao == CHAVE_ALUGUEL && f.moradorId.Some?
  }

  /** Two tables agree on which rows are rent rows of `uid`, position by
      position, and the longer one adds none: the first such row is the same. */
  lemma {:induction false} FirstRentRowFrame(a: seq<DespesaFixa>, b: seq<DespesaFixa>, uid: nat)
    requires |a| <= |b|
    requires forall i :: 0 <= i < |a| ==> (IsRentRowOf(a[i], uid) <==> IsRentRowOf(b[i], uid))
    requires forall i :: |a| <= i < |b| ==> !IsRentRowOf(b[i], uid)
    ensures FirstRentRow(b, uid) == FirstRentRow(a, uid)
  {
    match FirstRentRow(a, uid)
    case Some(k) => FirstRentRowIsFirst(b, uid, k);
    case None =>
  }

  /** Storing one resident's rent leaves every other resident's first rent
      row where and as it was, and changes only rent rows. */
  lemma UpsertRentFrame(fixas: seq<DespesaFixa>, uid: nat, valor: Cents)
    ensures var r := UpsertRent(fixas, uid, valor);
            && (forall i :: 0 <= i < |fixas| ==>
                  r[i] == fixas[i].(valor := r[i].valor, ativa := r[i].ativa)
                  && (fixas[i].ativa ==> r[i].ativa)
                  && (!IsRentRowOf(fixas[i], uid) ==> r[i] == fixas[i]))
            && (forall i :: |fixas| <= i < |r| ==> IsRentRowOf(r[i], uid) && r[i].ativa)
            && forall uid2 :: uid2 != uid ==>
                 && FirstRentRow(r, uid2) == FirstRentRow(fixas, uid2)
                 && (FirstRentRow(fixas, uid2).Some? ==>
                       r[FirstRentRow(fixas, uid2).value] == fixas[FirstRentRow(fixas, uid2).value])
  {
    var r := UpsertRent(fixas, uid, valor);
    forall uid2 | uid2 != uid
      ensures FirstRentRow(r, uid2) == FirstRentRow(fixas, uid2)
    {
      FirstRentRowFrame(fixas, r, uid2);
    }
  }

  /** Storing the rents of residents in turn. */
  function RecalcRows(fixas: seq<DespesaFixa>, ms: seq<User>, rates: Rates): (r: seq<DespesaFixa>)
    ensures |fixas| <= |r|
    ensures forall i :: 0 <= i < |fixas| ==>
              r[i] == fixas[i].(valor := r[i].valor, ativa := r[i].ativa)
              && (fixas[i].ativa ==> r[i].ativa)
              && (!IsRentRow(fixas[i]) ==> r[i] == fixas[i])
    ensures forall i :: |fixas| <= i < |r| ==> IsRentRow(r[i]) && r[i].ativa
    decreases |ms|
  {
    if |ms| == 0 then fixas
    else
      var u := UpsertRent(fixas, ms[0].id, Rate(ms[0], rates));
      UpsertRentFrame(fixas, ms[0].id, Rate(ms[0], rates));
      RecalcRows(u, ms[1..], rates)
  }

  predicate DistinctUserIds(ms: seq<User>)
  {
    forall i, j :: 0 <= i < j < |ms| ==> ms[i].id != ms[j].id
  }

  /** Residents not in the list keep their first rent row untouched. */
  lemma {:induction false} RecalcRowsOthers(fixas: seq<DespesaFixa>, ms: seq<User>, rates: Rates, uid: nat)
    requires forall j :: 0 <= j < |ms| ==> ms[j].id != uid
    ensures var r := RecalcRows(fixas, ms, rates);
            && FirstRentRow(r, uid) == FirstRentRow(fixas, uid)
            && (FirstRentRow(fixas, uid).Some? ==>
                  r[FirstRentRow(fixas, uid).value] == fixas[FirstRentRow(fixas, uid).value])
    decreases |ms|
  {
    if |ms| > 0 {
      var u := UpsertRent(fixas, ms[0].id, Rate(ms[0], rates));
      UpsertRentFrame(fixas, ms[0].id, Rate(ms[0], rates));
      RecalcRowsOthers(u, ms[1..], rates, uid);
    }
  }

  /** After the fold every listed resident's first rent row is active and
      holds the rate of their room type. */
  lemma {:induction false} RecalcRowsCharges(fixas: seq<DespesaFixa>, ms: seq<User>, rates: Rates)
    requires DistinctUserIds(ms)
    ensures var r := RecalcRows(fixas, ms, rates);
            forall j :: 0 <= j < |ms| ==>
              ChargedRent(r, ms[j], rates)
    decreases |ms|
  {
    if |ms| > 0 {
      var u := UpsertRent(fixas, ms[0].id, Rate(ms[0], rates));
      var r := RecalcRows(u, ms[1..], rates);
      assert r == RecalcRows(fixas, ms, rates);
      RecalcRowsCharges(u, ms[1..], rates);
      RecalcRowsOthers(u, ms[1..], rates, ms[0].id);
      forall j | 1 <= j < |ms|
        ensures ChargedRent(r, ms[j], rates)
      {
        assert ms[j] == ms[1..][j - 1];
      }
    }
  }

  /** Filtering keeps ids distinct. */
  lemma {:induction false} FilterDistinctIds(users: seq<User>, keep: User -> bool)
    requires DistinctUserIds(users)
    ensures DistinctUserIds(Filter(users, keep))
  {
    if |users| > 0 {
      var n := |users| - 1;
      var pre := users[..n];
      assert forall j :: 0 <= j < n ==> pre[j] == users[j];
      FilterDistinctIds(pre, keep);
      var init := Filter(pre, keep);
      if keep(users[n]) {
        forall i | 0 <= i < |init|
          ensures init[i].id != users[n].id
        {
          var j :| 0 <= j < n && pre[j] == init[i];
        }
        var r := init + [users[n]];
        forall a, b | 0 <= a < b < |r|
          ensures r[a].id != r[b].id
        {
          if b < |init| { assert r[a] == init[a] && r[b] == init[b]; }
        }
      }
    }
  }

  /** The result of `recalcular_e_atualizar_alugueis`: the new store and the
      rates, or no rates when there is no resident. */
  datatype Recalc = Recalc(store: Store, rates: Option<Rates>)

  /** Recomputing every resident's rent from the total and the difference. */
  function RecalcularAlugueis(s: Store, total: Cents, d: Cents): (r: Recalc)
    ensures r.store == s.(fixas := r.store.fixas)
    ensures r.rates.None? <==> |Moradores(s.users)| == 0
    ensures r.rates.None? ==> r.store == s
    ensures r.rates.Some? ==>
              var ms := Moradores(s.users);
              && r.rates == RoundedRates(total, d, Count(ms, IsIndividual), |ms|)
              && |s.fixas| <= |r.store.fixas|
              && (forall i :: 0 <= i < |s.fixas| && !IsRentRow(s.fixas[i]) ==> r.store.fixas[i] == s.fixas[i])
              && (DistinctUserIds(s.users) ==>
                    forall i :: 0 <= i < |s.users| && !IsAdmin(s.users[i]) ==>
                      ChargedRent(r.store.fixas, s.users[i], r.rates.value))
  {
    var ms := Moradores(s.users);
    if |ms| == 0 then Recalc(s, None)
    else
      var rates := RoundedRates(total, d, Count(ms, IsIndividual), |ms|).value;
      var fixas := RecalcRows(s.fixas, ms, rates);
      MoradoresCharged(s.users, s.fixas, rates);
      Recalc(s.(fixas := fixas), Some(rates))
  }

  /** Every non-admin user is one of the residents the fold charges. */
  lemma MoradoresCharged(users: seq<User>, fixas: seq<DespesaFixa>, rates: Rates)
    ensures var r := RecalcRows(fixas, Moradores(users), rates);
            DistinctUserIds(users) ==>
              forall i :: 0 <= i < |users| && !IsAdmin(users[i]) ==>
                ChargedRent(r, users[i], rates)
  {
    var ms := Moradores(users);
    var r := RecalcRows(fixas, ms, rates);
    if DistinctUserIds(users) {
      FilterDistinctIds(users, (u: User) => !IsAdmin(u));
      RecalcRowsCharges(fixas, ms, rates);
      forall i | 0 <= i < |users| && !IsAdmin(users[i])
        ensures ChargedRent(r, users[i], rates)
      {
        assert users[i] in ms;
        var j :| 0 <= j < |ms| && ms[j] == users[i];
      }
    }
  }

  /** The values posted on the rent page, in cents. */
  datatype AluguelForm = AluguelForm(total: Cents, diferenca: Cents)

  /** The master rent row is created, at zero and inactive, when missing. */
  function EnsureMaster(fixas: seq<DespesaFixa>): (r: seq<DespesaFixa>)
    ensures FirstWhere(fixas, IsMasterRent).Some? ==> r == fixas
    ensures FirstWhere(fixas, IsMasterRent).None? ==>
              && |r| == |fixas| + 1 && r[..|fixas|] == fixas
              && r[|fixas|].valor == 0 && r[|fixas|].diferencaIndividual == 0 && !r[|fixas|].ativa
    ensures FirstWhere(r, IsMasterRent).Some?
  {
    if FirstWhere(fixas, IsMasterRent).Some? then fixas
    else
      var r := fixas + [DespesaFixa(NextId(FixaIds(fixas)), CHAVE_ALUGUEL, 0, false, None, 0)];
      assert IsMasterRent(r[|fixas|]);
      r
  }

  /** The rent page (managers only). It makes sure a master row exists; a
      submission stores the total and the difference on the first master row
      and recomputes every resident's rent from them. */
  function GerenciarAluguel(s: Store, actor: User, post: Option<AluguelForm>): (r: Step)
    ensures r.store == s.(fixas := r.store.fixas)
    ensures !IsGerenciador(actor) ==> r == Step(s, Forbidden)
    ensures IsGerenciador(actor) ==> r.reply == Done && FirstWhere(r.store.fixas, IsMasterRent).Some?
    ensures IsGerenciador(actor) && post.None? ==> r.store.fixas == EnsureMaster(s.fixas)
    ensures IsGerenciador(actor) && post.Some? ==>
              var m := r.store.fixas[FirstWhere(r.store.fixas, IsMasterRent).value];
              && m.valor == post.value.total && m.diferencaIndividual == post.value.diferenca
              && (DistinctUserIds(s.users) && |Moradores(s.users)| > 0 ==>
                    var ms := Moradores(s.users);
                    var rates := RoundedRates(post.value.total, post.value.diferenca,
                                              Count(ms, IsIndividual), |ms|).value;
                    forall i :: 0 <= i < |s.users| && !IsAdmin(s.users[i]) ==>
                      ChargedRent(r.store.fixas, s.users[i], rates))
  {
    if !IsGerenciador(actor) then Step(s, Forbidden)
    else
      var fixas := EnsureMaster(s.fixas);
      match post
      case None => Step(s.(fixas := fixas), Done)
      case Some(form) =>
        var k := FirstWhere(fixas, IsMasterRent).value;
        var saved := fixas[k := fixas[k].(valor := form.total, diferencaIndividual := form.diferenca)];
        FirstWhereFrame(fixas, saved, IsMasterRent);
        var rc := RecalcularAlugueis(s.(fixas := saved), form.total, form.diferenca);
        MasterSurvivesRecalc(saved, rc.store.fixas);
        Step(rc.store, Done)
  }

  /** Recomputing rents touches only rent rows and appends only rent rows, so
      the first master row stays where and as it was. */
  lemma MasterSurvivesRecalc(before: seq<DespesaFixa>, after: seq<DespesaFixa>)
    requires |before| <= |after|
    requires forall i :: 0 <= i < |before| ==>
               after[i] == before[i].(valor := after[i].valor, ativa := after[i].ativa)
               && (!IsRentRow(before[i]) ==> after[i] == before[i])
    requires forall i :: |before| <= i < |after| ==> IsRentRow(after[i])
    ensures FirstWhere(after, IsMasterRent) == FirstWhere(before, IsMasterRent)
    ensures FirstWhere(before, IsMasterRent).Some? ==>
              var k := FirstWhere(before, IsMasterRent).value;
              after[k] == before[k]
  {
    FirstWhereFrame(before, after, IsMasterRent);
  }

  /** Some fixed expense already has this description, ignoring ASCII case. */
  predicate NameTaken(fixas: seq<DespesaFixa>, descricao: string)
  {
    exists i :: 0 <= i < |fixas| && Text.Lower(fixas[i].descricao) == Text.Lower(descricao)
  }

  predicate NamesUniqueIgnoringCase(fixas: seq<DespesaFixa>)
  {
    forall i, j :: 0 <= i < j < |fixas| ==> Text.Lower(fixas[i].descricao) != Text.Lower(fixas[j].descricao)
  }

  /** Adding a household-wide fixed expense (managers only): description and
      value are required, the value must parse and not be negative, and no
      fixed expense may have the same description up to case. */
  function AdicionarDespesaFixa(s: Store, actor: User, descricao: string, valor: Input): (r: Step)
    ensures r.store == s.(fixas := r.store.fixas)
    ensures r.reply != Done ==> r.store == s
    ensures !IsGerenciador(actor) ==> r.reply == Forbidden
    ensures r.reply == Done <==>
              IsGerenciador(actor) && descricao != [] && valor.Given? && valor.n >= 0
              && !NameTaken(s.fixas, descricao)
    ensures r.reply == Refused(Negative) ==> valor.Given? && valor.n < 0
    ensures r.reply == Done ==>
              && |r.store.fixas| == |s.fixas| + 1
              && r.store.fixas[..|s.fixas|] == s.fixas
              && var f := r.store.fixas[|s.fixas|];
                 f.descricao == descricao && f.valor == valor.n && f.ativa && f.moradorId.None?
  {
    if !IsGerenciador(actor) then Step(s, Forbidden)
    else if descricao == [] || valor.Blank? then Step(s, Refused(MissingField))
    else if valor.Malformed? then Step(s, Refused(InvalidValue))
    else if valor.n < 0 then Step(s, Refused(Negative))
    else if NameTaken(s.fixas, descricao) then Step(s, Refused(Duplicate))
    else Step(s.(fixas := s.fixas + [DespesaFixa(NextId(FixaIds(s.fixas)), descricao, valor.n, true, None, 0)]), Done)
  }

  /** Adding keeps descriptions unique up to case. */
  lemma AdicionarKeepsNamesUnique(s: Store, actor: User, descricao: string, valor: Input)
    requires NamesUniqueIgnoringCase(s.fixas)
    ensures NamesUniqueIgnoringCase(AdicionarDespesaFixa(s, actor, descricao, valor).store.fixas)
  {
    var r := AdicionarDespesaFixa(s, actor, descricao, valor);
    if r.reply == Done {
      var f := r.store.fixas;
      forall i, j | 0 <= i < j < |f|
        ensures Text.Lower(f[i].descricao) != Text.Lower(f[j].descricao)
      {
        if j == |s.fixas| {
          assert f[i] == s.fixas[i];
        }
      }
    }
  }

  /** The description mentions rent: `'aluguel' in descricao.lower()`. */
  predicate MentionsAluguel(descricao: string)
  {
    Text.Contains(Text.Lower(descricao), Text.Lower(CHAVE_ALUGUEL))
  }

  /** Editing a fixed expense (managers only): description and value are
      required; rows about rent, by their old or new description, are managed
      on the rent page; the value must parse and not be negative; a
      household-wide row may not take another household-wide row's name. */
  function EditarDespesaFixa(s: Store, actor: User, id: nat, descricao: string, valor: Input): (r: Step)
    ensures r.store == s.(fixas := r.store.fixas)
    ensures r.reply != Done ==> r.store == s
    ensures !IsGerenciador(actor) ==> r.reply == Forbidden
    ensures IsGerenciador(actor) ==>
              match IndexOfId(FixaIds(s.fixas), id)
              case None => r.reply == NotFound
              case Some(k) =>
                && (r.reply == Done <==>
                      && descricao != [] && valor.Given? && valor.n >= 0
                      && !MentionsAluguel(descricao) && !MentionsAluguel(s.fixas[k].descricao)
                      && !(s.fixas[k].moradorId.None? && GeneralNameTakenByOther(s.fixas, descricao, id)))
                && (r.reply == Done ==>
                      r.store.fixas == s.fixas[k := s.fixas[k].(descricao := descricao, valor := valor.n)])
  {
    if !IsGerenciador(actor) then Step(s, Forbidden)
    else match IndexOfId(FixaIds(s.fixas), id)
      case None => Step(s, NotFound)
      case Some(k) =>
        var f := s.fixas[k];
        if descricao == [] || valor.Blank? then Step(s, Refused(MissingField))
        else if MentionsAluguel(descricao) || MentionsAluguel(f.descricao) then Step(s, Refused(ManagedElsewhere))
        else if valor.Malformed? then Step(s, Refused(InvalidValue))
        else if valor.n < 0 then Step(s, Refused(Negative))
        else if GeneralNameTakenByOther(s.fixas, descricao, id) && f.moradorId.None? then Step(s, Refused(Duplicate))
        else Step(s.(fixas := s.fixas[k := f.(descricao := descricao, valor := valor.n)]), Done)
  }

  /** Another household-wide row (a different id, no resident) has this
      description up to case. */
  predicate GeneralNameTakenByOther(fixas: seq<DespesaFixa>, descricao: string, id: nat)
  {
    exists i :: 0 <= i < |fixas| && Text.Lower(fixas[i].descricao) == Text.Lower(descricao)
                && fixas[i].id != id && fixas[i].moradorId.None?
  }

  /** The fixed-expense editor never touches rent: rows about rent stay as
      they are, no row becomes one, and so the residents' rent total is
      unchanged. */
  lemma EditarKeepsRent(s: Store, actor: User, id: nat, descricao: string, valor: Input)
    ensures var r := EditarDespesaFixa(s, actor, id, descricao, valor);
            && |r.store.fixas| == |s.fixas|
            && (forall i :: 0 <= i < |s.fixas| ==>
                  (MentionsAluguel(r.store.fixas[i].descricao) <==> MentionsAluguel(s.fixas[i].descricao))
                  && (MentionsAluguel(s.fixas[i].descricao) ==> r.store.fixas[i] == s.fixas[i]))
            && SumWhere(r.store.fixas, IsRentRow, FixaValor) == SumWhere(s.fixas, IsRentRow, FixaValor)
  {
    var r := EditarDespesaFixa(s, actor, id, descricao, valor);
    if r.reply == Done {
      var k := IndexOfId(FixaIds(s.fixas), id).value;
      RewriteKeepsRent(s.fixas, k, descricao, valor.n);
    }
  }

  /** Rewriting a row that does not mention rent into one that does not
      either leaves every rent row and the rent total as they were. */
  lemma RewriteKeepsRent(a: seq<DespesaFixa>, k: nat, descricao: string, valor: Cents)
    requires k < |a| && !MentionsAluguel(a[k].descricao) && !MentionsAluguel(descricao)
    ensures var b := a[k := a[k].(descricao := descricao, valor := valor)];
            && (forall i :: 0 <= i < |a| ==>
                  (MentionsAluguel(b[i].descricao) <==> MentionsAluguel(a[i].descricao))
                  && (MentionsAluguel(a[i].descricao) ==> b[i] == a[i]))
            && SumWhere(b, IsRentRow, FixaValor) == SumWhere(a, IsRentRow, FixaValor)
  {
    var b := a[k := a[k].(descricao := descricao, valor := valor)];
    forall i | 0 <= i < |a|
      ensures (MentionsAluguel(b[i].descricao) <==> MentionsAluguel(a[i].descricao))
              && (MentionsAluguel(a[i].descricao) ==> b[i] == a[i])
    {
      if i != k { assert b[i] == a[i]; }
    }
    assert SumWhere(b, IsRentRow, FixaValor) == SumWhere(a, IsRentRow, FixaValor) by {
      RentRowsMentionAluguel();
      assert !IsRentRow(a[k]) && !IsRentRow(b[k]);
      SumWhereFrame(a, b, IsRentRow, FixaValor);
    }
  }

  /** A row named exactly 'Aluguel' mentions rent. */
  lemma RentRowsMentionAluguel()
    ensures MentionsAluguel(CHAVE_ALUGUEL)
  {
    Text.ContainsSelf(Text.Lower(CHAVE_ALUGUEL));
  }

  /** Switching a fixed expense on or off (managers only). */
  function AlternarStatus(s: Store, actor: User, id: nat): (r: Step)
    ensures r.store == s.(fixas := r.store.fixas)
    ensures r.reply != Done ==> r.store == s
    ensures !IsGerenciador(actor) ==> r.reply == Forbidden
    ensures IsGerenciador(actor) ==>
              match IndexOfId(FixaIds(s.fixas), id)
              case None => r.reply == NotFound
              case Some(k) =>
                && r.reply == Done && |r.store.fixas| == |s.fixas|
                && r.store.fixas[k].ativa == !s.fixas[k].ativa
                && r.store.fixas[k] == s.fixas[k].(ativa := r.store.fixas[k].ativa)
                && forall i :: 0 <= i < |s.fixas| && i != k ==> r.store.fixas[i] == s.fixas[i]
  {
    if !IsGerenciador(actor) then Step(s, Forbidden)
    else match IndexOfId(FixaIds(s.fixas), id)
      case None => Step(s, NotFound)
      case Some(k) => Step(s.(fixas := s.fixas[k := s.fixas[k].(ativa := !s.fixas[k].ativa)]), Done)
  }

  /** Toggling twice restores the store. */
  lemma AlternarTwice(s: Store, actor: User, id: nat)
    ensures AlternarStatus(AlternarStatus(s, actor, id).store, actor, id).store == s
  {
    var r1 := AlternarStatus(s, actor, id);
    if r1.reply == Done {
      assert FixaIds(r1.store.fixas) == FixaIds(s.fixas);
      var r2 := AlternarStatus(r1.store, actor, id);
      assert r2.store.fixas == s.fixas;
    }
  }

  /** Master rows of rent and petty cash: no resident, and 'Aluguel' or
      'Caixinha' in the description (case-sensitive). */
  predicate IsProtected(f: DespesaFixa)
  {
    (Text.Contains(f.descricao, CHAVE_ALUGUEL) || Text.Contains(f.descricao, CHAVE_CAIXINHA)) && f.moradorId.None?
  }

  /** Deleting a fixed expense for good (admins only); master rows are refused. */
  function DeletarDespesaFixaPermanente(s: Store, actor: User, id: nat): (r: Step)
    ensures r.store == s.(fixas := r.store.fixas)
    ensures r.reply != Done ==> r.store == s
    ensures !IsAdmin(actor) ==> r.reply == Forbidden
    ensures IsAdmin(actor) ==>
              match IndexOfId(FixaIds(s.fixas), id)
              case None => r.reply == NotFound
              case Some(k) =>
                && (r.reply == Done <==> !IsProtected(s.fixas[k]))
                && (r.reply == Done ==> r.store.fixas == RemoveAt(s.fixas, k))
  {
    if !IsAdmin(actor) then Step(s, Forbidden)
    else match IndexOfId(FixaIds(s.fixas), id)
      case None => Step(s, NotFound)
      case Some(k) =>
        if IsProtected(s.fixas[k]) then Step(s, Refused(ProtectedRow))
        else Step(s.(fixas := RemoveAt(s.fixas, k)), Done)
  }

  /** Every master row survives a permanent delete, the master rent row in
      particular. */
  lemma DeletarKeepsMasters(s: Store, actor: User, id: nat)
    ensures var r := DeletarDespesaFixaPermanente(s, actor, id);
            && (forall i :: 0 <= i < |s.fixas| && IsProtected(s.fixas[i]) ==> s.fixas[i] in r.store.fixas)
            && (FirstWhere(s.fixas, IsMasterRent).Some? ==> FirstWhere(r.store.fixas, IsMasterRent).Some?)
  {
    var r := DeletarDespesaFixaPermanente(s, actor, id);
    if r.reply == Done {
      var k := IndexOfId(FixaIds(s.fixas), id).value;
      forall i | 0 <= i < |s.fixas| && IsProtected(s.fixas[i])
        ensures s.fixas[i] in r.store.fixas
      {
        if i < k { assert r.store.fixas[i] == s.fixas[i]; }
        else { assert r.store.fixas[i - 1] == s.fixas[i]; }
      }
      if FirstWhere(s.fixas, IsMasterRent).Some? {
        var m := FirstWhere(s.fixas, IsMasterRent).value;
        Text.ContainsSelf(CHAVE_ALUGUEL);
        assert IsProtected(s.fixas[m]);
        var j :| 0 <= j < |r.store.fixas| && r.store.fixas[j] == s.fixas[m];
        assert IsMasterRent(r.store.fixas[j]);
      }
    }
  }
}

=== FILE: caixinha.dfy ===
/**
 The petty-cash summary shared by the finance pages: the balance is the sum
 of every movement, the monthly contribution is the sum of the active
 household-wide fixed expenses named like 'Caixinha', the projection adds
 the two, and at most ten movements are listed, newest first.
 */
module Caixinha {
  import opened Common
  import opened Models
  import Text

  /** The hard-coded test offset added to the stored balance. */
  const SALDO_INICIAL_DE_TESTE: Cents := 0

  /** How many movements the summary lists. */
  const LIMITE_MOVIMENTACOES: nat := 10

  function MovValor(m: CaixinhaMovimentacao): int { m.valor }

  /** The stored balance: `SUM(valor)` over all movements, 0 for none. */
  function Saldo(movs: seq<CaixinhaMovimentacao>): Cents
  {
    SumAll(movs, MovValor)
  }

  /** The current balance the pages show. */
  function SaldoAtual(s: Store): Cents
  {
    SALDO_INICIAL_DE_TESTE + Saldo(s.caixinha)
  }

  /** A fixed expense that feeds the petty cash each month. */
  predicate IsContribuicao(f: DespesaFixa)
  {
    f.ativa && Text.LikeContains(f.descricao, CHAVE_CAIXINHA) && f.moradorId.None?
  }

  /** The monthly contribution: the total of the contributing fixed expenses. */
  function Contribuicao(fixas: seq<DespesaFixa>): Cents
  {
    SumWhere(fixas, IsContribuicao, FixaValor)
  }

  /** What `get_dados_caixinha` hands to the templates. */
  datatype Dados = Dados(saldoAtual: Cents, projecaoProximoMes: Cents,
                         valorContribuicaoMensal: Cents, movimentacoes: seq<CaixinhaMovimentacao>)

  predicate NewestFirst(ms: seq<CaixinhaMovimentacao>)
  {
    forall i, j :: 0 <= i < j < |ms| ==> ms[i].data >= ms[j].data
  }

  /** Inserting one movement into a newest-first list keeps it newest first. */
  function Insert(m: CaixinhaMovimentacao, t: seq<CaixinhaMovimentacao>): (r: seq<CaixinhaMovimentacao>)
    requires NewestFirst(t)
    ensures NewestFirst(r)
    ensures multiset(r) == multiset(t) + multiset{m}
    ensures forall i :: 0 <= i < |r| ==> r[i] == m || r[i] in t
  {
    if |t| == 0 then [m]
    else if m.data >= t[0].data then [m] + t
    else
      var rest := Insert(m, t[1..]);
      assert t == [t[0]] + t[1..];
      HeadNewest(t, m, rest);
      ConsNewestFirst(t[0], rest);
      [t[0]] + rest
  }

  /** The head of a newest-first list is at least as new as `m` when `m` is
      older, so it is at least as new as anything built from `m` and the tail. */
  lemma HeadNewest(t: seq<CaixinhaMovimentacao>, m: CaixinhaMovimentacao, rest: seq<CaixinhaMovimentacao>)
    requires |t| > 0 && NewestFirst(t) && m.data < t[0].data
    requires forall i :: 0 <= i < |rest| ==> rest[i] == m || rest[i] in t[1..]
    ensures forall i :: 0 <= i < |rest| ==> t[0].data >= rest[i].data
  {
    forall i | 0 <= i < |rest| ensures t[0].data >= rest[i].data {
      if rest[i] != m {
        var k :| 0 <= k < |t[1..]| && t[1..][k] == rest[i];
        assert t[k + 1] == rest[i];
      }
    }
  }

  lemma ConsNewestFirst(x: CaixinhaMovimentacao, rest: seq<CaixinhaMovimentacao>)
    requires NewestFirst(rest)
    requires forall i :: 0 <= i < |rest| ==> x.data >= rest[i].data
    ensures NewestFirst([x] + rest)
  {
    var r := [x] + rest;
    forall i, j | 0 <= i < j < |r| ensures r[i].data >= r[j].data {
      assert r[j] == rest[j - 1];
      if i > 0 { assert r[i] == rest[i - 1]; }
    }
  }

  /** `ORDER BY data DESC` over the whole table (ties in table order). */
  function SortNewestFirst(ms: seq<CaixinhaMovimentacao>): (r: seq<CaixinhaMovimentacao>)
    ensures NewestFirst(r)
    ensures multiset(r) == multiset(ms)
    ensures |r| == |ms|
  {
    if |ms| == 0 then []
    else
      assert ms == [ms[0]] + ms[1..];
      Insert(ms[0], SortNewestFirst(ms[1..]))
  }

  function Min(a: nat, b: nat): nat { if a <= b then a else b }

  /** `ORDER BY data DESC LIMIT 10`: at most ten movements, newest first,
      taken from the table, and none left out is newer than one listed. */
  function UltimasMovimentacoes(ms: seq<CaixinhaMovimentacao>): (r: seq<CaixinhaMovimentacao>)
    ensures |r| == Min(LIMITE_MOVIMENTACOES, |ms|)
    ensures NewestFirst(r)
    ensures multiset(r) <= multiset(ms)
    ensures forall x, i :: x in multiset(ms) - multiset(r) && 0 <= i < |r| ==> x.data <= r[i].data
  {
    var t := SortNewestFirst(ms);
    var n := Min(LIMITE_MOVIMENTACOES, |ms|);
    TakeNewest(t, n);
    t[..n]
  }

  /** The first `n` entries of a newest-first list are no older than the rest. */
  lemma TakeNewest(t: seq<CaixinhaMovimentacao>, n: nat)
    requires NewestFirst(t) && n <= |t|
    ensures multiset(t[..n]) <= multiset(t)
    ensures forall x, i :: x in multiset(t) - multiset(t[..n]) && 0 <= i < n ==> x.data <= t[i].data
  {
    var r, rest := t[..n], t[n..];
    assert t == r + rest;
    assert multiset(t) - multiset(r) == multiset(rest);
    forall x, i | x in multiset(t) - multiset(r) && 0 <= i < n
      ensures x.data <= t[i].data
    {
      assert x in rest;
      var j :| 0 <= j < |rest| && rest[j] == x;
      assert t[n + j] == x;
    }
  }

  /** The summary: the projection is the balance plus the contribution. */
  function DadosCaixinha(s: Store): (d: Dados)
    ensures d.projecaoProximoMes == d.saldoAtual + d.valorContribuicaoMensal
    ensures d.saldoAtual == SaldoAtual(s)
    ensures d.valorContribuicaoMensal == Contribuicao(s.fixas)
    ensures d.movimentacoes == UltimasMovimentacoes(s.caixinha)
    ensures |d.movimentacoes| <= LIMITE_MOVIMENTACOES
    ensures NewestFirst(d.movimentacoes)
  {
    var saldo := SaldoAtual(s);
    var contrib := Contribuicao(s.fixas);
    Dados(saldo, saldo + contrib, contrib, UltimasMovimentacoes(s.caixinha))
  }

  /** Appending a movement moves the balance by exactly its value. */
  lemma SaldoAppend(movs: seq<CaixinhaMovimentacao>, m: CaixinhaMovimentacao)
    ensures Saldo(movs + [m]) == Saldo(movs) + m.valor
  {
    assert (movs + [m])[..|movs|] == movs;
  }

  /** Only active, household-wide rows named like 'Caixinha' count toward the
      contribution: switching any other row off or on leaves it unchanged. */
  lemma ContribuicaoIgnoresOthers(fixas: seq<DespesaFixa>, k: nat, f: DespesaFixa)
    requires k < |fixas|
    requires !IsContribuicao(fixas[k]) && !IsContribuicao(f)
    ensures Contribuicao(fixas[k := f]) == Contribuicao(fixas)
  {
    var a, c := fixas[..k], fixas[k + 1..];
    assert fixas == a + [fixas[k]] + c;
    assert fixas[k := f] == a + [f] + c;
    SumWhereConcat(a + [fixas[k]], c, IsContribuicao, FixaValor);
    SumWhereConcat(a + [f], c, IsContribuicao, FixaValor);
    SumWhereConcat(a, [fixas[k]], IsContribuicao, FixaValor);
    SumWhereConcat(a, [f], IsContribuicao, FixaValor);
    assert [f][..0] == [] && [fixas[k]][..0] == [];
  }
}

=== FILE: common.dfy ===
/**
 Shared vocabulary of the household manager model: optional values, parsed
 form fields, and sums and counts over the rows of a table.
 */
module Common {

  /** A nullable column or an optional lookup result. */
  datatype Option<T> = None | Some(value: T)

  /** A numeric form field after parsing: left blank, present but not a
      number, or a number (money in cents, counts as plain integers). */
  datatype Input = Blank | Malformed | Given(n: int)

  /** Sum of a sequence of integers, folded from the last element so that
      appending a row adds its value. */
  function Sum(xs: seq<int>): int
  {
    if |xs| == 0 then 0 else Sum(xs[..|xs| - 1]) + xs[|xs| - 1]
  }

  /** `SELECT SUM(val) WHERE keep` over a table; 0 when nothing matches. */
  function SumWhere<T>(rows: seq<T>, keep: T -> bool, val: T -> int): int
  {
    if |rows| == 0 then 0
    else SumWhere(rows[..|rows| - 1], keep, val)
         + (if keep(rows[|rows| - 1]) then val(rows[|rows| - 1]) else 0)
  }

  /** The `WHERE` clause that keeps every row. */
  predicate Always<T>(x: T)
  {
    true
  }

  /** `SELECT SUM(val)` with no `WHERE`: the total over the whole table. */
  function SumAll<T>(rows: seq<T>, val: T -> int): int
  {
    SumWhere(rows, Always, val)
  }

  /** Two tables of the same length whose rows have the same values one by
      one have the same total. */
  lemma {:induction false} SumAllSameValues<T>(a: seq<T>, b: seq<T>, val: T -> int)
    requires |a| == |b|
    requires forall i :: 0 <= i < |a| ==> val(a[i]) == val(b[i])
    ensures SumAll(a, val) == SumAll(b, val)
  {
    if |a| > 0 {
      var n := |a| - 1;
      SumAllSameValues(a[..n], b[..n], val);
    }
  }

  /** `SELECT COUNT(*) WHERE keep` over a table. */
  function Count<T>(rows: seq<T>, keep: T -> bool): nat
  {
    if |rows| == 0 then 0
    else Count(rows[..|rows| - 1], keep) + (if keep(rows[|rows| - 1]) then 1 else 0)
  }

  /** The rows a `WHERE keep` clause selects, in table order. */
  function Filter<T>(rows: seq<T>, keep: T -> bool): (r: seq<T>)
    ensures |r| <= |rows|
    ensures forall i :: 0 <= i < |r| ==> r[i] in rows && keep(r[i])
    ensures forall i :: 0 <= i < |rows| && keep(rows[i]) ==> rows[i] in r
  {
    if |rows| == 0 then []
    else
      var init := Filter(rows[..|rows| - 1], keep);
      assert forall i :: 0 <= i < |rows| - 1 ==> rows[i] == rows[..|rows| - 1][i];
      if keep(rows[|rows| - 1]) then init + [rows[|rows| - 1]] else init
  }

  /** The table without its row at index `i`. */
  function RemoveAt<T>(rows: seq<T>, i: nat): (r: seq<T>)
    requires i < |rows|
    ensures |r| == |rows| - 1
    ensures forall j :: 0 <= j < i ==> r[j] == rows[j]
    ensures forall j :: i <= j < |r| ==> r[j] == rows[j + 1]
  {
    rows[..i] + rows[i + 1..]
  }

  /** A sum over a table where no row is kept is 0. */
  lemma {:induction false} SumWhereNone<T>(rows: seq<T>, keep: T -> bool, val: T -> int)
    ensures (forall i :: 0 <= i < |rows| ==> !keep(rows[i])) ==> SumWhere(rows, keep, val) == 0
  {
    if |rows| > 0 {
      SumWhereNone(rows[..|rows| - 1], keep, val);
    }
  }

  /** Total of the reals in a sequence (per-resident shares and balances). */
  function SumReal(xs: seq<real>): real
  {
    if |xs| == 0 then 0.0 else SumReal(xs[..|xs| - 1]) + xs[|xs| - 1]
  }

  lemma {:induction false} SumWhereConcat<T>(a: seq<T>, b: seq<T>, keep: T -> bool, val: T -> int)
    ensures SumWhere(a + b, keep, val) == SumWhere(a, keep, val) + SumWhere(b, keep, val)
    decreases |b|
  {
    if |b| == 0 {
      assert a + b == a;
    } else {
      var b' := b[..|b| - 1];
      assert (a + b)[..|a + b| - 1] == a + b';
      SumWhereConcat(a, b', keep, val);
    }
  }

  /** Two predicates that agree on every row select the same total. */
  lemma {:induction false} SumWhereSameRows<T>(rows: seq<T>, k1: T -> bool, k2: T -> bool, val: T -> int)
    requires forall i :: 0 <= i < |rows| ==> k1(rows[i]) == k2(rows[i])
    ensures SumWhere(rows, k1, val) == SumWhere(rows, k2, val)
  {
    if |rows| > 0 {
      SumWhereSameRows(rows[..|rows| - 1], k1, k2, val);
    }
  }

  /** Selecting with `p || q` adds the totals of `p` and `q` when no row is
      selected by both. */
  lemma {:induction false} SumWhereDisjoint<T>(rows: seq<T>, p: T -> bool, q: T -> bool, pq: T -> bool, val: T -> int)
    requires forall i :: 0 <= i < |rows| ==> !(p(rows[i]) && q(rows[i]))
    requires forall i :: 0 <= i < |rows| ==> pq(rows[i]) == (p(rows[i]) || q(rows[i]))
    ensures SumWhere(rows, pq, val) == SumWhere(rows, p, val) + SumWhere(rows, q, val)
  {
    if |rows| > 0 {
      SumWhereDisjoint(rows[..|rows| - 1], p, q, pq, val);
    }
  }

  /** Removing one row subtracts exactly its contribution. */
  lemma {:induction false} SumWhereRemoveAt<T>(rows: seq<T>, i: nat, keep: T -> bool, val: T -> int)
    requires i < |rows|
    ensures SumWhere(RemoveAt(rows, i), keep, val)
            == SumWhere(rows, keep, val) - (if keep(rows[i]) then val(rows[i]) else 0)
  {
    assert rows == rows[..i] + [rows[i]] + rows[i + 1..];
    SumWhereConcat(rows[..i] + [rows[i]], rows[i + 1..], keep, val);
    SumWhereConcat(rows[..i], [rows[i]], keep, val);
    SumWhereConcat(rows[..i], rows[i + 1..], keep, val);
    assert [rows[i]][..0] == [];
  }

  /** Replacing one row changes the count by the difference of the two rows. */
  lemma {:induction false} CountUpdate<T>(rows: seq<T>, i: nat, x: T, keep: T -> bool)
    requires i < |rows|
    ensures Count(rows[i := x], keep)
            == Count(rows, keep) - (if keep(rows[i]) then 1 else 0) + (if keep(x) then 1 else 0)
  {
    var n := |rows| - 1;
    if i < n {
      assert rows[i := x][..n] == rows[..n][i := x];
      CountUpdate(rows[..n], i, x, keep);
    } else {
      assert rows[i := x][..n] == rows[..n];
    }
  }

  /** A row-wise function whose value is `c` on every selected row sums to `c` times the count. */
  lemma {:induction false} SumWhereUniform<T>(rows: seq<T>, keep: T -> bool, val: T -> int, c: int)
    requires forall i :: 0 <= i < |rows| && keep(rows[i]) ==> val(rows[i]) == c
    ensures SumWhere(rows, keep, val) == c * Count(rows, keep)
  {
    if |rows| > 0 {
      SumWhereUniform(rows[..|rows| - 1], keep, val, c);
    }
  }

  lemma {:induction false} FilterConcat<T>(a: seq<T>, b: seq<T>, keep: T -> bool)
    ensures Filter(a + b, keep) == Filter(a, keep) + Filter(b, keep)
    decreases |b|
  {
    if |b| == 0 {
      assert a + b == a;
    } else {
      var b' := b[..|b| - 1];
      assert (a + b)[..|a + b| - 1] == a + b';
      FilterConcat(a, b', keep);
    }
  }

  /** A filter that keeps every row is the identity; one that drops every row empties the table. */
  lemma {:induction false} FilterAll<T>(rows: seq<T>, keep: T -> bool)
    ensures (forall i :: 0 <= i < |rows| ==> keep(rows[i])) ==> Filter(rows, keep) == rows
    ensures (forall i :: 0 <= i < |rows| ==> !keep(rows[i])) ==> Filter(rows, keep) == []
  {
    if |rows| > 0 {
      var init, last := rows[..|rows| - 1], rows[|rows| - 1];
      assert rows == init + [last];
      assert forall i :: 0 <= i < |init| ==> init[i] == rows[i];
      FilterAll(init, keep);
      if forall i :: 0 <= i < |rows| ==> keep(rows[i]) {
        assert keep(last) && Filter(init, keep) == init;
      }
      if forall i :: 0 <= i < |rows| ==> !keep(rows[i]) {
        assert !keep(last) && Filter(init, keep) == [];
      }
    }
  }

  lemma {:induction false} SumRealConcat(a: seq<real>, b: seq<real>)
    ensures SumReal(a + b) == SumReal(a) + SumReal(b)
    decreases |b|
  {
    if |b| == 0 {
      assert a + b == a;
    } else {
      var b' := b[..|b| - 1];
      assert (a + b)[..|a + b| - 1] == a + b';
      SumRealConcat(a, b');
    }
  }
  /** Removing a row the filter drops leaves the selection as it was. */
  lemma FilterRemoveAt<T>(rows: seq<T>, i: nat, keep: T -> bool)
    requires i < |rows| && !keep(rows[i])
    ensures Filter(RemoveAt(rows, i), keep) == Filter(rows, keep)
  {
    var a, x, c := rows[..i], rows[i], rows[i + 1..];
    assert rows == (a + [x]) + c;
    assert RemoveAt(rows, i) == a + c;
    assert Filter([x], keep) == [] by {
      assert [x][..0] == [];
    }
    calc {
      Filter(rows, keep);
      { FilterConcat(a + [x], c, keep); }
      Filter(a + [x], keep) + Filter(c, keep);
      { FilterConcat(a, [x], keep); }
      Filter(a, keep) + Filter(c, keep);
      { FilterConcat(a, c, keep); }
      Filter(a + c, keep);
    }
  }

  lemma {:induction false} CountConcat<T>(a: seq<T>, b: seq<T>, keep: T -> bool)
    ensures Count(a + b, keep) == Count(a, keep) + Count(b, keep)
    decreases |b|
  {
    if |b| == 0 {
      assert a + b == a;
    } else {
      var b' := b[..|b| - 1];
      assert (a + b)[..|a + b| - 1] == a + b';
      CountConcat(a, b', keep);
    }
  }

  /** Removing one row lowers the count by one exactly when the row was counted. */
  lemma CountRemoveAt<T>(rows: seq<T>, i: nat, keep: T -> bool)
    requires i < |rows|
    ensures Count(RemoveAt(rows, i), keep) == Count(rows, keep) - (if keep(rows[i]) then 1 else 0)
  {
    assert rows == rows[..i] + [rows[i]] + rows[i + 1..];
    CountConcat(rows[..i] + [rows[i]], rows[i + 1..], keep);
    CountConcat(rows[..i], [rows[i]], keep);
    CountConcat(rows[..i], rows[i + 1..], keep);
    assert [rows[i]][..0] == [];
  }

  /** `WHERE keep ... .first()`: the position of the first selected row. */
  function FirstWhere<T>(rows: seq<T>, keep: T -> bool): (r: Option<nat>)
    ensures r.Some? ==> r.value < |rows| && keep(rows[r.value])
                        && forall j :: 0 <= j < r.value ==> !keep(rows[j])
    ensures r.None? <==> forall j :: 0 <= j < |rows| ==> !keep(rows[j])
  {
    if |rows| == 0 then None
    else if keep(rows[0]) then Some(0)
    else match FirstWhere(rows[1..], keep)
      case None => None
      case Some(k) => Some(k + 1)
  }

  /** The position of the last row `keep` selects, if any. */
  function LastWhere<T>(rows: seq<T>, keep: T -> bool): (r: Option<nat>)
    ensures r.Some? ==> r.value < |rows| && keep(rows[r.value])
                        && forall j :: r.value < j < |rows| ==> !keep(rows[j])
    ensures r.None? <==> forall j :: 0 <= j < |rows| ==> !keep(rows[j])
  {
    if |rows| == 0 then None
    else if keep(rows[|rows| - 1]) then Some(|rows| - 1)
    else
      var init := rows[..|rows| - 1];
      assert forall j :: 0 <= j < |init| ==> init[j] == rows[j];
      LastWhere(init, keep)
  }

  /** A table that agrees with another on which rows are selected, and only
      adds unselected rows, has the same first selected row. */
  lemma {:induction false} FirstWhereFrame<T>(a: seq<T>, b: seq<T>, keep: T -> bool)
    requires |a| <= |b|
    requires forall i :: 0 <= i < |a| ==> keep(a[i]) == keep(b[i])
    requires forall i :: |a| <= i < |b| ==> !keep(b[i])
    ensures FirstWhere(b, keep) == FirstWhere(a, keep)
  {
    if |a| > 0 && !keep(a[0]) {
      FirstWhereFrame(a[1..], b[1..], keep);
    }
  }

  /** Two tables of the same length that select the same positions and agree
      on the selected values have the same total. */
  lemma {:induction false} SumWhereFrame<T>(a: seq<T>, b: seq<T>, keep: T -> bool, val: T -> int)
    requires |a| == |b|
    requires forall i :: 0 <= i < |a| ==> keep(a[i]) == keep(b[i])
    requires forall i :: 0 <= i < |a| && keep(a[i]) ==> val(a[i]) == val(b[i])
    ensures SumWhere(a, keep, val) == SumWhere(b, keep, val)
  {
    if |a| > 0 {
      var n := |a| - 1;
      SumWhereFrame(a[..n], b[..n], keep, val);
    }
  }

  /** `round(x, 2)` on an amount counted in cents: the nearest whole cent,
      halves rounded up. */
  function RoundHalfUp(x: real): (c: int)
    ensures c as real - 0.5 <= x < c as real + 0.5
  {
    (x + 0.5).Floor
  }

  /** A run of `k` equal values adds up to `k` times the value. */
  lemma {:induction false} SumConstant(xs: seq<int>, c: int)
    requires forall i :: 0 <= i < |xs| ==> xs[i] == c
    ensures Sum(xs) == |xs| * c
  {
    if |xs| > 0 {
      SumConstant(xs[..|xs| - 1], c);
    }
  }
}

=== FILE: dashboard.dfy ===
/**
 The finance dashboards: the petty-cash withdrawal, the treasurer's
 per-resident and per-bucket totals, and a resident's own total. Each page
 sends the reader to the closing report instead once the month is closed.
 */
module Dashboard {
  import opened Common
  import opened Models
  import Text
  import Caixinha
  import Lancamentos
  import Fechamento
  import Admin
  import Aluguel

  /** Withdrawing from the petty cash (managers only): description and value
      are required, the value must parse, be positive and not exceed the
      stored balance. The withdrawal is stored negated, credited to the
      manager who made it. */
  function Retirar(s: Store, actor: User, now: Clock, descricao: string, valor: Input): (r: Step)
    ensures r.store == s.(caixinha := r.store.caixinha)
    ensures r.reply != Done ==> r.store == s
    ensures !IsGerenciador(actor) ==> r.reply == Forbidden
    ensures IsGerenciador(actor) && (descricao == [] || valor.Blank?) ==> r.reply == Refused(MissingField)
    ensures IsGerenciador(actor) && valor.Given? && valor.n > Caixinha.Saldo(s.caixinha) && descricao != [] ==>
              r.reply == Refused(if valor.n <= 0 then NotPositive else InsufficientBalance)
    ensures r.reply == Done <==>
              IsGerenciador(actor) && descricao != [] && valor.Given? && 0 < valor.n <= Caixinha.Saldo(s.caixinha)
    ensures r.reply == Done ==>
              && |r.store.caixinha| == |s.caixinha| + 1
              && r.store.caixinha[..|s.caixinha|] == s.caixinha
              && var m := r.store.caixinha[|s.caixinha|];
                 && m.valor == -valor.n && m.userId == Some(actor.id) && m.descricao == descricao
                 && m.id == NextId(MovimentoIds(s.caixinha)) && m.data == now.instant
  {
    if !IsGerenciador(actor) then Step(s, Forbidden)
    else if descricao == [] || valor.Blank? then Step(s, Refused(MissingField))
    else if valor.Malformed? then Step(s, Refused(InvalidValue))
    else if valor.n <= 0 then Step(s, Refused(NotPositive))
    else if valor.n > Caixinha.Saldo(s.caixinha) then Step(s, Refused(InsufficientBalance))
    else
      var m := CaixinhaMovimentacao(NextId(MovimentoIds(s.caixinha)), now.instant, descricao, -valor.n, Some(actor.id));
      var movs := s.caixinha + [m];
      assert movs[..|s.caixinha|] == s.caixinha;
      Step(s.(caixinha := movs), Done)
  }

  /** An accepted withdrawal lowers the balance by exactly its value and
      never leaves it negative, whatever the balance was before. */
  lemma RetirarNeverOverdraws(s: Store, actor: User, now: Clock, descricao: string, valor: Input)
    ensures var r := Retirar(s, actor, now, descricao, valor);
            r.reply == Done ==>
              && Caixinha.Saldo(r.store.caixinha) == Caixinha.Saldo(s.caixinha) - valor.n
              && Caixinha.Saldo(r.store.caixinha) >= 0
  {
    var r := Retirar(s, actor, now, descricao, valor);
    if r.reply == Done {
      var m := r.store.caixinha[|s.caixinha|];
      assert r.store.caixinha == s.caixinha + [m];
      Caixinha.SaldoAppend(s.caixinha, m);
    }
  }

  /** A manual deposit followed by a withdrawal of the same value by the same
      admin is accepted, and the petty-cash balance is back where it was. */
  lemma DepositThenWithdraw(s: Store, actor: User, now: Clock, descricao: string, valor: Input)
    requires Caixinha.Saldo(s.caixinha) >= 0
    ensures var r1 := Admin.AdicionarSaldoCaixinhaManual(s, actor, now, descricao, valor);
            r1.reply == Done ==>
              var r2 := Retirar(r1.store, actor, now, descricao, valor);
              && r2.reply == Done
              && Caixinha.Saldo(r1.store.caixinha) == Caixinha.Saldo(s.caixinha) + valor.n
              && Caixinha.Saldo(r2.store.caixinha) == Caixinha.Saldo(s.caixinha)
  {
    var r1 := Admin.AdicionarSaldoCaixinhaManual(s, actor, now, descricao, valor);
    if r1.reply == Done {
      assert IsGerenciador(actor);
      assert Caixinha.Saldo(r1.store.caixinha) == Caixinha.Saldo(s.caixinha) + valor.n;
      RetirarNeverOverdraws(r1.store, actor, now, descricao, valor);
    }
  }

  /** An entry whose payer, joined on `user_id`, has this username. */
  predicate PagoPorNome(users: seq<User>, l: Lancamento, nome: string)
  {
    l.userId.Some? && exists k :: 0 <= k < |users| && users[k].id == l.userId.value && users[k].username == nome
  }

  /** The month's entries paid by users with this username: the `GROUP BY
      username` of the join, looked up by name. */
  function TotalPorNome(users: seq<User>, ls: seq<Lancamento>, mes: int, ano: int, nome: string): (r: Cents)
    ensures (forall j :: 0 <= j < |ls| ==> !(Lancamentos.InMonth(ls[j], mes, ano) && PagoPorNome(users, ls[j], nome)))
            ==> r == 0
  {
    SumWhereNone(ls, (l: Lancamento) => Lancamentos.InMonth(l, mes, ano) && PagoPorNome(users, l, nome), Lancamentos.LancValor);
    SumWhere(ls, (l: Lancamento) => Lancamentos.InMonth(l, mes, ano) && PagoPorNome(users, l, nome), Lancamentos.LancValor)
  }

  /** One line of the treasurer's per-resident table. */
  datatype GastoUsuario = GastoUsuario(username: string, totalLancado: Cents, tipoQuarto: string)

  /** One line per resident (non-admin), 0 for a resident who paid nothing. */
  function GastosPorUsuario(users: seq<User>, ls: seq<Lancamento>, mes: int, ano: int): (r: seq<GastoUsuario>)
    ensures |r| == |Moradores(users)|
    ensures forall i :: 0 <= i < |r| ==>
              r[i].username == Moradores(users)[i].username && r[i].tipoQuarto == Moradores(users)[i].tipoQuarto
    ensures forall i :: 0 <= i < |r| ==>
              (forall j :: 0 <= j < |ls| ==>
                 !(Lancamentos.InMonth(ls[j], mes, ano) && PagoPorNome(users, ls[j], Moradores(users)[i].username)))
              ==> r[i].totalLancado == 0
  {
    var ms := Moradores(users);
    seq(|ms|, i requires 0 <= i < |ms| =>
      GastoUsuario(ms[i].username, TotalPorNome(users, ls, mes, ano, ms[i].username), ms[i].tipoQuarto))
  }

  /** With primary-key ids and unique usernames, a resident's line is
      exactly what that resident is credited with for the month, so the
      house's own entries (no payer) never count for anyone. */
  lemma PerUserIsCredited(users: seq<User>, ls: seq<Lancamento>, mes: int, ano: int)
    requires DistinctIds(UserIds(users)) && Admin.UniqueUsernames(users)
    ensures forall i :: 0 <= i < |Moradores(users)| ==>
              GastosPorUsuario(users, ls, mes, ano)[i].totalLancado
              == Lancamentos.CreditadoA(ls, mes, ano, Moradores(users)[i].id)
  {
    var ms := Moradores(users);
    forall i | 0 <= i < |ms|
      ensures TotalPorNome(users, ls, mes, ano, ms[i].username) == Lancamentos.CreditadoA(ls, mes, ano, ms[i].id)
    {
      var u := ms[i];
      assert u in users;
      var iu :| 0 <= iu < |users| && users[iu] == u;
      forall l: Lancamento
        ensures PagoPorNome(users, l, u.username) <==> l.userId == Some(u.id)
      {
        if PagoPorNome(users, l, u.username) {
          var k :| 0 <= k < |users| && users[k].id == l.userId.value && users[k].username == u.username;
          assert k == iu;
        }
        if l.userId == Some(u.id) {
          assert users[iu].id == l.userId.value && users[iu].username == u.username;
        }
      }
      SumWhereSameRows(ls, (l: Lancamento) => Lancamentos.InMonth(l, mes, ano) && PagoPorNome(users, l, u.username),
                       (l: Lancamento) => Lancamentos.InMonth(l, mes, ano) && l.userId == Some(u.id),
                       Lancamentos.LancValor);
    }
  }

  /** Paying an expense on behalf of the house changes nobody's line. */
  lemma HouseEntryCountsForNobody(users: seq<User>, ls: seq<Lancamento>, mes: int, ano: int, l: Lancamento)
    requires IsGastoDaCasa(l)
    ensures GastosPorUsuario(users, ls + [l], mes, ano) == GastosPorUsuario(users, ls, mes, ano)
  {
    var a := GastosPorUsuario(users, ls + [l], mes, ano);
    var b := GastosPorUsuario(users, ls, mes, ano);
    assert (ls + [l])[..|ls|] == ls;
    forall i | 0 <= i < |a|
      ensures a[i] == b[i]
    {
    }
  }

  /** Display buckets, matched case-sensitively on substrings: other
      household costs mention neither key and are bound to nobody; rent rows
      mention 'Aluguel' and are bound to a resident. */
  predicate IsFixoOutrosExib(f: DespesaFixa)
  {
    f.ativa && !Text.Contains(f.descricao, CHAVE_ALUGUEL) && !Text.Contains(f.descricao, CHAVE_CAIXINHA)
    && f.moradorId.None?
  }

  predicate IsAluguelExib(f: DespesaFixa)
  {
    f.ativa && Text.Contains(f.descricao, CHAVE_ALUGUEL) && f.moradorId.Some?
  }

  /** The treasurer's page. */
  datatype Painel = Painel(gastosPorUsuario: seq<GastoUsuario>, totalFixo: Cents, totalVariavel: Cents,
                           totalAluguel: Cents, totalCaixinha: Cents, totalGastoGeral: Cents,
                           totalAPagar: Cents, dados: Caixinha.Dados)

  /** What a dashboard request answers: 403, a redirect to the report of the
      closed month, or the page itself. */
  datatype Tela = Proibido | Relatorio(fechamentoId: nat) | Tesoureiro(painel: Painel)
                | Usuario(meusGastos: seq<Lancamento>, totalGasto: Cents, dadosCaixinha: Caixinha.Dados)

  /** The first closing of the month, if the month is closed. */
  function FechamentoDoMes(s: Store, mes: int, ano: int): (r: Option<nat>)
    ensures r.None? <==> !MonthIsClosed(s, mes, ano)
    ensures r.Some? ==> r.value < |s.fechamentos| && IsClosingOf(s.fechamentos[r.value], mes, ano)
  {
    match FirstWhere(s.fechamentos, (f: FechamentoMensal) => IsClosingOf(f, mes, ano))
    case None => None
    case Some(k) => Some(k)
  }

  /** The treasurer's dashboard: managers only; the closed month's report
      when there is one; otherwise the per-resident table and the totals,
      where the grand total adds other costs, every entry of the month and
      the residents' rent, and the amount to collect adds the petty-cash
      contribution on top. */
  function DashboardTesoureiro(s: Store, actor: User, now: Clock): (t: Tela)
    ensures !IsGerenciador(actor) ==> t == Proibido
    ensures IsGerenciador(actor) && MonthIsClosed(s, now.month, now.year) ==>
              t.Relatorio? && exists k :: 0 <= k < |s.fechamentos| && s.fechamentos[k].id == t.fechamentoId
                                          && IsClosingOf(s.fechamentos[k], now.month, now.year)
    ensures IsGerenciador(actor) && !MonthIsClosed(s, now.month, now.year) ==>
              && t.Tesoureiro?
              && var p := t.painel;
                 && p.gastosPorUsuario == GastosPorUsuario(s.users, s.lancamentos, now.month, now.year)
                 && p.totalFixo == SumWhere(s.fixas, IsFixoOutrosExib, FixaValor)
                 && p.totalAluguel == SumWhere(s.fixas, IsAluguelExib, FixaValor)
                 && p.totalVariavel == Lancamentos.TotalDoMes(s.lancamentos, now.month, now.year)
                 && p.totalCaixinha == Caixinha.Contribuicao(s.fixas) == p.dados.valorContribuicaoMensal
                 && p.totalGastoGeral == p.totalFixo + p.totalVariavel + p.totalAluguel
                 && p.totalAPagar == p.totalGastoGeral + p.totalCaixinha
                 && p.dados == Caixinha.DadosCaixinha(s)
  {
    if !IsGerenciador(actor) then Proibido
    else match FechamentoDoMes(s, now.month, now.year)
      case Some(k) => Relatorio(s.fechamentos[k].id)
      case None =>
        var dados := Caixinha.DadosCaixinha(s);
        var fixo := SumWhere(s.fixas, IsFixoOutrosExib, FixaValor);
        var variavel := Lancamentos.TotalDoMes(s.lancamentos, now.month, now.year);
        var aluguel := SumWhere(s.fixas, IsAluguelExib, FixaValor);
        var caixinha := dados.valorContribuicaoMensal;
        var geral := fixo + variavel + aluguel;
        Tesoureiro(Painel(GastosPorUsuario(s.users, s.lancamentos, now.month, now.year),
                          fixo, variavel, aluguel, caixinha, geral, geral + caixinha, dados))
  }

  /** Descriptions the dashboard and the closing read alike: exactly one of
      the two keys, or a text that mentions neither in any letter case. */
  predicate NamedPlainly(f: DespesaFixa)
  {
    f.descricao == CHAVE_ALUGUEL || f.descricao == CHAVE_CAIXINHA
    || (!Text.LikeContains(f.descricao, CHAVE_ALUGUEL) && !Text.LikeContains(f.descricao, CHAVE_CAIXINHA))
  }

  lemma {:induction false} ContainsLength(hay: string, needle: string)
    requires Text.Contains(hay, needle)
    ensures |needle| <= |hay|
    decreases |hay|
  {
    if !(needle <= hay) {
      ContainsLength(hay[1..], needle);
    }
  }

  /** Neither key occurs in the other, in any letter case. */
  lemma KeysApart()
    ensures !Text.Contains(CHAVE_CAIXINHA, CHAVE_ALUGUEL)
    ensures !Text.LikeContains(CHAVE_ALUGUEL, CHAVE_CAIXINHA)
    ensures !Text.Contains(CHAVE_ALUGUEL, CHAVE_CAIXINHA)
  {
    if Text.Contains(CHAVE_CAIXINHA, CHAVE_ALUGUEL) {
      assert CHAVE_CAIXINHA[0] != CHAVE_ALUGUEL[0];
      assert Text.Contains(CHAVE_CAIXINHA[1..], CHAVE_ALUGUEL);
      assert CHAVE_CAIXINHA[1..][0] != CHAVE_ALUGUEL[0];
      assert Text.Contains(CHAVE_CAIXINHA[2..], CHAVE_ALUGUEL) by {
        assert CHAVE_CAIXINHA[1..][1..] == CHAVE_CAIXINHA[2..];
      }
      ContainsLength(CHAVE_CAIXINHA[2..], CHAVE_ALUGUEL);
    }
    if Text.LikeContains(CHAVE_ALUGUEL, CHAVE_CAIXINHA) {
      ContainsLength(Text.Lower(CHAVE_ALUGUEL), Text.Lower(CHAVE_CAIXINHA));
    }
    if Text.Contains(CHAVE_ALUGUEL, CHAVE_CAIXINHA) {
      ContainsLength(CHAVE_ALUGUEL, CHAVE_CAIXINHA);
    }
  }

  /** Deleting a user leaves each of their rent rows named 'Aluguel' and
      bound to nobody, which is what marks the master rent row: no bucket of
      the closing and none of the treasurer's page charges it, an active one
      is outside every bucket, and the permanent delete refuses it. */
  lemma DeletedRentChargesNobody(s: Store, actor: User, id: nat, i: nat)
    requires i < |s.fixas| && Aluguel.IsRentRowOf(s.fixas[i], id)
    ensures var r := Admin.DeletarUsuario(s, actor, id);
            r.reply == Done ==>
              var g := r.store.fixas[i];
              && Aluguel.IsMasterRent(g) && Aluguel.IsProtected(g)
              && g.ativa == s.fixas[i].ativa && g.valor == s.fixas[i].valor
              && !Fechamento.IsAluguelDoMes(g) && !Fechamento.IsCaixinhaDoMes(g) && !Fechamento.IsOutraDespesa(g)
              && (g.ativa ==> Fechamento.IsForaDosBaldes(g))
              && !IsFixoOutrosExib(g) && !IsAluguelExib(g)
  {
    var r := Admin.DeletarUsuario(s, actor, id);
    if r.reply == Done {
      var g := r.store.fixas[i];
      assert g == s.fixas[i].(moradorId := None);
      Text.ContainsSelf(CHAVE_ALUGUEL);
      assert Text.Contains(g.descricao, CHAVE_ALUGUEL);
    }
  }

  /** A plainly named row falls in the same bucket on both pages. */
  lemma RowReadAlike(f: DespesaFixa)
    requires NamedPlainly(f)
    ensures IsFixoOutrosExib(f) == Fechamento.IsOutraDespesa(f)
    ensures IsAluguelExib(f) == Fechamento.IsAluguelDoMes(f)
    ensures Caixinha.IsContribuicao(f) == Fechamento.IsCaixinhaDoMes(f)
  {
    KeysApart();
    var d := f.descricao;
    Text.ContainsSelf(CHAVE_ALUGUEL);
    Text.ContainsSelf(CHAVE_CAIXINHA);
    Text.ContainsSelf(Text.Lower(CHAVE_CAIXINHA));
    if d != CHAVE_ALUGUEL && d != CHAVE_CAIXINHA {
      if Text.Contains(d, CHAVE_ALUGUEL) { Text.ContainsLower(d, CHAVE_ALUGUEL); }
      if Text.Contains(d, CHAVE_CAIXINHA) { Text.ContainsLower(d, CHAVE_CAIXINHA); }
    }
  }

  /** When every fixed expense is named plainly, the treasurer's page shows
      what closing the month would charge: the same other costs, rent and
      petty cash, so the amount to collect is the closing's shared costs
      plus the residents' rent. */
  lemma DisplayMatchesClosing(s: Store, actor: User, now: Clock)
    requires forall i :: 0 <= i < |s.fixas| ==> NamedPlainly(s.fixas[i])
    ensures var t := DashboardTesoureiro(s, actor, now);
            var c := Fechamento.TotaisDoMes(s, now.month, now.year);
            t.Tesoureiro? ==>
              && t.painel.totalFixo == c.fixoOutros
              && t.painel.totalAluguel == c.aluguel
              && t.painel.totalCaixinha == c.caixinha
              && t.painel.totalVariavel == c.variavel
              && t.painel.totalAPagar == Fechamento.TotalOutras(c) + c.aluguel
  {
    var fs := s.fixas;
    forall i | 0 <= i < |fs|
      ensures IsFixoOutrosExib(fs[i]) == Fechamento.IsOutraDespesa(fs[i])
      ensures IsAluguelExib(fs[i]) == Fechamento.IsAluguelDoMes(fs[i])
      ensures Caixinha.IsContribuicao(fs[i]) == Fechamento.IsCaixinhaDoMes(fs[i])
    {
      RowReadAlike(fs[i]);
    }
    SumWhereSameRows(fs, IsFixoOutrosExib, Fechamento.IsOutraDespesa, FixaValor);
    SumWhereSameRows(fs, IsAluguelExib, Fechamento.IsAluguelDoMes, FixaValor);
    SumWhereSameRows(fs, Caixinha.IsContribuicao, Fechamento.IsCaixinhaDoMes, FixaValor);
  }

  /** A resident's own entries of the month. */
  predicate IsMeuGasto(l: Lancamento, uid: nat, mes: int, ano: int)
  {
    Lancamentos.InMonth(l, mes, ano) && l.userId == Some(uid)
  }

  /** The resident's dashboard: the closed month's report when there is one;
      otherwise the entries the resident paid this month and their total. */
  function DashboardUsuario(s: Store, actor: User, now: Clock): (t: Tela)
    ensures MonthIsClosed(s, now.month, now.year) <==> t.Relatorio?
    ensures t.Usuario? ==>
              && (forall i :: 0 <= i < |t.meusGastos| ==>
                    t.meusGastos[i] in s.lancamentos && IsMeuGasto(t.meusGastos[i], actor.id, now.month, now.year))
              && (forall i :: 0 <= i < |s.lancamentos| && IsMeuGasto(s.lancamentos[i], actor.id, now.month, now.year) ==>
                    s.lancamentos[i] in t.meusGastos)
              && t.totalGasto == Sum(Lancamentos.Valores(t.meusGastos))
              && t.dadosCaixinha == Caixinha.DadosCaixinha(s)
  {
    match FechamentoDoMes(s, now.month, now.year)
    case Some(k) => Relatorio(s.fechamentos[k].id)
    case None =>
      var meus := Filter(s.lancamentos, (l: Lancamento) => IsMeuGasto(l, actor.id, now.month, now.year));
      Usuario(meus, Sum(Lancamentos.Valores(meus)), Caixinha.DadosCaixinha(s))
  }

  /** The sum of the listed rows is the `SUM` over the rows the filter keeps. */
  lemma {:induction false} SumOfFilter(ls: seq<Lancamento>, keep: Lancamento -> bool)
    ensures Sum(Lancamentos.Valores(Filter(ls, keep))) == SumWhere(ls, keep, Lancamentos.LancValor)
  {
    if |ls| > 0 {
      var init := ls[..|ls| - 1];
      var x := ls[|ls| - 1];
      SumOfFilter(init, keep);
      if keep(x) {
        var f := Filter(init, keep) + [x];
        assert Lancamentos.Valores(f)[..|f| - 1] == Lancamentos.Valores(Filter(init, keep));
      }
    }
  }

  /** The resident's total is what the resident is credited with for the
      month: the same figure the closing records as their `totalGasto`. */
  lemma UserTotalIsCredited(s: Store, actor: User, now: Clock)
    ensures var t := DashboardUsuario(s, actor, now);
            t.Usuario? ==> t.totalGasto == Lancamentos.CreditadoA(s.lancamentos, now.month, now.year, actor.id)
  {
    var keep := (l: Lancamento) => IsMeuGasto(l, actor.id, now.month, now.year);
    SumOfFilter(s.lancamentos, keep);
    SumWhereSameRows(s.lancamentos, keep,
                     (l: Lancamento) => Lancamentos.InMonth(l, now.month, now.year) && l.userId == Some(actor.id),
                     Lancamentos.LancValor);
  }
}

=== FILE: escala.dfy ===
/**
 The weekly chore rotation: which of two fixed rosters a week uses, how
 the roster is rotated and stretched to the number of recurring chores,
 the one-time generation of a week's rows, and the guards on extra
 ("avulsa") chores, on deleting rows and on marking a row done.
 */
module Escala {
  import opened Common
  import opened Models
  import Text

  /** The roster of odd five-week blocks. */
  const RESPONSAVEIS_INVERTIDO: seq<string> :=
    ["falamansa", "parabrisa", "duposto", "jubileu",
     "vigarista", "peçarrara", "karcaça", "macale", "serrote", "6bomba"]

  /** The roster of even five-week blocks. */
  const RESPONSAVEIS_ORIGINAL: seq<string> :=
    ["parabrisa", "falamansa", "jubileu", "duposto",
     "peçarrara", "vigarista", "macale", "karcaça", "6bomba", "serrote"]

  /** Weeks counted from the scheduler's reference year 2024, 52 to a year. */
  function TotalWeeks(ano: int, semana: int): int
  {
    (ano - 2024) * 52 + semana
  }

  /** `(total_weeks - 1) // 5`: the five-week block the week falls in. */
  function CycleNumber(ano: int, semana: int): (c: int)
    ensures 5 * c <= TotalWeeks(ano, semana) - 1 < 5 * c + 5
  {
    (TotalWeeks(ano, semana) - 1) / 5
  }

  /** The roster chosen by the parity of the block. */
  function BaseRoster(ano: int, semana: int): (r: seq<string>)
    ensures |r| == 10
  {
    if CycleNumber(ano, semana) % 2 == 0 then RESPONSAVEIS_ORIGINAL else RESPONSAVEIS_INVERTIDO
  }

  /** `(semana * -2) % len`: an offset in range that undoes two steps per week. */
  function Rotation(semana: int, n: int): (r: int)
    requires n > 0
    ensures 0 <= r < n
    ensures (r + 2 * semana) % n == 0
  {
    var r := (semana * -2) % n;
    ModOfMultiple(r + 2 * semana, n, -((semana * -2) / n));
    r
  }

  /** `base[r:] + base[:r]`: the roster rotated left by `r`. */
  function RotateLeft<T>(base: seq<T>, r: int): (x: seq<T>)
    requires 0 <= r < |base|
    ensures |x| == |base|
    ensures forall i :: 0 <= i < |x| ==> x[i] == base[(i + r) % |base|]
    ensures multiset(x) == multiset(base)
  {
    var x := base[r..] + base[..r];
    forall i | 0 <= i < |x|
      ensures x[i] == base[(i + r) % |base|]
    {
      if i < |base| - r {
        ModSmall(i + r, |base|);
      } else {
        ModSmall(i + r - |base|, |base|);
        ModMinus(i + r, |base|);
      }
    }
    assert base == base[..r] + base[r..];
    x
  }

  /** `s * k`: `k` copies of `s` one after the other. */
  function Repeat<T>(s: seq<T>, k: nat): (r: seq<T>)
    ensures |r| == |s| * k
    ensures forall i :: 0 <= i < |r| ==> r[i] == s[i % |s|]
  {
    if k == 0 then []
    else
      var tail := Repeat(s, k - 1);
      var r := s + tail;
      forall i | 0 <= i < |r|
        ensures r[i] == s[i % |s|]
      {
        if i < |s| {
          ModSmall(i, |s|);
        } else {
          ModMinus(i, |s|);
        }
      }
      r
  }

  /** `(final * (n // len(final) + 1))[:n]`: the roster repeated cyclically to `n` entries. */
  function Adjust<T>(final: seq<T>, n: nat): (r: seq<T>)
    requires |final| > 0
    ensures |r| == n
    ensures forall i :: 0 <= i < n ==> r[i] == final[i % |final|]
  {
    var k := n / |final| + 1;
    MulDivBound(n, |final|);
    Repeat(final, k)[..n]
  }

  /** The roster of a week after rotation. */
  function Roster(ano: int, semana: int): (r: seq<string>)
    ensures |r| == 10
    ensures multiset(r) == multiset(BaseRoster(ano, semana))
  {
    RotateLeft(BaseRoster(ano, semana), Rotation(semana, 10))
  }

  /** The descriptions of the recurring chores, in id order. */
  function RecurringDescriptions(tarefas: seq<Tarefa>): (r: seq<string>)
  {
    var rec := Filter(tarefas, (t: Tarefa) => t.recorrente);
    seq(|rec|, i requires 0 <= i < |rec| => rec[i].descricao)
  }

  predicate IsWeekRow(e: EscalaSemanal, ano: int, semana: int)
  {
    e.semana == semana && e.ano == ano
  }

  predicate HasWeek(escala: seq<EscalaSemanal>, ano: int, semana: int)
  {
    exists i :: 0 <= i < |escala| && IsWeekRow(escala[i], ano, semana)
  }

  /** The rows of one week, in id order. */
  function WeekRows(escala: seq<EscalaSemanal>, ano: int, semana: int): seq<EscalaSemanal>
  {
    Filter(escala, (e: EscalaSemanal) => IsWeekRow(e, ano, semana))
  }

  /** The rows generated for a week: chore `i` zipped with the `i`-th entry of
      the stretched roster, as a pending recurring row. */
  function GeneratedRows(firstId: nat, ano: int, semana: int, descs: seq<string>): (r: seq<EscalaSemanal>)
    ensures |r| == |descs|
    ensures forall i :: 0 <= i < |r| ==>
              && IsWeekRow(r[i], ano, semana) && r[i].id == firstId + i
              && r[i].tarefa == descs[i] && r[i].responsavel == Roster(ano, semana)[i % 10]
              && r[i].status == PENDENTE && r[i].tipo == RECORRENTE
  {
    Zip(firstId, ano, semana, descs, Adjust(Roster(ano, semana), |descs|))
  }

  /** Chore `i` paired with assignee `i`, as pending recurring rows with consecutive ids. */
  function Zip(firstId: nat, ano: int, semana: int, descs: seq<string>, resp: seq<string>): (r: seq<EscalaSemanal>)
    requires |resp| == |descs|
    ensures |r| == |descs|
    ensures forall i :: 0 <= i < |r| ==>
              r[i] == EscalaSemanal(firstId + i, semana, ano, descs[i], resp[i], PENDENTE, RECORRENTE)
  {
    seq(|descs|, i requires 0 <= i < |descs| =>
      EscalaSemanal(firstId + i, semana, ano, descs[i], resp[i], PENDENTE, RECORRENTE))
  }

  /** Viewing a week generates its recurring rows when, and only when, the
      week has no row yet. */
  function VerEscala(s: Store, ano: int, semana: int): (r: Store)
    ensures r == s.(escala := r.escala)
    ensures HasWeek(s.escala, ano, semana) ==> r == s
    ensures !HasWeek(s.escala, ano, semana) ==>
      r.escala == s.escala + GeneratedRows(NextId(EscalaIds(s.escala)), ano, semana, RecurringDescriptions(s.tarefas))
  {
    if HasWeek(s.escala, ano, semana) then s
    else
      var descs := RecurringDescriptions(s.tarefas);
      var novas := GeneratedRows(NextId(EscalaIds(s.escala)), ano, semana, descs);
      s.(escala := s.escala + novas)
  }

  /** Viewing a week twice adds nothing the second time. */
  lemma VerEscalaIdempotent(s: Store, ano: int, semana: int)
    ensures VerEscala(VerEscala(s, ano, semana), ano, semana) == VerEscala(s, ano, semana)
  {
    var r := VerEscala(s, ano, semana);
    if !HasWeek(s.escala, ano, semana) {
      if |r.escala| > |s.escala| {
        assert IsWeekRow(r.escala[|s.escala|], ano, semana);
      } else {
        assert r.escala == r.escala[..|s.escala|] == s.escala;
      }
    }
  }

  /** Within a five-week block the roster stays; five weeks later the other one is used. */
  lemma RosterAlternates(ano: int, semana: int)
    ensures BaseRoster(ano, semana + 5) != BaseRoster(ano, semana)
    ensures BaseRoster(ano, semana + 10) == BaseRoster(ano, semana)
    ensures CycleNumber(ano, semana) == CycleNumber(ano, semana + 1) ==>
              BaseRoster(ano, semana) == BaseRoster(ano, semana + 1)
  {
    CycleAdvance(ano, semana);
    SameRosterByParity(ano, semana + 5, ano, semana);
    SameRosterByParity(ano, semana + 10, ano, semana);
    SameRosterByParity(ano, semana, ano, semana + 1);
  }

  /** Five weeks later the block number is one higher and its parity flips;
      ten weeks later the parity is back. */
  lemma CycleAdvance(ano: int, semana: int)
    ensures CycleNumber(ano, semana + 5) % 2 != CycleNumber(ano, semana) % 2
    ensures CycleNumber(ano, semana + 10) % 2 == CycleNumber(ano, semana) % 2
  {
    var x := TotalWeeks(ano, semana) - 1;
    assert CycleNumber(ano, semana + 5) == CycleNumber(ano, semana) + 1 by {
      assert TotalWeeks(ano, semana + 5) - 1 == x + 5;
      BlockShift(x);
    }
    assert CycleNumber(ano, semana + 10) == CycleNumber(ano, semana) + 2 by {
      assert TotalWeeks(ano, semana + 10) - 1 == x + 10;
      BlockShift(x);
      BlockShift(x + 5);
    }
  }

  lemma BlockShift(x: int)
    ensures (x + 5) / 5 == x / 5 + 1
  {
  }

  /** Two weeks share a roster exactly when their blocks have the same parity. */
  lemma SameRosterByParity(ano1: int, semana1: int, ano2: int, semana2: int)
    ensures BaseRoster(ano1, semana1) == BaseRoster(ano2, semana2)
            <==> CycleNumber(ano1, semana1) % 2 == CycleNumber(ano2, semana2) % 2
  {
    RostersDiffer();
  }

  lemma RostersDiffer()
    ensures RESPONSAVEIS_ORIGINAL != RESPONSAVEIS_INVERTIDO
  {
    assert RESPONSAVEIS_ORIGINAL[0][0] == 'p';
    assert RESPONSAVEIS_INVERTIDO[0][0] == 'f';
  }

  /** Both rosters hold the same ten names: the inverted one swaps each
      adjacent pair of the original. */
  lemma RostersSameNames()
    ensures multiset(RESPONSAVEIS_INVERTIDO) == multiset(RESPONSAVEIS_ORIGINAL)
  {
    var o := RESPONSAVEIS_ORIGINAL;
    var v := RESPONSAVEIS_INVERTIDO;
    assert v[0] == o[1] && v[1] == o[0] && v[2] == o[3] && v[3] == o[2] && v[4] == o[5];
    assert v[5] == o[4] && v[6] == o[7] && v[7] == o[6] && v[8] == o[9] && v[9] == o[8];
    PairSwapMultiset(v, o);
  }

  /** The ten names of the roster are pairwise distinct. */
  lemma RosterDistinct()
    ensures forall i, j :: 0 <= i < j < 10 ==> RESPONSAVEIS_ORIGINAL[i] != RESPONSAVEIS_ORIGINAL[j]
  {
    var o := RESPONSAVEIS_ORIGINAL;
    var tags := seq(10, i requires 0 <= i < 10 => [o[i][0], o[i][1]]);
    assert tags == ["pa", "fa", "ju", "du", "pe", "vi", "ma", "ka", "6b", "se"];
    forall i, j | 0 <= i < j < 10
      ensures o[i] != o[j]
    {
      assert tags[i] != tags[j];
    }
  }

  lemma {:induction false} PairSwapMultiset<T>(a: seq<T>, b: seq<T>)
    requires |a| == |b| && |a| % 2 == 0
    requires forall k :: 0 <= k < |a| / 2 ==> a[2 * k] == b[2 * k + 1] && a[2 * k + 1] == b[2 * k]
    ensures multiset(a) == multiset(b)
  {
    if |a| > 0 {
      var a', b' := a[2..], b[2..];
      forall k | 0 <= k < |a'| / 2
        ensures a'[2 * k] == b'[2 * k + 1] && a'[2 * k + 1] == b'[2 * k]
      {
        assert a[2 * (k + 1)] == b[2 * (k + 1) + 1];
        assert a[2 * (k + 1) + 1] == b[2 * (k + 1)];
      }
      PairSwapMultiset(a', b');
      assert a[2 * 0] == b[2 * 0 + 1] && a[2 * 0 + 1] == b[2 * 0];
      assert multiset([a[0], a[1]]) == multiset([b[0], b[1]]);
      assert a == [a[0], a[1]] + a';
      assert b == [b[0], b[1]] + b';
    }
  }

  /** The assignees of a run of rows, in order. */
  function Assignees(rows: seq<EscalaSemanal>): (r: seq<string>)
    ensures |r| == |rows|
    ensures forall i :: 0 <= i < |rows| ==> r[i] == rows[i].responsavel
  {
    seq(|rows|, i requires 0 <= i < |rows| => rows[i].responsavel)
  }

  /** With exactly ten recurring chores every resident of the roster gets
      exactly one chore of the generated week. */
  lemma OneChoreEach(s: Store, ano: int, semana: int)
    requires !HasWeek(s.escala, ano, semana)
    requires |RecurringDescriptions(s.tarefas)| == 10
    ensures var r := VerEscala(s, ano, semana);
            var names := Assignees(r.escala[|s.escala|..]);
            && multiset(names) == multiset(RESPONSAVEIS_ORIGINAL)
            && forall i :: 0 <= i < 10 ==> multiset(names)[RESPONSAVEIS_ORIGINAL[i]] == 1
  {
    WeekNamesAreRoster(s, ano, semana);
    RosterHasAllNames(ano, semana);
  }

  /** Whatever the week, its roster holds each of the ten names of the
      original roster exactly once. */
  lemma RosterHasAllNames(ano: int, semana: int)
    ensures multiset(Roster(ano, semana)) == multiset(RESPONSAVEIS_ORIGINAL)
    ensures forall i :: 0 <= i < 10 ==> multiset(Roster(ano, semana))[RESPONSAVEIS_ORIGINAL[i]] == 1
  {
    var m := multiset(Roster(ano, semana));
    assert m == multiset(RESPONSAVEIS_ORIGINAL) by {
      if CycleNumber(ano, semana) % 2 != 0 {
        RostersSameNames();
      }
    }
    OriginalNamesOnce();
  }

  lemma OriginalNamesOnce()
    ensures forall i :: 0 <= i < 10 ==> multiset(RESPONSAVEIS_ORIGINAL)[RESPONSAVEIS_ORIGINAL[i]] == 1
  {
    var o := RESPONSAVEIS_ORIGINAL;
    RosterDistinct();
    assert forall a, b :: 0 <= a < b < |o| ==> o[a] != o[b];
    forall i | 0 <= i < 10
      ensures multiset(o)[o[i]] == 1
    {
      DistinctOnce(o, i);
    }
  }

  /** The generated week's assignees are the week's roster, in order. */
  lemma WeekNamesAreRoster(s: Store, ano: int, semana: int)
    requires !HasWeek(s.escala, ano, semana)
    requires |RecurringDescriptions(s.tarefas)| == 10
    ensures Assignees(VerEscala(s, ano, semana).escala[|s.escala|..]) == Roster(ano, semana)
  {
    var g := GeneratedRows(NextId(EscalaIds(s.escala)), ano, semana, RecurringDescriptions(s.tarefas));
    GeneratedNames(NextId(EscalaIds(s.escala)), ano, semana, RecurringDescriptions(s.tarefas));
    assert VerEscala(s, ano, semana).escala == s.escala + g;
    assert (s.escala + g)[|s.escala|..] == g;
  }

  lemma GeneratedNames(firstId: nat, ano: int, semana: int, descs: seq<string>)
    requires |descs| == 10
    ensures Assignees(GeneratedRows(firstId, ano, semana, descs)) == Roster(ano, semana)
  {
    AdjustWhole(Roster(ano, semana));
  }

  /** Stretching a roster to its own length leaves it as it is. */
  lemma AdjustWhole<T>(final: seq<T>)
    requires |final| > 0
    ensures Adjust(final, |final|) == final
  {
    forall i | 0 <= i < |final|
      ensures Adjust(final, |final|)[i] == final[i]
    {
      ModSmall(i, |final|);
    }
  }

  /** In a sequence without repetitions every element occurs once. */
  lemma {:induction false} DistinctOnce<T>(xs: seq<T>, i: nat)
    requires i < |xs|
    requires forall a, b :: 0 <= a < b < |xs| ==> xs[a] != xs[b]
    ensures multiset(xs)[xs[i]] == 1
  {
    var n := |xs| - 1;
    assert xs == xs[..n] + [xs[n]];
    if i == n {
      assert xs[n] !in xs[..n];
    } else {
      DistinctOnce(xs[..n], i);
      assert xs[..n][i] == xs[i];
    }
  }

  /** A manager adds an extra chore to a week; description (stripped) and
      assignee are both required. */
  function AdicionarAvulsa(s: Store, actor: User, ano: int, semana: int,
                           descricao: string, responsavel: string): (r: Step)
    ensures r.store == s.(escala := r.store.escala)
    ensures r.reply == Done <==>
              IsGerenciador(actor) && Text.Strip(descricao) != [] && responsavel != []
    ensures r.reply != Done ==> r.store == s
    ensures r.reply == Done ==>
              && |r.store.escala| == |s.escala| + 1
              && r.store.escala[..|s.escala|] == s.escala
              && var e := r.store.escala[|s.escala|];
                 IsWeekRow(e, ano, semana) && e.tipo == AVULSA && e.status == PENDENTE
                 && e.tarefa == Text.Strip(descricao) && e.responsavel == responsavel
  {
    var d := Text.Strip(descricao);
    if !IsGerenciador(actor) then Step(s, Refused(NotAllowed))
    else if d == [] || responsavel == [] then Step(s, Refused(MissingField))
    else
      var e := EscalaSemanal(NextId(EscalaIds(s.escala)), semana, ano, d, responsavel, PENDENTE, AVULSA);
      Step(s.(escala := s.escala + [e]), Done)
  }

  /** A manager edits one row's chore text and assignee; its kind and status stay. */
  function EditTarefaSemanal(s: Store, actor: User, id: nat, descricao: string, responsavel: string): (r: Step)
    ensures r.store == s.(escala := r.store.escala)
    ensures r.reply != Done ==> r.store == s
    ensures !IsGerenciador(actor) ==> r.reply == Forbidden
    ensures IsGerenciador(actor) ==>
              match IndexOfId(EscalaIds(s.escala), id)
              case None => r.reply == NotFound
              case Some(k) =>
                && r.reply == Done
                && r.store.escala == s.escala[k := s.escala[k].(tarefa := Text.Strip(descricao), responsavel := responsavel)]
    ensures r.reply == Done ==>
              && |r.store.escala| == |s.escala|
              && forall i :: 0 <= i < |s.escala| ==>
                   var (a, b) := (s.escala[i], r.store.escala[i]);
                   && b.tipo == a.tipo && b.status == a.status && b.id == a.id
                   && IsWeekRow(b, a.ano, a.semana)
                   && (b != a ==> a.id == id && b.tarefa == Text.Strip(descricao) && b.responsavel == responsavel)
  {
    if !IsGerenciador(actor) then Step(s, Forbidden)
    else match IndexOfId(EscalaIds(s.escala), id)
      case None => Step(s, NotFound)
      case Some(k) =>
        var e := s.escala[k].(tarefa := Text.Strip(descricao), responsavel := responsavel);
        Step(s.(escala := s.escala[k := e]), Done)
  }

  predicate IsRecorrente(e: EscalaSemanal)
  {
    e.tipo == RECORRENTE
  }

  /** An extra chore never joins the rotation: the recurring rows keep their
      number, and the week it was added to counts as generated, so viewing
      that week afterwards adds no recurring rows. */
  lemma AdicionarAvulsaKeepsRotation(s: Store, actor: User, ano: int, semana: int,
                                     descricao: string, responsavel: string)
    ensures var r := AdicionarAvulsa(s, actor, ano, semana, descricao, responsavel);
            && Count(r.store.escala, IsRecorrente) == Count(s.escala, IsRecorrente)
            && (r.reply == Done ==> VerEscala(r.store, ano, semana) == r.store)
  {
    var r := AdicionarAvulsa(s, actor, ano, semana, descricao, responsavel);
    if r.reply == Done {
      var n := |s.escala|;
      assert r.store.escala[..n] == s.escala;
      assert !IsRecorrente(r.store.escala[n]);
      assert IsWeekRow(r.store.escala[n], ano, semana);
    }
  }

  /** An edit changes neither which weeks have rows nor how many rows are
      recurring, and repeating the same edit changes nothing more. */
  lemma EditTarefaSemanalKeepsRotation(s: Store, actor: User, id: nat, descricao: string,
                                       responsavel: string, ano: int, semana: int)
    ensures var r := EditTarefaSemanal(s, actor, id, descricao, responsavel);
            && Count(r.store.escala, IsRecorrente) == Count(s.escala, IsRecorrente)
            && (HasWeek(r.store.escala, ano, semana) <==> HasWeek(s.escala, ano, semana))
            && EditTarefaSemanal(r.store, actor, id, descricao, responsavel) == r
  {
    var r := EditTarefaSemanal(s, actor, id, descricao, responsavel);
    if r.reply == Done {
      var k := IndexOfId(EscalaIds(s.escala), id).value;
      var e := s.escala[k].(tarefa := Text.Strip(descricao), responsavel := responsavel);
      CountUpdate(s.escala, k, e, IsRecorrente);
      assert EscalaIds(r.store.escala) == EscalaIds(s.escala);
      assert r.store.escala[k := r.store.escala[k].(tarefa := Text.Strip(descricao), responsavel := responsavel)]
             == r.store.escala;
      if HasWeek(s.escala, ano, semana) {
        var i :| 0 <= i < |s.escala| && IsWeekRow(s.escala[i], ano, semana);
        assert IsWeekRow(r.store.escala[i], ano, semana);
      }
      if HasWeek(r.store.escala, ano, semana) {
        var i :| 0 <= i < |r.store.escala| && IsWeekRow(r.store.escala[i], ano, semana);
        assert IsWeekRow(s.escala[i], ano, semana);
      }
    }
  }

  /** Only extra rows can be deleted: a recurring row is refused and every
      recurring row survives. */
  function DeletarTarefaSemanal(s: Store, actor: User, id: nat): (r: Step)
    ensures r.store == s.(escala := r.store.escala)
    ensures r.reply != Done ==> r.store == s
    ensures !IsGerenciador(actor) ==> r.reply == Forbidden
    ensures r.reply == Done ==>
              && IsGerenciador(actor)
              && |r.store.escala| == |s.escala| - 1
              && IndexOfId(EscalaIds(s.escala), id).Some?
              && var k := IndexOfId(EscalaIds(s.escala), id).value;
                 && s.escala[k].id == id && s.escala[k].tipo != RECORRENTE
                 && r.store.escala == RemoveAt(s.escala, k)
    ensures forall i :: 0 <= i < |s.escala| && s.escala[i].tipo == RECORRENTE ==> s.escala[i] in r.store.escala
    ensures IsGerenciador(actor) ==>
              match IndexOfId(EscalaIds(s.escala), id)
              case None => r.reply == NotFound
              case Some(k) => (r.reply == Done <==> s.escala[k].tipo != RECORRENTE)
  {
    if !IsGerenciador(actor) then Step(s, Forbidden)
    else match IndexOfId(EscalaIds(s.escala), id)
      case None => Step(s, NotFound)
      case Some(k) =>
        if s.escala[k].tipo == RECORRENTE then Step(s, Refused(RecurringRow))
        else
          var r := RemoveAt(s.escala, k);
          assert forall i :: 0 <= i < |s.escala| && i != k ==> s.escala[i] in r by {
            forall i | 0 <= i < |s.escala| && i != k
              ensures s.escala[i] in r
            {
              if i < k { assert r[i] == s.escala[i]; } else { assert r[i - 1] == s.escala[i]; }
            }
          }
          Step(s.(escala := r), Done)
  }

  /** Marking a row done: allowed to its assignee and to managers, and then
      only that row's status changes, to 'feita'. */
  function Fazer(s: Store, actor: User, id: nat): (r: Step)
    ensures r.store == s.(escala := r.store.escala)
    ensures r.reply != Done ==> r.store == s
    ensures match IndexOfId(EscalaIds(s.escala), id)
      case None => r.reply == NotFound
      case Some(k) =>
        && (r.reply == Done <==> actor.username == s.escala[k].responsavel || IsGerenciador(actor))
        && (r.reply == Done ==> r.store.escala == s.escala[k := s.escala[k].(status := FEITA)])
  {
    match IndexOfId(EscalaIds(s.escala), id)
    case None => Step(s, NotFound)
    case Some(k) =>
      if actor.username == s.escala[k].responsavel || IsGerenciador(actor) then
        Step(s.(escala := s.escala[k := s.escala[k].(status := FEITA)]), Done)
      else Step(s, Refused(NotAssignee))
  }

  /** Marking a row done is idempotent: doing it again changes nothing and
      gives the same answer. */
  lemma FazerIdempotent(s: Store, actor: User, id: nat)
    ensures var r := Fazer(s, actor, id);
            Fazer(r.store, actor, id) == r
  {
    var r := Fazer(s, actor, id);
    if r.reply == Done {
      var k := IndexOfId(EscalaIds(s.escala), id).value;
      assert EscalaIds(r.store.escala) == EscalaIds(s.escala);
      assert r.store.escala[k := r.store.escala[k].(status := FEITA)] == r.store.escala;
    }
  }

  // Arithmetic facts about `%` and `/` with a positive divisor.

  lemma MulBounds(n: int, d: int)
    requires n > 0
    ensures d >= 1 ==> n * d >= n
    ensures d <= -1 ==> n * d <= -n
  {
  }

  /** Euclidean division is unique: `n * q + r` with `0 <= r < n` has quotient `q` and remainder `r`. */
  lemma DivModUnique(a: int, n: int, q: int, r: int)
    requires n > 0 && 0 <= r < n && a == n * q + r
    ensures a / n == q && a % n == r
  {
    var q', r' := a / n, a % n;
    assert a == n * q' + r';
    var d := q - q';
    assert n * d == n * q - n * q';
    MulBounds(n, d);
  }

  lemma ModSmall(a: int, n: int)
    requires 0 <= a < n
    ensures a % n == a
  {
    DivModUnique(a, n, 0, a);
  }

  lemma ModMinus(a: int, n: int)
    requires 0 < n <= a
    ensures (a - n) % n == a % n
  {
    assert a == n * (a / n) + a % n;
    assert a - n == n * (a / n - 1) + a % n;
    DivModUnique(a - n, n, a / n - 1, a % n);
  }

  lemma ModOfMultiple(a: int, n: int, q: int)
    requires n > 0 && a == n * q
    ensures a % n == 0
  {
    DivModUnique(a, n, q, 0);
  }

  lemma MulDivBound(a: nat, n: int)
    requires n > 0
    ensures a < n * (a / n + 1)
  {
    assert a == n * (a / n) + a % n;
    assert n * (a / n + 1) == n * (a / n) + n;
  }
}

=== FILE: fechamento.dfy ===
/**
 Closing a month: the active fixed expenses are split into rent, petty-cash
 and other household costs, the household costs are shared equally among
 the residents, and each resident gets a balance of what they paid against
 what they owe. Reopening undoes a closing; settling toggles a balance's
 payment status.
 */
module Fechamento {
  import opened Common
  import opened Models
  import Text
  import Caixinha
  import Lancamentos

  /** Rent bucket: active rows named exactly 'Aluguel' bound to a resident. */
  predicate IsAluguelDoMes(f: DespesaFixa)
  {
    f.ativa && f.descricao == CHAVE_ALUGUEL && f.moradorId.Some?
  }

  /** Petty-cash bucket: active rows named exactly 'Caixinha' bound to nobody. */
  predicate IsCaixinhaDoMes(f: DespesaFixa)
  {
    f.ativa && f.descricao == CHAVE_CAIXINHA && f.moradorId.None?
  }

  /** Other household costs: active rows bound to nobody and named neither key. */
  predicate IsOutraDespesa(f: DespesaFixa)
  {
    f.ativa && f.descricao != CHAVE_ALUGUEL && f.descricao != CHAVE_CAIXINHA && f.moradorId.None?
  }

  /** Active rows that no bucket counts: the master rent row, and rows bound
      to a resident under any name but 'Aluguel'. */
  predicate IsForaDosBaldes(f: DespesaFixa)
  {
    f.ativa && (if f.moradorId.None? then f.descricao == CHAVE_ALUGUEL else f.descricao != CHAVE_ALUGUEL)
  }

  predicate IsAtiva(f: DespesaFixa) { f.ativa }

  /** Every active row lies in exactly one of the three buckets or in none
      of them, so the buckets never count a row twice and together with the
      uncounted rows they make up the whole active total. */
  lemma {:induction false} BucketsPartition(fixas: seq<DespesaFixa>)
    ensures forall i :: 0 <= i < |fixas| && fixas[i].ativa ==>
              (if IsAluguelDoMes(fixas[i]) then 1 else 0) + (if IsCaixinhaDoMes(fixas[i]) then 1 else 0)
              + (if IsOutraDespesa(fixas[i]) then 1 else 0) + (if IsForaDosBaldes(fixas[i]) then 1 else 0) == 1
    ensures forall i :: 0 <= i < |fixas| && !fixas[i].ativa ==>
              !IsAluguelDoMes(fixas[i]) && !IsCaixinhaDoMes(fixas[i]) && !IsOutraDespesa(fixas[i])
    ensures SumWhere(fixas, IsAtiva, FixaValor)
            == SumWhere(fixas, IsAluguelDoMes, FixaValor) + SumWhere(fixas, IsCaixinhaDoMes, FixaValor)
               + SumWhere(fixas, IsOutraDespesa, FixaValor) + SumWhere(fixas, IsForaDosBaldes, FixaValor)
  {
    if |fixas| > 0 {
      BucketsPartition(fixas[..|fixas| - 1]);
    }
  }

  /** The four totals of a closing. */
  datatype Totais = Totais(aluguel: Cents, caixinha: Cents, fixoOutros: Cents, variavel: Cents)

  function TotaisDoMes(s: Store, mes: int, ano: int): Totais
  {
    Totais(SumWhere(s.fixas, IsAluguelDoMes, FixaValor), SumWhere(s.fixas, IsCaixinhaDoMes, FixaValor),
           SumWhere(s.fixas, IsOutraDespesa, FixaValor), Lancamentos.TotalDoMes(s.lancamentos, mes, ano))
  }

  /** What the residents share equally: other costs, every entry of the month, and the petty cash. */
  function TotalOutras(t: Totais): Cents
  {
    t.fixoOutros + t.variavel + t.caixinha
  }

  /** A resident's own active rent row. */
  predicate IsAluguelAtivoDe(f: DespesaFixa, uid: nat)
  {
    f.descricao == CHAVE_ALUGUEL && f.moradorId == Some(uid) && f.ativa
  }

  /** The value of a resident's first active rent row, if any. */
  function AluguelDe(fixas: seq<DespesaFixa>, uid: nat): (r: Option<Cents>)
    ensures r.None? <==> forall i :: 0 <= i < |fixas| ==> !IsAluguelAtivoDe(fixas[i], uid)
    ensures r.Some? ==> exists i :: 0 <= i < |fixas| && IsAluguelAtivoDe(fixas[i], uid) && fixas[i].valor == r.value
                                    && forall j :: 0 <= j < i ==> !IsAluguelAtivoDe(fixas[j], uid)
  {
    match FirstWhere(fixas, (f: DespesaFixa) => IsAluguelAtivoDe(f, uid))
    case None => None
    case Some(k) => Some(fixas[k].valor)
  }

  predicate SemAluguel(fixas: seq<DespesaFixa>, u: User)
  {
    AluguelDe(fixas, u.id).None?
  }

  /** Each resident's equal share of the household costs. */
  function Cota(total: Cents, n: nat): (c: real)
    requires n > 0
    ensures n as real * c == total as real
  {
    total as real / n as real
  }

  /** One resident's balance: owed = own rent + share, final = paid - owed. */
  function Balanco(id: nat, fid: nat, u: User, gasto: Cents, aluguel: Cents, cota: real): (b: SaldoMensal)
    ensures BalanceIdentity(b)
    ensures b.valorDevido == b.valorDevidoAluguel as real + b.valorDevidoOutros
    ensures b.saldoFinal == gasto as real - aluguel as real - cota
    ensures b.id == id && b.fechamentoId == fid && b.userId == u.id && b.totalGasto == gasto
    ensures b.valorDevidoAluguel == aluguel && b.valorDevidoOutros == cota && b.valorDevidoPessoais == 0
    ensures b.statusPagamento == PENDENTE
  {
    var devido := aluguel as real + cota;
    SaldoMensal(id, fid, u.id, gasto, devido, aluguel, cota, 0, gasto as real - devido, PENDENTE)
  }

  /** The balances of one closing, one per resident in table order. */
  function Balancos(s: Store, ms: seq<User>, mes: int, ano: int, cota: real, firstId: nat, fid: nat): (r: seq<SaldoMensal>)
    requires forall i :: 0 <= i < |ms| ==> AluguelDe(s.fixas, ms[i].id).Some?
    ensures |r| == |ms|
    ensures forall i :: 0 <= i < |ms| ==> r[i].id == firstId + i && ClosingBalance(r[i], s, ms[i], mes, ano, cota, fid)
    ensures forall i :: 0 <= i < |r| ==> r[i].fechamentoId == fid
  {
    seq(|ms|, i requires 0 <= i < |ms| =>
      Balanco(firstId + i, fid, ms[i], Lancamentos.CreditadoA(s.lancamentos, mes, ano, ms[i].id),
              AluguelDe(s.fixas, ms[i].id).value, cota))
  }

  /** `f"Depósito do fechamento {mes}/{ano}"`. */
  function DescricaoDeposito(mes: int, ano: int): string
  {
    "Dep\U{F3}sito do fechamento " + Text.IntToString(mes) + "/" + Text.IntToString(ano)
  }

  function Deposito(id: nat, now: Clock, valor: Cents): CaixinhaMovimentacao
  {
    CaixinhaMovimentacao(id, now.instant, DescricaoDeposito(now.month, now.year), valor, None)
  }

  /** Every resident has an active rent row. */
  predicate TodosComAluguel(s: Store)
  {
    forall i :: 0 <= i < |Moradores(s.users)| ==> AluguelDe(s.fixas, Moradores(s.users)[i].id).Some?
  }

  /** What a closing that goes through stores: the closing row, the
      petty-cash deposit when the petty-cash total is positive, and the
      residents' balances. */
  function Fechar(s: Store, now: Clock): (r: Store)
    requires |Moradores(s.users)| > 0 && TodosComAluguel(s)
    ensures r == s.(fechamentos := r.fechamentos, caixinha := r.caixinha, saldos := r.saldos)
    ensures |r.fechamentos| == |s.fechamentos| + 1 && r.fechamentos[..|s.fechamentos|] == s.fechamentos
    ensures var f, t := r.fechamentos[|s.fechamentos|], TotaisDoMes(s, now.month, now.year);
            && IsClosingOf(f, now.month, now.year)
            && f.id !in FechamentoIds(s.fechamentos)
            && f.totalFixo == t.fixoOutros && f.totalVariavel == t.variavel
            && f.totalAluguelMes == t.aluguel && f.valorCaixinhaArrecadado == t.caixinha
    ensures var ms := Moradores(s.users);
            AppendsClosingBalances(s.saldos, r.saldos, s, ms, now.month, now.year,
                                   Cota(TotalOutras(TotaisDoMes(s, now.month, now.year)), |ms|),
                                   r.fechamentos[|s.fechamentos|].id)
    ensures var c := TotaisDoMes(s, now.month, now.year).caixinha;
            && |r.caixinha| == |s.caixinha| + (if c > 0 then 1 else 0)
            && r.caixinha[..|s.caixinha|] == s.caixinha
            && Caixinha.Saldo(r.caixinha) == Caixinha.Saldo(s.caixinha) + (if c > 0 then c else 0)
  {
    var ms := Moradores(s.users);
    var t := TotaisDoMes(s, now.month, now.year);
    var fid := NextId(FechamentoIds(s.fechamentos));
    var f := FechamentoMensal(fid, now.month, now.year, t.fixoOutros, t.variavel, t.aluguel, t.caixinha, FECHADO);
    var caixa := if t.caixinha > 0 then s.caixinha + [Deposito(NextId(MovimentoIds(s.caixinha)), now, t.caixinha)]
                 else s.caixinha;
    var bs := Balancos(s, ms, now.month, now.year, Cota(TotalOutras(t), |ms|), NextId(SaldoIds(s.saldos)), fid);
    AppendedBalances(s.saldos, s, ms, now.month, now.year, Cota(TotalOutras(t), |ms|), NextId(SaldoIds(s.saldos)), fid);
    DepositRaisesSaldo(s.caixinha, caixa, NextId(MovimentoIds(s.caixinha)), now, t.caixinha);
    s.(fechamentos := s.fechamentos + [f], caixinha := caixa, saldos := s.saldos + bs)
  }

  /** The petty-cash table after a closing's optional deposit. */
  lemma DepositRaisesSaldo(movs: seq<CaixinhaMovimentacao>, caixa: seq<CaixinhaMovimentacao>, id: nat, now: Clock, c: Cents)
    requires caixa == if c > 0 then movs + [Deposito(id, now, c)] else movs
    ensures |caixa| == |movs| + (if c > 0 then 1 else 0) && caixa[..|movs|] == movs
    ensures Caixinha.Saldo(caixa) == Caixinha.Saldo(movs) + (if c > 0 then c else 0)
  {
    if c > 0 {
      Caixinha.SaldoAppend(movs, Deposito(id, now, c));
    }
  }

  /** Closing the current month. Managers only; refused when the month is
      already closed or nobody shares costs; rolled back entirely when some
      resident has no active rent row. Otherwise the closing, the petty-cash
      deposit and one balance per resident are stored together. */
  function FecharMes(s: Store, actor: User, now: Clock): (r: Step)
    ensures r.reply != Done ==> r.store == s
    ensures !IsGerenciador(actor) ==> r.reply == Forbidden
    ensures IsGerenciador(actor) && MonthIsClosed(s, now.month, now.year) ==> r.reply == Refused(AlreadyClosed)
    ensures IsGerenciador(actor) && !MonthIsClosed(s, now.month, now.year) && |Moradores(s.users)| == 0 ==>
              r.reply == Refused(NoResidents)
    ensures r.reply == Done <==>
              IsGerenciador(actor) && !MonthIsClosed(s, now.month, now.year) && |Moradores(s.users)| > 0
              && TodosComAluguel(s)
    ensures r.reply.Refused? && r.reply.why.MissingRent? ==>
              exists i :: 0 <= i < |Moradores(s.users)| && Moradores(s.users)[i].id == r.reply.why.userId
                          && SemAluguel(s.fixas, Moradores(s.users)[i])
    ensures r.reply == Done ==> r.store == Fechar(s, now)
  {
    var ms := Moradores(s.users);
    if !IsGerenciador(actor) then Step(s, Forbidden)
    else if MonthIsClosed(s, now.month, now.year) then Step(s, Refused(AlreadyClosed))
    else if |ms| == 0 then Step(s, Refused(NoResidents))
    else match FirstWhere(ms, (u: User) => SemAluguel(s.fixas, u))
      case Some(k) => Step(s, Refused(MissingRent(ms[k].id)))
      case None => Step(Fechar(s, now), Done)
  }

  /** After a successful closing the month counts as closed, so closing it
      again is refused and changes nothing. */
  lemma FecharTwiceRefused(s: Store, actor: User, now: Clock)
    ensures var r := FecharMes(s, actor, now);
            r.reply == Done ==>
              && MonthIsClosed(r.store, now.month, now.year)
              && FecharMes(r.store, actor, now) == Step(r.store, Refused(AlreadyClosed))
  {
    var r := FecharMes(s, actor, now);
    if r.reply == Done {
      var k := |s.fechamentos|;
      assert IsClosingOf(r.store.fechamentos[k], now.month, now.year);
      assert Moradores(r.store.users) == Moradores(s.users);
    }
  }

  /** The balances a successful closing stores: one per resident, in table
      order, each bound to the new closing, pending, with the resident's own
      rent and paid entries, an equal share of the household costs, and the
      balance identity. */
  lemma FecharMesBalances(s: Store, actor: User, now: Clock)
    ensures var r := FecharMes(s, actor, now);
            var ms := Moradores(s.users);
            r.reply == Done ==>
              AppendsClosingBalances(s.saldos, r.store.saldos, s, ms, now.month, now.year,
                                     Cota(TotalOutras(TotaisDoMes(s, now.month, now.year)), |ms|),
                                     r.store.fechamentos[|s.fechamentos|].id)
  {
  }

  /** `all` is `olds` followed by one balance of closing `fid` per resident
      of `ms`, in order. */
  predicate AppendsClosingBalances(olds: seq<SaldoMensal>, all: seq<SaldoMensal>, s: Store, ms: seq<User>,
                                   mes: int, ano: int, cota: real, fid: nat)
  {
    && |all| == |olds| + |ms|
    && all[..|olds|] == olds
    && forall i :: 0 <= i < |ms| ==> ClosingBalance(all[|olds| + i], s, ms[i], mes, ano, cota, fid)
  }

  /** Balance `b`, stored by closing `fid` for resident `u`, is pending and
      holds the resident's paid entries of the month, their rent, the share
      `cota` of the household costs, and the balance identity. */
  predicate ClosingBalance(b: SaldoMensal, s: Store, u: User, mes: int, ano: int, cota: real, fid: nat)
  {
    && b.userId == u.id && b.fechamentoId == fid && b.statusPagamento == PENDENTE
    && BalanceIdentity(b)
    && b.totalGasto == Lancamentos.CreditadoA(s.lancamentos, mes, ano, u.id)
    && AluguelDe(s.fixas, u.id) == Some(b.valorDevidoAluguel)
    && b.valorDevidoOutros == cota
    && b.valorDevido == b.valorDevidoAluguel as real + b.valorDevidoOutros
  }

  /** Old balances followed by those of a closing: the old ones stay in
      front and the `i`-th new one holds resident `i`'s figures. */
  lemma AppendedBalances(olds: seq<SaldoMensal>, s: Store, ms: seq<User>, mes: int, ano: int,
                         cota: real, firstId: nat, fid: nat)
    requires forall j :: 0 <= j < |ms| ==> AluguelDe(s.fixas, ms[j].id).Some?
    ensures AppendsClosingBalances(olds, olds + Balancos(s, ms, mes, ano, cota, firstId, fid), s, ms, mes, ano, cota, fid)
  {
    var bs := Balancos(s, ms, mes, ano, cota, firstId, fid);
    var all := olds + bs;
    forall i | 0 <= i < |ms|
      ensures ClosingBalance(all[|olds| + i], s, ms[i], mes, ano, cota, fid)
    {
      assert all[|olds| + i] == bs[i];
      BalancoRow(s, ms, mes, ano, cota, firstId, fid, i);
    }
  }

  /** What the `i`-th balance of a closing holds. */
  lemma BalancoRow(s: Store, ms: seq<User>, mes: int, ano: int, cota: real, firstId: nat, fid: nat, i: nat)
    requires forall j :: 0 <= j < |ms| ==> AluguelDe(s.fixas, ms[j].id).Some?
    requires i < |ms|
    ensures ClosingBalance(Balancos(s, ms, mes, ano, cota, firstId, fid)[i], s, ms[i], mes, ano, cota, fid)
  {
  }

  /** The petty-cash deposit of a closing: exactly one movement, credited to
      nobody, worth the petty-cash total, exactly when that total is positive;
      the balance grows by it. */
  lemma FecharMesDeposit(s: Store, actor: User, now: Clock)
    ensures var r := FecharMes(s, actor, now);
            var c := TotaisDoMes(s, now.month, now.year).caixinha;
            r.reply == Done ==>
              && r.store.caixinha[..|s.caixinha|] == s.caixinha
              && (c > 0 ==> |r.store.caixinha| == |s.caixinha| + 1
                            && r.store.caixinha[|s.caixinha|].valor == c
                            && r.store.caixinha[|s.caixinha|].userId.None?
                            && r.store.caixinha[|s.caixinha|].descricao == DescricaoDeposito(now.month, now.year))
              && (c <= 0 ==> |r.store.caixinha| == |s.caixinha|)
              && Caixinha.Saldo(r.store.caixinha) == Caixinha.Saldo(s.caixinha) + (if c > 0 then c else 0)
  {
    var r := FecharMes(s, actor, now);
    var c := TotaisDoMes(s, now.month, now.year).caixinha;
    if r.reply == Done {
      if c > 0 {
        var d := Deposito(NextId(MovimentoIds(s.caixinha)), now, c);
        assert r.store.caixinha == s.caixinha + [d];
        Caixinha.SaldoAppend(s.caixinha, d);
      } else {
        assert r.store.caixinha == s.caixinha;
      }
    }
  }

  function SomaSaldoFinal(bs: seq<SaldoMensal>): real
  {
    if |bs| == 0 then 0.0 else SomaSaldoFinal(bs[..|bs| - 1]) + bs[|bs| - 1].saldoFinal
  }

  function SomaGasto(bs: seq<SaldoMensal>): int
  {
    if |bs| == 0 then 0 else SomaGasto(bs[..|bs| - 1]) + bs[|bs| - 1].totalGasto
  }

  function SomaAluguel(bs: seq<SaldoMensal>): int
  {
    if |bs| == 0 then 0 else SomaAluguel(bs[..|bs| - 1]) + bs[|bs| - 1].valorDevidoAluguel
  }

  function SomaOutros(bs: seq<SaldoMensal>): real
  {
    if |bs| == 0 then 0.0 else SomaOutros(bs[..|bs| - 1]) + bs[|bs| - 1].valorDevidoOutros
  }

  /** Balances built with the identity add up: the final balances total what
      was paid minus the rent and the shares owed. */
  lemma {:induction false} SomaBalancos(bs: seq<SaldoMensal>)
    requires forall i :: 0 <= i < |bs| ==>
               bs[i].saldoFinal == bs[i].totalGasto as real - bs[i].valorDevidoAluguel as real - bs[i].valorDevidoOutros
    ensures SomaSaldoFinal(bs) == SomaGasto(bs) as real - SomaAluguel(bs) as real - SomaOutros(bs)
  {
    if |bs| > 0 {
      SomaBalancos(bs[..|bs| - 1]);
    }
  }

  /** `n` equal shares of `c` total `n * c`. */
  lemma {:induction false} SomaOutrosUniform(bs: seq<SaldoMensal>, c: real)
    requires forall i :: 0 <= i < |bs| ==> bs[i].valorDevidoOutros == c
    ensures SomaOutros(bs) == |bs| as real * c
  {
    if |bs| > 0 {
      SomaOutrosUniform(bs[..|bs| - 1], c);
    }
  }

  /** `n` shares of `Cota(total, n)` make `total` back. */
  lemma SharesAddUp(bs: seq<SaldoMensal>, total: Cents, n: nat)
    requires n > 0 && |bs| == n
    requires forall i :: 0 <= i < |bs| ==> bs[i].valorDevidoOutros == Cota(total, n)
    ensures SomaOutros(bs) == total as real
  {
    SomaOutrosUniform(bs, Cota(total, n));
  }

  /** The shares of a closing add up to exactly the household costs, and so
      the residents' final balances add up to what they paid minus their rent
      minus those costs: nothing is lost or created by the split. */
  lemma FecharMesConserves(s: Store, actor: User, now: Clock)
    ensures var r := FecharMes(s, actor, now);
            var bs := r.store.saldos[|s.saldos|..];
            r.reply == Done ==>
              && SomaOutros(bs) == TotalOutras(TotaisDoMes(s, now.month, now.year)) as real
              && SomaSaldoFinal(bs)
                 == SomaGasto(bs) as real - SomaAluguel(bs) as real
                    - TotalOutras(TotaisDoMes(s, now.month, now.year)) as real
  {
    var r := FecharMes(s, actor, now);
    if r.reply == Done {
      var ms := Moradores(s.users);
      var total := TotalOutras(TotaisDoMes(s, now.month, now.year));
      FecharMesBalances(s, actor, now);
      var bs := r.store.saldos[|s.saldos|..];
      forall i | 0 <= i < |bs|
        ensures BalanceIdentity(bs[i]) && bs[i].valorDevidoOutros == Cota(total, |bs|)
        ensures bs[i].valorDevido == bs[i].valorDevidoAluguel as real + bs[i].valorDevidoOutros
      {
        assert bs[i] == r.store.saldos[|s.saldos| + i];
      }
      SharedBalancesConserve(bs, total);
    }
  }

  /** Balances that keep the identity and each owe an equal share of `total`
      add up: the shares make `total`, and the final balances what was paid
      minus the rent and `total`. */
  lemma SharedBalancesConserve(bs: seq<SaldoMensal>, total: Cents)
    requires |bs| > 0
    requires forall i :: 0 <= i < |bs| ==>
               && BalanceIdentity(bs[i]) && bs[i].valorDevidoOutros == Cota(total, |bs|)
               && bs[i].valorDevido == bs[i].valorDevidoAluguel as real + bs[i].valorDevidoOutros
    ensures SomaOutros(bs) == total as real
    ensures SomaSaldoFinal(bs) == SomaGasto(bs) as real - SomaAluguel(bs) as real - total as real
  {
    SharesAddUp(bs, total, |bs|);
    SomaBalancos(bs);
  }

  /** The automatic deposit of a closing, as reopening looks for it: a
      movement credited to nobody, worth the closing's petty-cash total,
      whose description starts (SQL `LIKE`) with the deposit text. */
  predicate IsDepositoDe(m: CaixinhaMovimentacao, f: FechamentoMensal)
  {
    Text.LikePrefix(m.descricao, DescricaoDeposito(f.mes, f.ano))
    && m.valor == f.valorCaixinhaArrecadado && m.userId.None?
  }

  /** The matching deposit with the largest id. */
  function DepositoMaisRecente(movs: seq<CaixinhaMovimentacao>, f: FechamentoMensal): (r: Option<nat>)
    ensures r.Some? ==> r.value < |movs| && IsDepositoDe(movs[r.value], f)
                        && forall j :: r.value < j < |movs| ==> !IsDepositoDe(movs[j], f)
    ensures r.None? <==> forall j :: 0 <= j < |movs| ==> !IsDepositoDe(movs[j], f)
  {
    LastWhere(movs, (m: CaixinhaMovimentacao) => IsDepositoDe(m, f))
  }

  /** Reopening a closing (managers only): the newest matching deposit is
      removed when the closing collected petty cash (with only a warning when
      none matches), then the closing and, by the cascade, its balances go. */
  function ReabrirMes(s: Store, actor: User, id: nat): (r: Step)
    ensures r.store == s.(fechamentos := r.store.fechamentos, caixinha := r.store.caixinha, saldos := r.store.saldos)
    ensures r.reply != Done ==> r.store == s
    ensures !IsGerenciador(actor) ==> r.reply == Forbidden
    ensures IsGerenciador(actor) ==>
              match IndexOfId(FechamentoIds(s.fechamentos), id)
              case None => r.reply == NotFound
              case Some(k) =>
                var f := s.fechamentos[k];
                && r.reply == Done
                && r.store.fechamentos == RemoveAt(s.fechamentos, k)
                && (forall i :: 0 <= i < |r.store.saldos| ==> r.store.saldos[i] in s.saldos && r.store.saldos[i].fechamentoId != id)
                && (forall i :: 0 <= i < |s.saldos| && s.saldos[i].fechamentoId != id ==> s.saldos[i] in r.store.saldos)
                && (if f.valorCaixinhaArrecadado > 0 && DepositoMaisRecente(s.caixinha, f).Some?
                    then r.store.caixinha == RemoveAt(s.caixinha, DepositoMaisRecente(s.caixinha, f).value)
                    else r.store.caixinha == s.caixinha)
  {
    if !IsGerenciador(actor) then Step(s, Forbidden)
    else match IndexOfId(FechamentoIds(s.fechamentos), id)
      case None => Step(s, NotFound)
      case Some(k) =>
        var f := s.fechamentos[k];
        assert f.id == id;
        var caixa := if f.valorCaixinhaArrecadado > 0 then
                       (match DepositoMaisRecente(s.caixinha, f)
                        case Some(j) => RemoveAt(s.caixinha, j)
                        case None => s.caixinha)
                     else s.caixinha;
        Step(DeleteClosing(s.(caixinha := caixa), k), Done)
  }

  /** Reopening removes at most one petty-cash movement, and only an
      automatic deposit credited to nobody. */
  lemma ReabrirRemovesAtMostOneDeposit(s: Store, actor: User, id: nat)
    ensures var r := ReabrirMes(s, actor, id);
            && |s.caixinha| - 1 <= |r.store.caixinha| <= |s.caixinha|
            && forall i :: 0 <= i < |s.caixinha| && s.caixinha[i].userId.Some? ==> s.caixinha[i] in r.store.caixinha
  {
    var r := ReabrirMes(s, actor, id);
    if |r.store.caixinha| < |s.caixinha| {
      var k := IndexOfId(FechamentoIds(s.fechamentos), id).value;
      var j := DepositoMaisRecente(s.caixinha, s.fechamentos[k]).value;
      forall i | 0 <= i < |s.caixinha| && s.caixinha[i].userId.Some?
        ensures s.caixinha[i] in r.store.caixinha
      {
        if i < j { assert r.store.caixinha[i] == s.caixinha[i]; }
        else { assert i != j; assert r.store.caixinha[i - 1] == s.caixinha[i]; }
      }
    }
  }

  /** Every balance row points at an existing closing (its foreign key). */
  predicate BalancesReferenceClosings(s: Store)
  {
    forall i :: 0 <= i < |s.saldos| ==> s.saldos[i].fechamentoId in FechamentoIds(s.fechamentos)
  }

  /** Dropping the rows of a closing from old rows that never belonged to
      it followed by rows that all do leaves exactly the old rows. */
  lemma SaldosForaDropsNew(antigos: seq<SaldoMensal>, novos: seq<SaldoMensal>, fid: nat)
    requires forall i :: 0 <= i < |antigos| ==> antigos[i].fechamentoId != fid
    requires forall i :: 0 <= i < |novos| ==> novos[i].fechamentoId == fid
    ensures SaldosFora(antigos + novos, fid) == antigos
  {
    var keep := (b: SaldoMensal) => b.fechamentoId != fid;
    FilterConcat(antigos, novos, keep);
    FilterAll(antigos, keep);
    FilterAll(novos, keep);
  }

  /** A closing appended with a fresh id is the one its id finds. */
  lemma NewClosingFound(fs: seq<FechamentoMensal>, f: FechamentoMensal)
    requires f.id == NextId(FechamentoIds(fs))
    ensures IndexOfId(FechamentoIds(fs + [f]), f.id) == Some(|fs|)
    ensures RemoveAt(fs + [f], |fs|) == fs
  {
    var ids := FechamentoIds(fs + [f]);
    assert forall j :: 0 <= j < |fs| ==> ids[j] == FechamentoIds(fs)[j];
    assert ids[|fs|] == f.id;
  }

  /** The deposit a closing appends is the one reopening that closing finds. */
  lemma NewDepositFound(movs: seq<CaixinhaMovimentacao>, id: nat, now: Clock, f: FechamentoMensal)
    requires f.mes == now.month && f.ano == now.year && f.valorCaixinhaArrecadado > 0
    ensures DepositoMaisRecente(movs + [Deposito(id, now, f.valorCaixinhaArrecadado)], f) == Some(|movs|)
    ensures RemoveAt(movs + [Deposito(id, now, f.valorCaixinhaArrecadado)], |movs|) == movs
  {
    var d := Deposito(id, now, f.valorCaixinhaArrecadado);
    assert Text.Lower(DescricaoDeposito(f.mes, f.ano)) <= Text.Lower(d.descricao);
    assert IsDepositoDe(d, f);
  }

  /** Balances that reference existing closings never reference a fresh id. */
  lemma OldBalancesElsewhere(s: Store)
    requires BalancesReferenceClosings(s)
    ensures forall i :: 0 <= i < |s.saldos| ==> s.saldos[i].fechamentoId != NextId(FechamentoIds(s.fechamentos))
  {
    forall i | 0 <= i < |s.saldos|
      ensures s.saldos[i].fechamentoId != NextId(FechamentoIds(s.fechamentos))
    {
      var x := s.saldos[i].fechamentoId;
      var j :| 0 <= j < |s.fechamentos| && FechamentoIds(s.fechamentos)[j] == x;
    }
  }

  /** Reopening the closing just made restores the store exactly: the
      closing, its balances and its deposit all go, and nothing else. */
  lemma ReabrirUndoesFechar(s: Store, actor: User, now: Clock)
    requires BalancesReferenceClosings(s)
    ensures var r := FecharMes(s, actor, now);
            r.reply == Done ==>
              ReabrirMes(r.store, actor, r.store.fechamentos[|s.fechamentos|].id).store == s
  {
    if FecharMes(s, actor, now).reply == Done {
      UndoFechar(s, actor, now);
    }
  }

  /** The store a closing produces, reopened at the new closing, is the store
      before it. */
  lemma UndoFechar(s: Store, actor: User, now: Clock)
    requires IsGerenciador(actor) && |Moradores(s.users)| > 0 && TodosComAluguel(s)
    requires BalancesReferenceClosings(s)
    ensures var s1 := Fechar(s, now);
            ReabrirMes(s1, actor, s1.fechamentos[|s.fechamentos|].id).store == s
  {
    var s1 := Fechar(s, now);
    var n := |s.fechamentos|;
    var t := TotaisDoMes(s, now.month, now.year);
    var fid := NextId(FechamentoIds(s.fechamentos));
    var f := FechamentoMensal(fid, now.month, now.year, t.fixoOutros, t.variavel, t.aluguel, t.caixinha, FECHADO);
    assert s1.fechamentos == s.fechamentos + [f];
    NewClosingFound(s.fechamentos, f);
    var caixa := if t.caixinha > 0 then
                   (match DepositoMaisRecente(s1.caixinha, f)
                    case Some(j) => RemoveAt(s1.caixinha, j)
                    case None => s1.caixinha)
                 else s1.caixinha;
    assert caixa == s.caixinha by {
      if t.caixinha > 0 {
        NewDepositFound(s.caixinha, NextId(MovimentoIds(s.caixinha)), now, f);
      }
    }
    assert SaldosFora(s1.saldos, fid) == s.saldos by {
      var ms := Moradores(s.users);
      var bs := Balancos(s, ms, now.month, now.year, Cota(TotalOutras(t), |ms|), NextId(SaldoIds(s.saldos)), fid);
      assert s1.saldos == s.saldos + bs;
      OldBalancesElsewhere(s);
      SaldosForaDropsNew(s.saldos, bs, fid);
    }
    var d := DeleteClosing(s1.(caixinha := caixa), n);
    assert d == s by {
      assert d.fechamentos == s.fechamentos && d.saldos == s.saldos && d.caixinha == s.caixinha;
    }
    assert ReabrirMes(s1, actor, fid).store == d;
  }

  /** Settling a balance (managers only) toggles its payment status:
      'pendente' becomes 'quitado' and any other status 'pendente'. Nothing
      else changes. */
  function QuitarSaldo(s: Store, actor: User, id: nat): (r: Step)
    ensures r.store == s.(saldos := r.store.saldos)
    ensures r.reply != Done ==> r.store == s
    ensures !IsGerenciador(actor) ==> r.reply == Forbidden
    ensures IsGerenciador(actor) ==>
              match IndexOfId(SaldoIds(s.saldos), id)
              case None => r.reply == NotFound
              case Some(k) =>
                var b := s.saldos[k];
                && r.reply == Done
                && |r.store.saldos| == |s.saldos|
                && (forall i :: 0 <= i < |s.saldos| && i != k ==> r.store.saldos[i] == s.saldos[i])
                && r.store.saldos[k] == b.(statusPagamento := r.store.saldos[k].statusPagamento)
                && (b.statusPagamento == PENDENTE <==> r.store.saldos[k].statusPagamento == QUITADO)
                && (b.statusPagamento != PENDENTE <==> r.store.saldos[k].statusPagamento == PENDENTE)
  {
    if !IsGerenciador(actor) then Step(s, Forbidden)
    else match IndexOfId(SaldoIds(s.saldos), id)
      case None => Step(s, NotFound)
      case Some(k) =>
        var b := s.saldos[k];
        var novo := if b.statusPagamento == PENDENTE then QUITADO else PENDENTE;
        Step(s.(saldos := s.saldos[k := b.(statusPagamento := novo)]), Done)
  }

  /** Settling twice restores a balance that was pending or settled. */
  lemma QuitarTwice(s: Store, actor: User, id: nat)
    requires forall i :: 0 <= i < |s.saldos| ==> s.saldos[i].statusPagamento in {PENDENTE, QUITADO}
    ensures QuitarSaldo(QuitarSaldo(s, actor, id).store, actor, id).store == s
  {
    var r := QuitarSaldo(s, actor, id);
    if r.reply == Done {
      assert SaldoIds(r.store.saldos) == SaldoIds(s.saldos);
      var k := IndexOfId(SaldoIds(s.saldos), id).value;
      assert r.store.saldos[k].statusPagamento != s.saldos[k].statusPagamento;
    }
  }
}

=== FILE: lancamentos.dfy ===
/**
 Variable expenses: adding one (split into monthly installments), editing
 and deleting one. Who is credited as payer depends on the role; nothing
 referenced to a closed month can be edited or deleted.
 */
module Lancamentos {
  import opened Common
  import opened Models
  import Text

  /** The payer field of the form: the household, or a user id as typed. */
  datatype Pagador = Casa | Escolhido(id: Input)

  /** The credited payer, or a refused choice. */
  datatype PayerChoice = InvalidChoice | PayerIs(userId: Option<nat>)

  /** A manager may credit the household or an existing non-admin user; any
      other user is always credited with their own expense. */
  function ResolvePayer(users: seq<User>, actor: User, pagador: Pagador): (r: PayerChoice)
    ensures !IsGerenciador(actor) ==> r == PayerIs(Some(actor.id))
    ensures IsGerenciador(actor) && pagador.Casa? ==> r == PayerIs(None)
    ensures IsGerenciador(actor) && pagador.Escolhido? ==>
              (r.PayerIs? <==>
                 && pagador.id.Given? && pagador.id.n >= 0
                 && exists k :: 0 <= k < |users| && users[k].id == pagador.id.n && !IsAdmin(users[k])
                                && forall j :: 0 <= j < k ==> users[j].id != pagador.id.n)
    ensures IsGerenciador(actor) && r.PayerIs? && r.userId.Some? ==>
              exists k :: 0 <= k < |users| && users[k].id == r.userId.value && !IsAdmin(users[k])
  {
    if !IsGerenciador(actor) then PayerIs(Some(actor.id))
    else match pagador
      case Casa => PayerIs(None)
      case Escolhido(Given(n)) =>
        if n < 0 then InvalidChoice
        else
          assert forall j :: 0 <= j < |users| ==> users[j].id == UserIds(users)[j];
          (match IndexOfId(UserIds(users), n)
           case None => InvalidChoice
           case Some(k) =>
             assert forall j :: 0 <= j < k ==> users[j].id == UserIds(users)[j];
             if IsAdmin(users[k]) then
               assert forall k' :: 0 <= k' < |users| && users[k'].id == n && (forall j :: 0 <= j < k' ==> users[j].id != n) ==> k' == k;
               InvalidChoice
             else PayerIs(Some(n)))
      case Escolhido(_) => InvalidChoice
  }

  /** `relativedelta(months=i)` on the month and year: `i` months later. */
  function AddMonths(mes: Month, ano: int, i: nat): (r: (Month, int))
    ensures 12 * r.1 + r.0 == 12 * ano + mes + i
  {
    var z := mes - 1 + i;
    (z % 12 + 1, ano + z / 12)
  }

  /** The installments exactly as the handler computes them: the total over
      `n` rounded to the cent, repeated, with the last one absorbing what the
      rounding left over. */
  function SplitAsWritten(total: Cents, n: nat): (r: seq<Cents>)
    requires n >= 1
    ensures |r| == n
    ensures Sum(r) == total
    ensures forall i :: 0 <= i < n - 1 ==> r[i] == RoundHalfUp(total as real / n as real)
  {
    var base := RoundHalfUp(total as real / n as real);
    var r := seq(n, i requires 0 <= i < n => if i == n - 1 then base + (total - base * n) else base);
    SumConstant(r[..n - 1], base);
    r
  }

  /** R$0.06 in ten installments: nine of R$0.01 and a last one of -R$0.03. */
  lemma SplitAsWrittenGoesNegative()
    ensures var r := SplitAsWritten(6, 10);
            r[9] == -3 && forall i :: 0 <= i < 9 ==> r[i] == 1
  {
    assert RoundHalfUp(6 as real / 10 as real) == 1;
  }

  /** The installments with the base rounded down: the first `n - 1` equal
      the base, the last adds the remainder, none is negative for a positive
      total, and together they make the total. */
  function SplitInstallments(total: Cents, n: nat): (r: seq<Cents>)
    requires n >= 1
    ensures |r| == n
    ensures Sum(r) == total
    ensures forall i :: 0 <= i < n - 1 ==> r[i] == total / n
    ensures 0 <= r[n - 1] - r[0] < n
    ensures total >= 0 ==> forall i :: 0 <= i < n ==> r[i] >= 0
  {
    var base := total / n;
    var r := seq(n, i requires 0 <= i < n => if i == n - 1 then base + total % n else base);
    SumConstant(r[..n - 1], base);
    SplitArithmetic(total, n);
    r
  }

  /** `n - 1` floor shares and the last one with the remainder make the total. */
  lemma SplitArithmetic(total: int, n: nat)
    requires n >= 1
    ensures (n - 1) * (total / n) + (total / n + total % n) == total
    ensures 0 <= total % n < n
    ensures total >= 0 ==> total / n >= 0
  {
    assert (n - 1) * (total / n) + total / n == n * (total / n);
  }

  /** `int(num_parcelas)`, a blank field meaning 1, and anything below 1 raised to 1. */
  function NumParcelas(parcelas: Input): (n: nat)
    ensures n >= 1
    ensures parcelas.Given? && parcelas.n >= 1 ==> n == parcelas.n
    ensures !parcelas.Given? || parcelas.n < 1 ==> n == 1
  {
    if parcelas.Given? && parcelas.n >= 1 then parcelas.n else 1
  }

  /** `"{descricao} ({k}/{n})"` for a split purchase; the bare description otherwise. */
  function ParcelaDescricao(descricao: string, k: nat, n: nat): (d: string)
    ensures n <= 1 ==> d == descricao
    ensures n > 1 ==> descricao <= d && |d| > |descricao| + 4
    ensures n > 1 ==> d == descricao + " (" + Text.NatToString(k) + "/" + Text.NatToString(n) + ")"
  {
    if n > 1 then descricao + " (" + Text.NatToString(k) + "/" + Text.NatToString(n) + ")"
    else descricao
  }

  /** Installment `i` (from 0) of a purchase of `n`, worth `valor`: it is
      referenced `i` months after today, and only an installment of a split
      purchase carries the group fields. */
  function Parcela(id: nat, now: Clock, descricao: string, categoria: string, total: Cents,
                   n: nat, userId: Option<nat>, groupId: string, i: nat, valor: Cents): (l: Lancamento)
    ensures l.id == id && l.valor == valor
    ensures 12 * l.anoReferencia + l.mesReferencia == 12 * now.year + now.month + i
    ensures 1 <= l.mesReferencia <= 12
    ensures l.userId == userId && l.categoria == categoria && l.data == now.instant
    ensures l.descricao == ParcelaDescricao(descricao, i + 1, n)
    ensures n > 1 <==> IsParcelado(l)
    ensures n > 1 ==> l.parcelamentoId == Some(groupId) && l.parcelaAtual == Some(i + 1)
                      && l.parcelaTotal == Some(n) && l.valorTotalCompra == Some(total)
    ensures n <= 1 ==> l.parcelaAtual.None? && l.parcelaTotal.None? && l.valorTotalCompra.None?
  {
    var ref := AddMonths(now.month, now.year, i);
    var split := n > 1;
    Lancamento(id, ParcelaDescricao(descricao, i + 1, n), valor, categoria, now.instant,
               ref.0, ref.1, userId,
               if split then Some(groupId) else None,
               if split then Some(i + 1) else None,
               if split then Some(n) else None,
               if split then Some(total) else None)
  }

  /** The installment values of a purchase of `n`: as the handler computes
      them, or, when `corrigido`, with the corrected split. */
  function Installments(total: Cents, n: nat, corrigido: bool): (r: seq<Cents>)
    requires n >= 1
    ensures |r| == n && Sum(r) == total
  {
    if corrigido then SplitInstallments(total, n) else SplitAsWritten(total, n)
  }

  /** The entries of one purchase: consecutive fresh ids, one installment
      per month, worth the installments of `Installments`. */
  function BuildEntries(firstId: nat, now: Clock, descricao: string, categoria: string,
                        total: Cents, n: nat, userId: Option<nat>, groupId: string, corrigido: bool): (r: seq<Lancamento>)
    requires n >= 1
    ensures |r| == n
    ensures Valores(r) == Installments(total, n, corrigido)
    ensures forall i :: 0 <= i < n ==>
              r[i] == Parcela(firstId + i, now, descricao, categoria, total, n, userId, groupId,
                              i, Installments(total, n, corrigido)[i])
  {
    Parcelas(firstId, now, descricao, categoria, total, userId, groupId, Installments(total, n, corrigido))
  }

  /** One installment row per value in `vals`, with consecutive ids from `firstId`. */
  function Parcelas(firstId: nat, now: Clock, descricao: string, categoria: string,
                    total: Cents, userId: Option<nat>, groupId: string, vals: seq<Cents>): (r: seq<Lancamento>)
    ensures |r| == |vals|
    ensures Valores(r) == vals
    ensures forall i :: 0 <= i < |vals| ==>
              r[i] == Parcela(firstId + i, now, descricao, categoria, total, |vals|, userId, groupId, i, vals[i])
  {
    var n := |vals|;
    var r := seq(n, i requires 0 <= i < n =>
      Parcela(firstId + i, now, descricao, categoria, total, n, userId, groupId, i, vals[i]));
    assert Valores(r) == vals by {
      forall i | 0 <= i < n ensures Valores(r)[i] == vals[i] { }
    }
    r
  }

  function Valores(ls: seq<Lancamento>): (r: seq<Cents>)
    ensures |r| == |ls|
    ensures forall i :: 0 <= i < |ls| ==> r[i] == ls[i].valor
  {
    seq(|ls|, i requires 0 <= i < |ls| => ls[i].valor)
  }

  function LancValor(l: Lancamento): int { l.valor }

  /** An entry referenced to month `mes` of year `ano`. */
  predicate InMonth(l: Lancamento, mes: int, ano: int)
  {
    l.mesReferencia == mes && l.anoReferencia == ano
  }

  /** The total of the entries referenced to a month, whoever paid them. */
  function TotalDoMes(ls: seq<Lancamento>, mes: int, ano: int): Cents
  {
    SumWhere(ls, (l: Lancamento) => InMonth(l, mes, ano), LancValor)
  }

  /** The total of one user's credited entries referenced to a month. */
  function CreditadoA(ls: seq<Lancamento>, mes: int, ano: int, uid: nat): Cents
  {
    SumWhere(ls, (l: Lancamento) => InMonth(l, mes, ano) && l.userId == Some(uid), LancValor)
  }

  /** The total of every entry in the table. */
  function TotalLancado(ls: seq<Lancamento>): Cents
  {
    SumAll(ls, LancValor)
  }

  /** The form passes every check of the handler: description and value
      present, value and installment count parsed, value positive, payer valid. */
  predicate GastoAceito(s: Store, actor: User, descricao: string, valor: Input, parcelas: Input, pagador: Pagador)
  {
    && descricao != [] && valor.Given? && !parcelas.Malformed? && valor.n > 0
    && ResolvePayer(s.users, actor, pagador).PayerIs?
  }

  /** The checks in the handler's order, then the purchase's entries appended;
      `corrigido` picks the installment split. */
  function Lancar(s: Store, actor: User, now: Clock, descricao: string, valor: Input, categoria: string,
                  parcelas: Input, pagador: Pagador, groupId: string, corrigido: bool): (r: Step)
    ensures r.store == s.(lancamentos := r.store.lancamentos)
    ensures r.reply != Done ==> r.store == s
    ensures r.reply == Done <==> GastoAceito(s, actor, descricao, valor, parcelas, pagador)
    ensures r.reply == Done ==>
              var n := NumParcelas(parcelas);
              && |r.store.lancamentos| == |s.lancamentos| + n
              && r.store.lancamentos[..|s.lancamentos|] == s.lancamentos
              && r.store.lancamentos[|s.lancamentos|..]
                 == BuildEntries(NextId(LancamentoIds(s.lancamentos)), now, descricao, categoria, valor.n, n,
                                 ResolvePayer(s.users, actor, pagador).userId, groupId, corrigido)
  {
    if descricao == [] || valor.Blank? then Step(s, Refused(MissingField))
    else if valor.Malformed? || parcelas.Malformed? then Step(s, Refused(InvalidValue))
    else if valor.n <= 0 then Step(s, Refused(NotPositive))
    else match ResolvePayer(s.users, actor, pagador)
      case InvalidChoice => Step(s, Refused(InvalidPayer))
      case PayerIs(uid) =>
        var novos := BuildEntries(NextId(LancamentoIds(s.lancamentos)), now, descricao, categoria,
                                  valor.n, NumParcelas(parcelas), uid, groupId, corrigido);
        var ls := s.lancamentos + novos;
        assert ls[|s.lancamentos|..] == novos;
        Step(s.(lancamentos := ls), Done)
  }

  /** Adding an expense: description and value are required, value and
      installment count must parse, the value must be positive, and the
      payer must resolve. The purchase becomes `NumParcelas` entries, worth
      the installments exactly as the handler rounds them. */
  function AdicionarGasto(s: Store, actor: User, now: Clock, descricao: string, valor: Input,
                          categoria: string, parcelas: Input, pagador: Pagador, groupId: string): (r: Step)
    ensures r.store == s.(lancamentos := r.store.lancamentos)
    ensures r.reply != Done ==> r.store == s
    ensures descricao == [] || valor.Blank? ==> r.reply == Refused(MissingField)
    ensures r.reply == Done <==>
              && descricao != [] && valor.Given? && !parcelas.Malformed? && valor.n > 0
              && ResolvePayer(s.users, actor, pagador).PayerIs?
    ensures r.reply == Done ==>
              var n := NumParcelas(parcelas);
              && |r.store.lancamentos| == |s.lancamentos| + n
              && r.store.lancamentos[..|s.lancamentos|] == s.lancamentos
              && r.store.lancamentos[|s.lancamentos|..]
                 == BuildEntries(NextId(LancamentoIds(s.lancamentos)), now, descricao, categoria, valor.n, n,
                                 ResolvePayer(s.users, actor, pagador).userId, groupId, false)
  {
    Lancar(s, actor, now, descricao, valor, categoria, parcelas, pagador, groupId, false)
  }

  /** The same handler with the corrected split of `SplitInstallments`. */
  function AdicionarGastoCorrigido(s: Store, actor: User, now: Clock, descricao: string, valor: Input,
                                   categoria: string, parcelas: Input, pagador: Pagador, groupId: string): (r: Step)
    ensures r.store == s.(lancamentos := r.store.lancamentos)
    ensures r.reply != Done ==> r.store == s
    ensures r.reply == Done <==> GastoAceito(s, actor, descricao, valor, parcelas, pagador)
    ensures r.reply == Done ==>
              var n := NumParcelas(parcelas);
              && |r.store.lancamentos| == |s.lancamentos| + n
              && r.store.lancamentos[..|s.lancamentos|] == s.lancamentos
              && Valores(r.store.lancamentos[|s.lancamentos|..]) == SplitInstallments(valor.n, n)
  {
    Lancar(s, actor, now, descricao, valor, categoria, parcelas, pagador, groupId, true)
  }

  /** An accepted expense raises the total of all entries by exactly the
      amount typed, however many installments it is split into; every
      installment but the last is the rounded share and the last takes the
      rest. */
  lemma AdicionarGastoTotal(s: Store, actor: User, now: Clock, descricao: string, valor: Input,
                            categoria: string, parcelas: Input, pagador: Pagador, groupId: string)
    ensures var r := AdicionarGasto(s, actor, now, descricao, valor, categoria, parcelas, pagador, groupId);
            r.reply == Done ==>
              AppendsAsWritten(s.lancamentos, r.store.lancamentos, valor.n, NumParcelas(parcelas))
  {
    var r := AdicionarGasto(s, actor, now, descricao, valor, categoria, parcelas, pagador, groupId);
    if r.reply == Done {
      var n := NumParcelas(parcelas);
      assert Valores(r.store.lancamentos[|s.lancamentos|..]) == SplitAsWritten(valor.n, n) by {
        assert Installments(valor.n, n, false) == SplitAsWritten(valor.n, n);
      }
      AsWrittenEntries(s.lancamentos, r.store.lancamentos, valor.n, n);
    }
  }

  /** `ls` is `olds` with `n` installments of `total` appended as the handler
      rounds them: the total of the table is larger by `total`, the first
      `n - 1` new rows are the rounded share and the last one the rest. */
  predicate AppendsAsWritten(olds: seq<Lancamento>, ls: seq<Lancamento>, total: Cents, n: nat)
    requires n >= 1
  {
    var (k, base) := (|olds|, RoundHalfUp(total as real / n as real));
    && |ls| == k + n
    && TotalLancado(ls) == TotalLancado(olds) + total
    && (forall i :: k <= i < k + n - 1 ==> ls[i].valor == base)
    && ls[k + n - 1].valor == total - (n - 1) * base
  }

  /** A table that extends `olds` with the installments of `SplitAsWritten`:
      its total is larger by `total`, the first `n - 1` new rows are the
      rounded share and the last one the rest. */
  lemma AsWrittenEntries(olds: seq<Lancamento>, ls: seq<Lancamento>, total: Cents, n: nat)
    requires n >= 1 && |olds| <= |ls| && ls[..|olds|] == olds
    requires Valores(ls[|olds|..]) == SplitAsWritten(total, n)
    ensures AppendsAsWritten(olds, ls, total, n)
  {
    var k, novos := |olds|, ls[|olds|..];
    assert ls == olds + novos;
    EntriesAddTotal(olds, novos);
    var base := RoundHalfUp(total as real / n as real);
    var vals := SplitAsWritten(total, n);
    forall i | k <= i < k + n - 1
      ensures ls[i].valor == base
    {
      assert ls[i].valor == Valores(novos)[i - k];
    }
    assert ls[k + n - 1].valor == vals[n - 1];
    assert vals[..n - 1] + [vals[n - 1]] == vals;
    SumConstant(vals[..n - 1], base);
  }

  /** The handler as written stores a negative installment: R$0.06 in ten
      installments, by a resident, ends with an entry of -R$0.03. */
  lemma AdicionarGastoStoresNegative()
    ensures var s := Store([], [], [], [], [], [], [], []);
            var actor := User(1, "ana", "x", USUARIO, COMPARTILHADO);
            var r := AdicionarGasto(s, actor, Clock(0, 1, 2025), "luz", Given(6), "Contas", Given(10), Casa, "g");
            r.reply == Done && r.store.lancamentos[9].valor == -3
  {
    var actor := User(1, "ana", "x", USUARIO, COMPARTILHADO);
    assert !IsGerenciador(actor);
    SplitAsWrittenGoesNegative();
  }

  /** With the corrected split an accepted expense also raises the total by
      exactly the amount typed, and no installment is negative. */
  lemma AdicionarGastoCorrigidoTotal(s: Store, actor: User, now: Clock, descricao: string, valor: Input,
                                     categoria: string, parcelas: Input, pagador: Pagador, groupId: string)
    ensures var r := AdicionarGastoCorrigido(s, actor, now, descricao, valor, categoria, parcelas, pagador, groupId);
            r.reply == Done ==>
              && TotalLancado(r.store.lancamentos) == TotalLancado(s.lancamentos) + valor.n
              && forall i :: |s.lancamentos| <= i < |r.store.lancamentos| ==> r.store.lancamentos[i].valor >= 0
  {
    var r := AdicionarGastoCorrigido(s, actor, now, descricao, valor, categoria, parcelas, pagador, groupId);
    if r.reply == Done {
      CorrectedEntries(s.lancamentos, r.store.lancamentos, valor.n, NumParcelas(parcelas));
    }
  }

  /** A table that extends `olds` with the installments of `SplitInstallments`
      of a positive total: its total is larger by `total` and none of the new
      rows is negative. */
  lemma CorrectedEntries(olds: seq<Lancamento>, ls: seq<Lancamento>, total: Cents, n: nat)
    requires n >= 1 && total > 0 && |olds| <= |ls| && ls[..|olds|] == olds
    requires Valores(ls[|olds|..]) == SplitInstallments(total, n)
    ensures TotalLancado(ls) == TotalLancado(olds) + total
    ensures forall i :: |olds| <= i < |ls| ==> ls[i].valor >= 0
  {
    var k, novos := |olds|, ls[|olds|..];
    assert ls == olds + novos;
    EntriesAddTotal(olds, novos);
    forall i | k <= i < |ls|
      ensures ls[i].valor >= 0
    {
      assert ls[i].valor == Valores(novos)[i - k];
    }
  }

  /** Appending entries raises the total of the table by exactly their sum. */
  lemma EntriesAddTotal(olds: seq<Lancamento>, novos: seq<Lancamento>)
    ensures TotalLancado(olds + novos) == TotalLancado(olds) + Sum(Valores(novos))
  {
    SumWhereConcat(olds, novos, Always, LancValor);
    TotalIsSumOfValores(novos);
  }

  lemma {:induction false} TotalIsSumOfValores(ls: seq<Lancamento>)
    ensures TotalLancado(ls) == Sum(Valores(ls))
  {
    if |ls| > 0 {
      var n := |ls| - 1;
      TotalIsSumOfValores(ls[..n]);
      assert Valores(ls)[..n] == Valores(ls[..n]);
    }
  }

  /** Who may touch an entry: managers, and whoever is credited with it. */
  predicate MayChange(actor: User, l: Lancamento)
  {
    IsGerenciador(actor) || l.userId == Some(actor.id)
  }

  /** The month an entry is referenced to is closed. */
  predicate InClosedMonth(s: Store, l: Lancamento)
  {
    MonthIsClosed(s, l.mesReferencia, l.anoReferencia)
  }

  /** Editing an entry: the value must parse and be positive; description,
      value and category are replaced, and a manager may also move the
      credit (to the household or a valid non-admin user). The reference
      month and the installment fields never change. */
  function EditarLancamento(s: Store, actor: User, id: nat, descricao: string, valor: Input,
                            categoria: string, pagador: Pagador): (r: Step)
    ensures r.store == s.(lancamentos := r.store.lancamentos)
    ensures r.reply != Done ==> r.store == s
    ensures match IndexOfId(LancamentoIds(s.lancamentos), id)
      case None => r.reply == NotFound
      case Some(k) =>
        var l := s.lancamentos[k];
        && (!MayChange(actor, l) ==> r.reply == Forbidden)
        && (MayChange(actor, l) && InClosedMonth(s, l) ==> r.reply == Refused(MonthClosed))
        && (r.reply == Done <==>
              MayChange(actor, l) && !InClosedMonth(s, l) && valor.Given? && valor.n > 0
              && (IsGerenciador(actor) ==> ResolvePayer(s.users, actor, pagador).PayerIs?))
        && (r.reply == Done ==>
              && |r.store.lancamentos| == |s.lancamentos|
              && (forall i :: 0 <= i < |s.lancamentos| && i != k ==> r.store.lancamentos[i] == s.lancamentos[i])
              && var e := r.store.lancamentos[k];
                 && e == l.(descricao := descricao, valor := valor.n, categoria := categoria, userId := e.userId)
                 && e.userId == (if IsGerenciador(actor) then ResolvePayer(s.users, actor, pagador).userId
                                 else l.userId))
  {
    match IndexOfId(LancamentoIds(s.lancamentos), id)
    case None => Step(s, NotFound)
    case Some(k) =>
      var l := s.lancamentos[k];
      if !MayChange(actor, l) then Step(s, Forbidden)
      else if InClosedMonth(s, l) then Step(s, Refused(MonthClosed))
      else if !valor.Given? then Step(s, Refused(InvalidValue))
      else if valor.n <= 0 then Step(s, Refused(NotPositive))
      else
        var payer := if IsGerenciador(actor) then ResolvePayer(s.users, actor, pagador) else PayerIs(l.userId);
        match payer
        case InvalidChoice => Step(s, Refused(InvalidPayer))
        case PayerIs(uid) =>
          var e := l.(descricao := descricao, valor := valor.n, categoria := categoria, userId := uid);
          Step(s.(lancamentos := s.lancamentos[k := e]), Done)
  }

  /** Entries of a closed month are never edited, and an edit never moves an
      entry into or out of a closed month. */
  lemma EditarKeepsClosedMonths(s: Store, actor: User, id: nat, descricao: string, valor: Input,
                                categoria: string, pagador: Pagador)
    ensures var r := EditarLancamento(s, actor, id, descricao, valor, categoria, pagador);
            && |r.store.lancamentos| == |s.lancamentos|
            && forall i :: 0 <= i < |s.lancamentos| ==>
                 && (InClosedMonth(s, s.lancamentos[i]) ==> r.store.lancamentos[i] == s.lancamentos[i])
                 && (InClosedMonth(r.store, r.store.lancamentos[i]) <==> InClosedMonth(s, s.lancamentos[i]))
  {
    var r := EditarLancamento(s, actor, id, descricao, valor, categoria, pagador);
    assert r.store.fechamentos == s.fechamentos;
  }

  /** Deleting an entry, with the same permission and closed-month guards;
      only that entry goes, even when it is one installment of several. */
  function DeletarLancamento(s: Store, actor: User, id: nat): (r: Step)
    ensures r.store == s.(lancamentos := r.store.lancamentos)
    ensures r.reply != Done ==> r.store == s
    ensures match IndexOfId(LancamentoIds(s.lancamentos), id)
      case None => r.reply == NotFound
      case Some(k) =>
        var l := s.lancamentos[k];
        && (!MayChange(actor, l) ==> r.reply == Forbidden)
        && (r.reply == Done <==> MayChange(actor, l) && !InClosedMonth(s, l))
        && (r.reply == Done ==> r.store.lancamentos == RemoveAt(s.lancamentos, k))
  {
    match IndexOfId(LancamentoIds(s.lancamentos), id)
    case None => Step(s, NotFound)
    case Some(k) =>
      var l := s.lancamentos[k];
      if !MayChange(actor, l) then Step(s, Forbidden)
      else if InClosedMonth(s, l) then Step(s, Refused(MonthClosed))
      else Step(s.(lancamentos := RemoveAt(s.lancamentos, k)), Done)
  }

  /** Deleting one installment keeps every other entry, its siblings of the
      same purchase included, and every entry of a closed month. */
  lemma DeletarKeepsOthers(s: Store, actor: User, id: nat)
    ensures var r := DeletarLancamento(s, actor, id);
            && (forall i :: 0 <= i < |s.lancamentos| && s.lancamentos[i].id != id ==>
                  s.lancamentos[i] in r.store.lancamentos)
            && (forall i :: 0 <= i < |s.lancamentos| && InClosedMonth(s, s.lancamentos[i]) ==>
                  s.lancamentos[i] in r.store.lancamentos)
  {
    var r := DeletarLancamento(s, actor, id);
    if r.reply == Done {
      var k := IndexOfId(LancamentoIds(s.lancamentos), id).value;
      assert s.lancamentos[k].id == id;
      forall i | 0 <= i < |s.lancamentos| && i != k
        ensures s.lancamentos[i] in r.store.lancamentos
      {
        if i < k { assert r.store.lancamentos[i] == s.lancamentos[i]; }
        else { assert r.store.lancamentos[i - 1] == s.lancamentos[i]; }
      }
    }
  }
}

=== FILE: models.dfy ===
/**
 The record shapes of the household manager (users, chores, weekly chore
 rows, ledger entries, fixed expenses, petty-cash movements, monthly
 closings and balances), the role predicates, and the in-memory store the
 handlers transform: one sequence per table, kept in id order.
 */
module Models {
  import opened Common
  import Text

  /** Money is kept in integer cents. */
  type Cents = int

  type Month = m: int | 1 <= m <= 12 witness 1

  /** "Now", as the handlers read it from the clock: an instant used only to
      order movements by date, and the calendar month and year. */
  datatype Clock = Clock(instant: int, month: Month, year: nat)

  // Role names; `cargo` itself is free text.
  const ADMIN := "admin"
  const GERENCIADOR := "gerenciador"
  const USUARIO := "usuario"
  // Room types.
  const INDIVIDUAL := "individual"
  const COMPARTILHADO := "compartilhado"
  // Statuses.
  const PENDENTE := "pendente"
  const FEITA := "feita"
  const QUITADO := "quitado"
  const FECHADO := "fechado"
  const ABERTO := "aberto"
  // Kinds of weekly chore rows.
  const RECORRENTE := "recorrente"
  const AVULSA := "avulsa"
  // Keys of the master fixed expenses.
  const CHAVE_ALUGUEL := "Aluguel"
  const CHAVE_CAIXINHA := "Caixinha"

  /** A resident. `credential` stands for the password hash. */
  datatype User = User(id: nat, username: string, credential: string, cargo: string, tipoQuarto: string)

  /** A chore of the catalogue; the recurring ones seed the weekly rotation. */
  datatype Tarefa = Tarefa(id: nat, descricao: string, recorrente: bool)

  /** One chore of one ISO week, bound to a resident by username. */
  datatype EscalaSemanal = EscalaSemanal(id: nat, semana: int, ano: int, tarefa: string,
                                         responsavel: string, status: string, tipo: string)

  /** A variable expense; `userId` is who paid (None: the house), and the
      installment fields are set only on installments of a split purchase. */
  datatype Lancamento = Lancamento(id: nat, descricao: string, valor: Cents, categoria: string,
                                   data: int, mesReferencia: int, anoReferencia: int,
                                   userId: Option<nat>, parcelamentoId: Option<string>,
                                   parcelaAtual: Option<nat>, parcelaTotal: Option<nat>,
                                   valorTotalCompra: Option<Cents>)

  /** A monthly fixed expense: household-wide when `moradorId` is None,
      one resident's rent row otherwise. */
  datatype DespesaFixa = DespesaFixa(id: nat, descricao: string, valor: Cents, ativa: bool,
                                     moradorId: Option<nat>, diferencaIndividual: Cents)

  /** A signed petty-cash movement: deposits positive, withdrawals negative. */
  datatype CaixinhaMovimentacao = CaixinhaMovimentacao(id: nat, data: int, descricao: string,
                                                       valor: Cents, userId: Option<nat>)

  datatype FechamentoMensal = FechamentoMensal(id: nat, mes: int, ano: int, totalFixo: Cents,
                                               totalVariavel: Cents, totalAluguelMes: Cents,
                                               valorCaixinhaArrecadado: Cents, status: string)

  /** One resident's balance in one closing: credited (`totalGasto`) minus owed. */
  datatype SaldoMensal = SaldoMensal(id: nat, fechamentoId: nat, userId: nat, totalGasto: Cents,
                                     valorDevido: real, valorDevidoAluguel: Cents,
                                     valorDevidoOutros: real, valorDevidoPessoais: Cents,
                                     saldoFinal: real, statusPagamento: string)

  datatype Store = Store(users: seq<User>, tarefas: seq<Tarefa>, escala: seq<EscalaSemanal>,
                         lancamentos: seq<Lancamento>, fixas: seq<DespesaFixa>,
                         caixinha: seq<CaixinhaMovimentacao>, fechamentos: seq<FechamentoMensal>,
                         saldos: seq<SaldoMensal>)

  /** Why a handler refused a request; every refusal leaves the store as it was. */
  datatype Refusal =
    | MissingField | InvalidValue | NotPositive | Negative | Duplicate
    | NotAllowed | AdminOnly | CannotEditAdmin | InvalidRoomType | ManagedElsewhere | ProtectedRow
    | RecurringRow | NotAssignee | SelfRemoval | LastAdmin
    | MonthClosed | AlreadyClosed | NoResidents | MissingRent(userId: nat)
    | InsufficientBalance | InvalidPayer | HasBalances

  /** The answer of a handler: done, a flashed refusal, HTTP 403 or HTTP 404. */
  datatype Reply = Done | Refused(why: Refusal) | Forbidden | NotFound

  datatype Step = Step(store: Store, reply: Reply)

  predicate IsAdmin(u: User)
  {
    u.cargo == ADMIN
  }

  /** Managers are 'admin' and 'gerenciador': every admin is a manager and a
      plain 'usuario' never is. */
  predicate IsGerenciador(u: User): (r: bool)
    ensures IsAdmin(u) ==> r
    ensures u.cargo == USUARIO ==> !r
  {
    u.cargo in [ADMIN, GERENCIADOR]
  }

  /** An entry belongs to a split purchase exactly when it carries a group id. */
  predicate IsParcelado(l: Lancamento)
  {
    l.parcelamentoId.Some?
  }

  /** An entry is a house expense when nobody is credited for paying it. */
  predicate IsGastoDaCasa(l: Lancamento)
  {
    l.userId.None?
  }

  /** The residents that share costs: every user whose cargo is not 'admin', in table order. */
  function Moradores(users: seq<User>): (r: seq<User>)
    ensures |r| <= |users|
    ensures forall i :: 0 <= i < |r| ==> !IsAdmin(r[i]) && r[i] in users
    ensures forall i :: 0 <= i < |users| && !IsAdmin(users[i]) ==> users[i] in r
  {
    Filter(users, (u: User) => !IsAdmin(u))
  }

  /** The value column of a fixed expense, for sums over the table. */
  function FixaValor(f: DespesaFixa): int { f.valor }

  /** The documented balance identity of a closing row. */
  predicate BalanceIdentity(b: SaldoMensal)
  {
    b.saldoFinal == b.totalGasto as real - b.valorDevido
  }

  /** A month is closed when a closing with status 'fechado' exists for it. */
  predicate MonthIsClosed(s: Store, mes: int, ano: int)
  {
    exists i :: 0 <= i < |s.fechamentos| && IsClosingOf(s.fechamentos[i], mes, ano)
  }

  predicate IsClosingOf(f: FechamentoMensal, mes: int, ano: int)
  {
    f.mes == mes && f.ano == ano && f.status == FECHADO
  }

  /** The id the database hands out next: larger than every id in the table. */
  function NextId(ids: seq<nat>): (r: nat)
    ensures r > 0
    ensures forall i :: 0 <= i < |ids| ==> ids[i] < r
  {
    if |ids| == 0 then 1
    else var m := NextId(ids[..|ids| - 1]); if ids[|ids| - 1] < m then m else ids[|ids| - 1] + 1
  }

  function UserIds(rows: seq<User>): seq<nat> { seq(|rows|, i requires 0 <= i < |rows| => rows[i].id) }
  function TarefaIds(rows: seq<Tarefa>): seq<nat> { seq(|rows|, i requires 0 <= i < |rows| => rows[i].id) }
  function EscalaIds(rows: seq<EscalaSemanal>): seq<nat> { seq(|rows|, i requires 0 <= i < |rows| => rows[i].id) }
  function LancamentoIds(rows: seq<Lancamento>): seq<nat> { seq(|rows|, i requires 0 <= i < |rows| => rows[i].id) }
  function FixaIds(rows: seq<DespesaFixa>): seq<nat> { seq(|rows|, i requires 0 <= i < |rows| => rows[i].id) }
  function MovimentoIds(rows: seq<CaixinhaMovimentacao>): seq<nat> { seq(|rows|, i requires 0 <= i < |rows| => rows[i].id) }
  function FechamentoIds(rows: seq<FechamentoMensal>): seq<nat> { seq(|rows|, i requires 0 <= i < |rows| => rows[i].id) }
  function SaldoIds(rows: seq<SaldoMensal>): seq<nat> { seq(|rows|, i requires 0 <= i < |rows| => rows[i].id) }

  /** `Model.query.get(id)`: the position of the first row with that id. */
  function IndexOfId(ids: seq<nat>, id: nat): (r: Option<nat>)
    ensures r.Some? ==> r.value < |ids| && ids[r.value] == id
                        && forall j :: 0 <= j < r.value ==> ids[j] != id
    ensures r.None? ==> forall j :: 0 <= j < |ids| ==> ids[j] != id
  {
    if |ids| == 0 then None
    else if ids[0] == id then Some(0)
    else match IndexOfId(ids[1..], id)
      case None => None
      case Some(k) => Some(k + 1)
  }

  /** Ids are primary keys: no two rows of a table share one. */
  predicate DistinctIds(ids: seq<nat>)
  {
    forall i, j :: 0 <= i < j < |ids| ==> ids[i] != ids[j]
  }

  function CountAdmins(users: seq<User>): nat
  {
    Count(users, IsAdmin)
  }

  /** Deleting a closing deletes it and, by the cascade on its relationship,
      every balance row that points at it; nothing else changes. */
  function DeleteClosing(s: Store, k: nat): (r: Store)
    requires k < |s.fechamentos|
    ensures r.fechamentos == RemoveAt(s.fechamentos, k)
    ensures forall i :: 0 <= i < |r.saldos| ==> r.saldos[i] in s.saldos
                                                && r.saldos[i].fechamentoId != s.fechamentos[k].id
    ensures forall i :: 0 <= i < |s.saldos| && s.saldos[i].fechamentoId != s.fechamentos[k].id
                        ==> s.saldos[i] in r.saldos
    ensures r == s.(fechamentos := r.fechamentos, saldos := r.saldos)
  {
    s.(fechamentos := RemoveAt(s.fechamentos, k), saldos := SaldosFora(s.saldos, s.fechamentos[k].id))
  }

  /** The balance rows that do not belong to closing `fid`, in table order. */
  function SaldosFora(saldos: seq<SaldoMensal>, fid: nat): seq<SaldoMensal>
  {
    Filter(saldos, (b: SaldoMensal) => b.fechamentoId != fid)
  }
}

=== FILE: tarefas.dfy ===
/**
 The chore catalogue: creating, renaming and deleting chores. Only managers
 reach these handlers; chores created here never join the weekly rotation,
 and the rotation's recurring chores cannot be deleted.
 */
module Tarefas {
  import opened Common
  import opened Models
  import Text
  import Escala

  /** Some chore of the catalogue has exactly this description. */
  predicate HasDescription(tarefas: seq<Tarefa>, d: string)
  {
    exists i :: 0 <= i < |tarefas| && tarefas[i].descricao == d
  }

  /** No two chores of the catalogue share a description. */
  predicate DistinctDescriptions(tarefas: seq<Tarefa>)
  {
    forall i, j :: 0 <= i < j < |tarefas| ==> tarefas[i].descricao != tarefas[j].descricao
  }

  /** Creating a chore: the stripped description is required and must not be
      taken; the new chore is not recurring. */
  function CriarTarefa(s: Store, actor: User, descricao: string): (r: Step)
    ensures r.store == s.(tarefas := r.store.tarefas)
    ensures r.reply != Done ==> r.store == s
    ensures r.reply == Done <==>
              IsGerenciador(actor) && Text.Strip(descricao) != []
              && !HasDescription(s.tarefas, Text.Strip(descricao))
    ensures !IsGerenciador(actor) ==> r.reply == Forbidden
    ensures r.reply == Done ==>
              && |r.store.tarefas| == |s.tarefas| + 1
              && r.store.tarefas[..|s.tarefas|] == s.tarefas
              && var t := r.store.tarefas[|s.tarefas|];
                 t.descricao == Text.Strip(descricao) && !t.recorrente
                 && forall i :: 0 <= i < |s.tarefas| ==> s.tarefas[i].id < t.id
  {
    var d := Text.Strip(descricao);
    if !IsGerenciador(actor) then Step(s, Forbidden)
    else if d == [] then Step(s, Refused(MissingField))
    else if HasDescription(s.tarefas, d) then Step(s, Refused(Duplicate))
    else
      var ids := TarefaIds(s.tarefas);
      assert forall i :: 0 <= i < |s.tarefas| ==> s.tarefas[i].id == ids[i];
      Step(s.(tarefas := s.tarefas + [Tarefa(NextId(ids), d, false)]), Done)
  }

  /** Creation keeps the catalogue free of duplicate descriptions and leaves
      the chores of the weekly rotation as they were. */
  lemma CriarTarefaKeepsCatalogue(s: Store, actor: User, descricao: string)
    ensures var r := CriarTarefa(s, actor, descricao);
            && (DistinctDescriptions(s.tarefas) ==> DistinctDescriptions(r.store.tarefas))
            && Escala.RecurringDescriptions(r.store.tarefas) == Escala.RecurringDescriptions(s.tarefas)
  {
    var r := CriarTarefa(s, actor, descricao);
    if r.reply == Done {
      var t := r.store.tarefas[|s.tarefas|];
      assert r.store.tarefas == s.tarefas + [t];
      FilterConcat(s.tarefas, [t], (x: Tarefa) => x.recorrente);
      assert Filter([t], (x: Tarefa) => x.recorrente) == [] by {
        assert [t][..0] == [];
      }
    }
  }

  /** Renaming a chore: only the description of that chore changes, and its
      recurring flag and id stay. The new name is not checked for duplicates. */
  function EditTarefa(s: Store, actor: User, id: nat, descricao: string): (r: Step)
    ensures r.store == s.(tarefas := r.store.tarefas)
    ensures r.reply != Done ==> r.store == s
    ensures !IsGerenciador(actor) ==> r.reply == Forbidden
    ensures IsGerenciador(actor) ==>
              match IndexOfId(TarefaIds(s.tarefas), id)
              case None => r.reply == NotFound
              case Some(k) =>
                && (r.reply == Done <==> Text.Strip(descricao) != [])
                && (r.reply == Done ==>
                      r.store.tarefas == s.tarefas[k := s.tarefas[k].(descricao := Text.Strip(descricao))])
    ensures |r.store.tarefas| == |s.tarefas|
    ensures forall i :: 0 <= i < |s.tarefas| ==>
              r.store.tarefas[i].id == s.tarefas[i].id
              && r.store.tarefas[i].recorrente == s.tarefas[i].recorrente
  {
    var d := Text.Strip(descricao);
    if !IsGerenciador(actor) then Step(s, Forbidden)
    else match IndexOfId(TarefaIds(s.tarefas), id)
      case None => Step(s, NotFound)
      case Some(k) =>
        if d == [] then Step(s, Refused(MissingField))
        else
          Step(s.(tarefas := Renamed(s.tarefas, k, d)), Done)
  }

  /** The chores with row `k` renamed to `d`; every id and recurring flag stays. */
  function Renamed(ts: seq<Tarefa>, k: nat, d: string): (r: seq<Tarefa>)
    requires k < |ts|
    ensures r == ts[k := ts[k].(descricao := d)]
    ensures |r| == |ts|
    ensures forall i :: 0 <= i < |ts| ==> r[i].id == ts[i].id && r[i].recorrente == ts[i].recorrente
  { ts[k := ts[k].(descricao := d)] }

  /** Renaming never moves a chore into or out of the weekly rotation. */
  lemma EditTarefaKeepsRotationSize(s: Store, actor: User, id: nat, descricao: string)
    ensures var r := EditTarefa(s, actor, id, descricao);
            |Escala.RecurringDescriptions(r.store.tarefas)| == |Escala.RecurringDescriptions(s.tarefas)|
  {
    var r := EditTarefa(s, actor, id, descricao);
    RecurringFilterLength(r.store.tarefas, s.tarefas);
  }

  lemma {:induction false} RecurringFilterLength(a: seq<Tarefa>, b: seq<Tarefa>)
    requires |a| == |b|
    requires forall i :: 0 <= i < |a| ==> a[i].recorrente == b[i].recorrente
    ensures |Filter(a, (x: Tarefa) => x.recorrente)| == |Filter(b, (x: Tarefa) => x.recorrente)|
  {
    if |a| > 0 {
      var n := |a| - 1;
      RecurringFilterLength(a[..n], b[..n]);
    }
  }

  /** Deleting a chore: a recurring chore is refused; any other is removed. */
  function DeletarTarefa(s: Store, actor: User, id: nat): (r: Step)
    ensures r.store == s.(tarefas := r.store.tarefas)
    ensures r.reply != Done ==> r.store == s
    ensures !IsGerenciador(actor) ==> r.reply == Forbidden
    ensures IsGerenciador(actor) ==>
              match IndexOfId(TarefaIds(s.tarefas), id)
              case None => r.reply == NotFound
              case Some(k) =>
                && (r.reply == Done <==> !s.tarefas[k].recorrente)
                && (r.reply == Done ==> r.store.tarefas == RemoveAt(s.tarefas, k))
  {
    if !IsGerenciador(actor) then Step(s, Forbidden)
    else match IndexOfId(TarefaIds(s.tarefas), id)
      case None => Step(s, NotFound)
      case Some(k) =>
        if s.tarefas[k].recorrente then Step(s, Refused(RecurringRow))
        else Step(s.(tarefas := RemoveAt(s.tarefas, k)), Done)
  }

  /** Whatever is deleted, the chores of the weekly rotation stay, in order. */
  lemma DeletarTarefaKeepsRotation(s: Store, actor: User, id: nat)
    ensures var r := DeletarTarefa(s, actor, id);
            Escala.RecurringDescriptions(r.store.tarefas) == Escala.RecurringDescriptions(s.tarefas)
  {
    var r := DeletarTarefa(s, actor, id);
    if r.reply == Done {
      var k := IndexOfId(TarefaIds(s.tarefas), id).value;
      FilterRemoveAt(s.tarefas, k, (x: Tarefa) => x.recorrente);
    }
  }
}

=== FILE: text.dfy ===
/**
 The string operations the handlers rely on: `str.strip()`, `str.lower()`,
 Python's `in` on strings, SQL `LIKE` patterns and decimal formatting of
 integers in f-strings. Only ASCII letters and ASCII white space are
 treated specially.
 */
module Text {

  /** The ASCII characters `str.isspace()` accepts: space, tab, the line
      breaks, vertical tab, form feed and the separators 0x1C to 0x1F. */
  predicate IsSpace(c: char)
  {
    c == ' ' || c == '\t' || c == '\n' || c == '\r' || c == '\U{B}' || c == '\U{C}'
    || c == '\U{1C}' || c == '\U{1D}' || c == '\U{1E}' || c == '\U{1F}'
  }

  function LowerChar(c: char): char
  {
    if 'A' <= c <= 'Z' then (c as int + 32) as char else c
  }

  /** `s.lower()`, restricted to ASCII capitals. */
  function Lower(s: string): (r: string)
    ensures |r| == |s|
    ensures forall i :: 0 <= i < |s| ==> r[i] == LowerChar(s[i])
  {
    if |s| == 0 then [] else [LowerChar(s[0])] + Lower(s[1..])
  }

  function TrimLeft(s: string): (r: string)
    ensures |r| <= |s| && r == s[|s| - |r|..]
    ensures |r| > 0 ==> !IsSpace(r[0])
  {
    if |s| > 0 && IsSpace(s[0]) then TrimLeft(s[1..]) else s
  }

  function TrimRight(s: string): (r: string)
    ensures |r| <= |s| && r == s[..|r|]
    ensures |r| > 0 ==> !IsSpace(r[|r| - 1])
  {
    if |s| > 0 && IsSpace(s[|s| - 1]) then TrimRight(s[..|s| - 1]) else s
  }

  /** `s.strip()`: a slice of `s` with no white space at either end; empty
      exactly when `s` is only white space. */
  function Strip(s: string): (r: string)
    ensures |r| <= |s|
    ensures |r| > 0 ==> !IsSpace(r[0]) && !IsSpace(r[|r| - 1])
    ensures |r| == 0 <==> forall i :: 0 <= i < |s| ==> IsSpace(s[i])
  {
    StripEmpty(s);
    TrimRight(TrimLeft(s))
  }

  /** The ASCII separators that `str.isspace()` accepts are stripped too:
      a leading 0x1C is dropped. */
  lemma StripSeparator()
    ensures Strip("\U{1C}ana") == "ana"
  {
    var x, y := "\U{1C}ana", "ana";
    assert IsSpace(x[0]) && x[1..] == y;
    assert !IsSpace(y[0]) && !IsSpace(y[|y| - 1]);
    NoSpaceAtEnds(y);
  }

  /** A string with no white space at either end is its own strip. */
  lemma NoSpaceAtEnds(s: string)
    requires |s| > 0 && !IsSpace(s[0]) && !IsSpace(s[|s| - 1])
    ensures TrimLeft(s) == s && TrimRight(s) == s
  {
  }

  lemma {:induction false} StripEmpty(s: string)
    ensures |TrimRight(TrimLeft(s))| == 0 <==> forall i :: 0 <= i < |s| ==> IsSpace(s[i])
    decreases |s|
  {
    if |s| == 0 {
    } else if IsSpace(s[0]) {
      assert TrimLeft(s) == TrimLeft(s[1..]);
      StripEmpty(s[1..]);
      forall i | 1 <= i < |s| ensures s[i] == s[1..][i - 1] { }
    } else {
      assert TrimLeft(s) == s;
      TrimRightKeepsNonSpace(s, 0);
    }
  }

  lemma {:induction false} TrimRightKeepsNonSpace(s: string, i: nat)
    requires i < |s| && !IsSpace(s[i])
    ensures i < |TrimRight(s)|
    decreases |s|
  {
    if IsSpace(s[|s| - 1]) {
      TrimRightKeepsNonSpace(s[..|s| - 1], i);
    }
  }

  /** Python's `needle in hay` on strings: some slice of `hay` equals `needle`. */
  predicate Contains(hay: string, needle: string)
    decreases |hay|
  {
    needle <= hay || (|hay| > 0 && Contains(hay[1..], needle))
  }

  /** SQL `col LIKE '%key%'` under SQLite's default, ASCII case-insensitive, collation. */
  predicate LikeContains(col: string, key: string)
  {
    Contains(Lower(col), Lower(key))
  }

  /** SQL `col LIKE 'prefix%'` under the same collation. */
  predicate LikePrefix(col: string, prefix: string)
  {
    Lower(prefix) <= Lower(col)
  }

  lemma ContainsSelf(s: string)
    ensures Contains(s, s)
  {
  }

  /** A case-sensitive occurrence is also a case-insensitive one, so a column
      that does not `LIKE '%key%'` does not contain `key` either. */
  lemma {:induction false} ContainsLower(hay: string, needle: string)
    requires Contains(hay, needle)
    ensures Contains(Lower(hay), Lower(needle))
    decreases |hay|
  {
    if needle <= hay {
      assert Lower(needle) <= Lower(hay);
    } else {
      ContainsLower(hay[1..], needle);
      assert Lower(hay)[1..] == Lower(hay[1..]);
    }
  }

  function DigitChar(d: nat): char
    requires d < 10
  {
    "0123456789"[d]
  }

  /** Decimal rendering of a natural number, as `str(n)` / `f"{n}"` writes it. */
  function NatToString(n: nat): (r: string)
    ensures |r| > 0
    ensures forall i :: 0 <= i < |r| ==> '0' <= r[i] <= '9'
    ensures |r| > 1 ==> r[0] != '0'
    decreases n
  {
    if n < 10 then [DigitChar(n)] else NatToString(n / 10) + [DigitChar(n % 10)]
  }

  /** Decimal rendering of an integer, with a leading '-' when negative. */
  function IntToString(n: int): (r: string)
    ensures |r| > 0
    ensures n >= 0 ==> r == NatToString(n)
    ensures n < 0 ==> r[0] == '-' && r[1..] == NatToString(-n)
  {
    if n < 0 then "-" + NatToString(-n) else NatToString(n)
  }
}
